=== FILE: README.md ===
# unladen-swallow's JIT, as a Dafny model

Unladen Swallow compiles hot Python 2 functions to LLVM IR and runs the
resulting machine code in place of the bytecode interpreter. This project
models what that generated code does to one activation of a function, not the
IR that is emitted.

## What is modelled

- **The frame (`Frame`).** One activation is a record with these parts:
  - the value stack and the block stack;
  - the function's copies of the locals;
  - the unwind reason, the return value and the unwind target;
  - the thread's pending exception;
  - the `PyFrameObject` fields the code reads and writes.

  Push and Pop, the flush to the frame and the reload from it, and function
  entry are pure functions over that record. So are bail points, the
  propagate-exception block and the return block.
- **The unwind machine (`Unwinding`).** The dispatch loop over the block stack
  that the unwind block runs.
- **The opcode handlers.** Each handler is a function from a state to a `Step`,
  which says where control goes next and in what state. The handlers are in
  `Blocks`, `Control`, `Loop`, `StackOps`, `Locals`, `Call`, `Attributes`,
  `Container`, `Cmpops`, `Globals`, `Closure`, `Slice`, `Name` and
  `Unaryops`.
- **The Python runtime.** Every runtime entry point the generated code calls is
  an oracle, `Values.Runtime`. A call returns an object (NULL on failure), a
  status, and the exception a failing call leaves pending.
- **Feedback (`Feedback`).** The runtime feedback store (limited and full) and
  its saturating counters. The speculation predicates that read it live with
  the handlers that use them.
- **The background compilation thread (`SyncQueue`, `Scheduler`,
  `LlvmError`).** This is a sequential state machine:
  - foreground calls and worker iterations are atomic steps over one `Thread`
    record;
  - a blocking call is its own steps with the worker's steps run in between.
- **Global data (`GlobalData`).** The optimization-level check, the hysteresis
  of the unused-globals collection, the string-constant cache and the
  fast-calling-convention rule.
- **Constant diffing (`DiffConstants`).** The parallel walk over two LLVM
  constants that reports where they differ, with the visitor's calls as a
  list.

## Model

| member | source | states |
|---|---|---|
| Frame.Push | JIT/llvm_fbuilder.cc:1778-1790 | the stack grows by exactly one slot, which holds the pushed value; the slots below and the rest of the state are unchanged |
| Frame.Pop | JIT/llvm_fbuilder.cc:1792-1806 | the stack shrinks by one slot and the value handed back is the old top; the rest of the state is unchanged |
| Frame.Drop | JIT/opcodes/call.cc:258-266 | moving the stack pointer down n slots leaves exactly the first depth−n values |
| Frame.PopTo | JIT/llvm_fbuilder.cc:777-797 | PopAndDecrefTo leaves the first min(level, depth) values; a level above the depth pops nothing |
| Frame.PushPop | JIT/llvm_fbuilder.cc:1778-1806 | Pop after Push returns the pushed value and the original state |
| Frame.PopPush | JIT/llvm_fbuilder.cc:1778-1806 | pushing back what Pop returned restores the state |
| Frame.ParamCount | JIT/llvm_fbuilder.cc:875-881 | the parameter count is co_argcount plus one for each of CO_VARARGS and CO_VARKEYWORDS, and equals co_argcount exactly when neither flag is set |
| Frame.CopyLocalsFromFrameObject | JIT/llvm_fbuilder.cc:883-923 | a generator copies every local from the frame; any other function copies only the first ParamCount slots and sets every other local to NULL |
| Frame.CopyToFrameObject | JIT/llvm_fbuilder.cc:837-850 | f_stacktop holds the stack and f_blockstack the block stack; nothing else in the frame or the state changes |
| Frame.CopyFromFrameObject | JIT/llvm_fbuilder.cc:853-873 | the stack and block stack are reloaded from the frame, the locals are copied by the locals rule, and f_stacktop becomes NULL |
| Frame.CopyRoundTrip | JIT/llvm_fbuilder.cc:837-873 | flushing and then reloading gives back the same stack and block stack and leaves f_stacktop NULL; a generator whose locals mirror the frame also gets them back |
| Frame.Entry | JIT/llvm_fbuilder.cc:195-318 | a plain function starts with an empty value and block stack, NULL f_stacktop and only its parameters copied; a generator reloads everything from the frame; tracing bails with TRACE_ON_ENTRY and f_lasti untouched; a generator with f_throwflag set propagates; otherwise f_lasti −1 starts at opcode 0 and any other value resumes after that yield |
| Frame.EntryMirrorsFreshLocals | JIT/llvm_fbuilder.cc:883-923 | on a fresh frame, whose non-parameter slots are NULL, a plain function's locals equal the frame's fast locals, as debug builds assert at every load |
| Frame.AddUnwindTarget | JIT/llvm_fbuilder.cc:1021-1034 | the index comes back unchanged; the index is a case of the switch afterwards; a new index is added once, a known one changes nothing, and the cases stay duplicate-free |
| Frame.AddUnwindTargetIdempotent | JIT/llvm_fbuilder.cc:1021-1034 | registering a target twice is the same as registering it once |
| Frame.Return | JIT/llvm_fbuilder.cc:1036-1044 | the value goes into retval, the reason becomes RETURN and control enters the unwind block; nothing else changes |
| Frame.PropagateException | JIT/llvm_fbuilder.cc:346-370 | the propagate block sets retval to NULL and the reason to EXCEPTION before unwinding; nothing else changes |
| Frame.PushResultOf | JIT/llvm_fbuilder.cc:1995-2008 | a NULL result propagates, with the call's exception pending and the stack unchanged; any other result is pushed |
| Frame.CheckNonZero | JIT/llvm_fbuilder.cc:2025-2038 | a nonzero status propagates with the call's exception pending; zero falls through with the state unchanged |
| Frame.CheckNegative | JIT/llvm_fbuilder.cc:2010-2023 | a negative status propagates with the call's exception pending; anything else falls through with the state unchanged |
| Frame.CreateBailPoint | JIT/llvm_fbuilder.cc:1299-1310 | f_lasti becomes bail_idx − 1, f_bailed_from_llvm becomes the reason, and control goes to the bail block; nothing else changes |
| Frame.CreateGuardBailPoint | JIT/llvm_fbuilder.cc:1312-1321 | whatever the guard kind, a guard bail goes to the bail block with the frame recording GUARD_FAIL and the resume index one before the bail index, and changes nothing else |
| Frame.BailToInterpreter | JIT/llvm_fbuilder.cc:741-761 | the bail block clears f_use_jit and flushes the stack and block stack to the frame; no other frame field changes |
| Frame.GuardBailResumesAtOpcode | JIT/llvm_fbuilder.cc:1299-1321 | after a guard bail the interpreter gets the same stack and blocks, f_lasti one before the opcode, GUARD_FAIL, f_use_jit cleared and the locals untouched |
| Frame.DoReturn | JIT/llvm_fbuilder.cc:630-738 | the return block returns retval, except that a raising leave-function trace drops it and returns NULL |
| Frame.IsPythonTrue | JIT/llvm_fbuilder.cc:2051-2097 | True and False are decided by identity; any other object asks PyObject_IsTrue, where a negative answer fails with the call's exception and a positive one means true |
| Unwinding.Innermost | JIT/llvm_fbuilder.cc:509-573 | the block found is one that takes the reason and no block inside it does; −1 when none does. A loop block takes BREAK and CONTINUE, an except block only EXCEPTION, a finally block every reason |
| Unwinding.PushException | JIT/llvm_fbuilder.cc:527-549 | entering an except or finally handler for an exception clears the pending exception and pushes traceback, value and type, with a missing traceback or value as None |
| Unwinding.EnterHandler | JIT/llvm_fbuilder.cc:590-604 | entering a block clears the reason to NOUNWIND and jumps to the block's handler |
| Unwinding.UnwindFrom | JIT/llvm_fbuilder.cc:391-627 | the loop runs out of blocks exactly when no block takes the reason, and then the stacks are empty and retval is kept only for RETURN. Otherwise it stops at the innermost block that takes the reason. A loop block under CONTINUE is kept and control goes to the unboxed target held in retval. Any other taking block is popped and control goes to its handler, with the exception cleared when one was unwound. Only the stack, blocks, reason, target and pending exception change |
| Unwinding.Unwind | JIT/llvm_fbuilder.cc:391-393 | the unwind block, run for the reason stored before the branch, leaves the function with both stacks emptied exactly when no block takes that reason (keeping the return value only for a return); otherwise it clears the reason and jumps to the innermost taking block's handler, or to the continue target for a loop block meeting `continue`, and on a well-nested block stack the handler starts on `HandlerStack` |
| Unwinding.DropBlock | JIT/llvm_fbuilder.cc:479-482 | a popped block takes the values above its level with it |
| Unwinding.UnwindPassesOver | JIT/llvm_fbuilder.cc:509-525 | a block that does not take the reason is dropped, with the values above its level, and the loop goes on from there |
| Unwinding.UnwindEnters | JIT/llvm_fbuilder.cc:479-588 | a block that takes the reason is entered on the stack popped to its level plus the payload: tb, value, type for an exception; retval then the reason as an int for RETURN or CONTINUE; the reason alone for other reasons; nothing for a loop |
| Unwinding.HandlerStackAfterDrop | JIT/llvm_fbuilder.cc:479-525 | on a well-nested block stack, dropping a block that does not take the reason changes neither the block found nor the stack its handler will see |
| Unwinding.UnwindStackShape | JIT/llvm_fbuilder.cc:397-605 | on a well-nested block stack, the handler reached runs on the stack as it was when its block was set up, plus the payload for its kind |
| Unwinding.ReturnWithoutFinally | JIT/llvm_fbuilder.cc:607-627 | a return with no finally block on the block stack reaches the return block with the stacks empty and the return value intact |
| Unwinding.ExceptionWithoutHandler | JIT/llvm_fbuilder.cc:607-627 | an exception with only loop blocks above it reaches the return block with retval NULL and the exception still pending |
| Unwinding.BreakSkipsExceptBlocks | JIT/llvm_fbuilder.cc:517-525 | a break pops an innermost except block, with its values, and goes on unwinding |
| Blocks.SetupBlock | JIT/opcodes/block.cc:69-87 | a SETUP_* pushes one block holding its kind, its handler and the current stack depth; nothing else changes |
| Blocks.SetupBlockCode | JIT/opcodes/block.cc:69-87 | after a SETUP_* the handler is a case of the unwind-target switch, and the block pushed is the runtime SETUP_* for it |
| Blocks.PopBlock | JIT/opcodes/block.cc:38-51 | POP_BLOCK drops the innermost block and pops the stack to that block's level; nothing else changes |
| Blocks.SetupThenPop | JIT/opcodes/block.cc:30-87 | a SETUP_* followed by POP_BLOCK with nothing pushed in between gives back the original state |
| Blocks.BlockOpsKeepWellNested | JIT/opcodes/block.cc:30-87 | SETUP_* and POP_BLOCK keep the block levels non-decreasing and within the stack |
| Blocks.SetupKeepsHandlersRegistered | JIT/opcodes/block.cc:69-87 | when every block's handler is a case of the unwind-target switch, it stays so after a SETUP_* |
| Blocks.UnwindTargetRegistered | JIT/llvm_fbuilder.cc:376-387 | the unwind block never reaches the unreachable default of the target switch: every handler it enters, and every continue target, is a case |
| Blocks.EndFinally | JIT/opcodes/block.cc:89-211 | END_FINALLY falls through exactly on None; an int resumes the unwind for the truncated reason, popping the saved value into retval for RETURN and CONTINUE; an exception class or string restores the type, value and traceback below it; anything else raises SystemError "'finally' pops bad exception" |
| Blocks.FinallyEntry | JIT/llvm_fbuilder.cc:479-604 | an unwind into an innermost finally block enters its handler on the stack at the block's level plus the payload, with the block gone and the exception cleared when one was unwound |
| Blocks.FinallyRoundTripException | JIT/opcodes/block.cc:151-176 | an exception unwound into a finally block is restored by END_FINALLY with the same type, value and traceback, and the unwind resumes from the block's level |
| Blocks.FinallyRoundTripValue | JIT/opcodes/block.cc:117-149 | a return or continue unwound into a finally block is resumed by END_FINALLY with the same return value or target |
| Blocks.FinallyRoundTripBreak | JIT/opcodes/block.cc:117-149 | a break unwound into a finally block is resumed by END_FINALLY |
| Blocks.FinallyRoundTrip | JIT/opcodes/block.cc:89-211 | unwinding into a finally block and then running END_FINALLY resumes the same unwind, with the stack at the block's level and the block gone |
| Blocks.ExitDepth | JIT/opcodes/block.cc:266-339 | `__exit__` lies 2 below the top under None or a plain reason, 3 under RETURN or CONTINUE with its value, and 4 under a saved exception |
| Blocks.WithoutExit | JIT/opcodes/block.cc:216-236 | removing `__exit__` keeps the values above and below it in order and changes nothing else |
| Blocks.ExitCallOperands | JIT/opcodes/block.cc:266-350 | each of the four entry cases leaves the stack without `__exit__`, hands back `__exit__`, and picks the saved exception as arguments, or three Nones in every other case |
| Blocks.WithCleanup | JIT/opcodes/block.cc:213-395 | a failing `__exit__` call propagates with `__exit__` removed; it falls through exactly when the call succeeds and either there was no exception or the truth test succeeds; a true result under an exception replaces the three saved values by None, otherwise only `__exit__` leaves the stack |
| Control.DoRaise | JIT/opcodes/control.cc:60-96 | every raise sets the reason to EXCEPTION, retval to NULL and the exception `_PyEval_DoRaise` leaves; it goes straight to the unwind block exactly when that call answers RERAISE, and through the propagate block otherwise |
| Control.RaiseVarargs | JIT/opcodes/control.cc:98-132 | RAISE_VARARGS n pops n values, read from the bottom up as type, instance and traceback, with the missing ones NULL, and raises them |
| Control.ReturnValue | JIT/opcodes/control.cc:134-146 | RETURN_VALUE pops the top value into retval with reason RETURN and unwinds |
| Control.ReturnValueReturnsTop | JIT/opcodes/control.cc:134-146 | with no finally block active, the function returns the value popped, with both stacks empty, unless a leave-function trace raises |
| Control.YieldCode | JIT/opcodes/control.cc:158-161 | YIELD_VALUE adds its opcode index as one more case of the generator-resume switch, after the existing cases, which keep their order, and changes nothing else in the function being built |
| Control.YieldValue | JIT/opcodes/control.cc:148-191 | a yield pops the value into retval with reason YIELD, flushes the remaining stack and the block stack to the frame, stores its index in f_lasti, and goes to the return block without unwinding; no other frame field changes |
| Control.YieldResumeRoundTrip | JIT/opcodes/control.cc:148-191 | re-entering a generator that yielded resumes right after the yield with the stack, blocks and locals it left, and f_lasti −2 |
| Control.PredictBranchInput | JIT/opcodes/control.cc:210-238 | a branch is predicted true exactly when more than 200 outcomes are recorded and none was false, and false exactly when more than 200 are recorded and none was true |
| Control.TakeEdge | JIT/opcodes/control.cc:240-276 | an edge the prediction rules out becomes a guard bail of kind BRANCH to that edge's opcode index; every other edge is kept |
| Control.PopJumpIf | JIT/opcodes/control.cc:279-316 | POP_JUMP_IF_FALSE and _TRUE pop exactly one value whatever happens; the step propagates the truth test's exception exactly when that test fails; a jump goes to the target and a fall-through continues, both on the popped stack; a bail records GUARD_FAIL and resumes at the target or the next opcode; with no prediction it jumps exactly when the truth equals the opcode's sense |
| Control.JumpIfOrPop | JIT/opcodes/control.cc:319-376 | JUMP_IF_FALSE_OR_POP and _TRUE_OR_POP propagate, with the value still on the stack, exactly when the truth test fails; a jump keeps the value and goes to the target; a fall-through pops it; a bail records GUARD_FAIL, keeping the value for the target and popping it for the next opcode; with no prediction it jumps exactly when the truth equals the opcode's sense |
| Control.PopJumpIfPredictionIsSafe | JIT/opcodes/control.cc:278-316 | for POP_JUMP_IF_FALSE and _TRUE, the predicted code either does what the unpredicted code does or bails with GUARD_FAIL at the same opcode with the same stack, blocks and exception; the unpredicted code propagates exactly when the truth test fails and jumps with the value popped when it matches |
| Control.JumpIfOrPopPredictionIsSafe | JIT/opcodes/control.cc:318-376 | the same for JUMP_IF_FALSE_OR_POP and _TRUE_OR_POP; the unpredicted code jumps keeping the value when it matches and pops it and falls through otherwise |
| Loop.GetIterOp | JIT/opcodes/loop.cc:27-38 | GET_ITER replaces the top value with its iterator, or propagates the failure with the value gone |
| Loop.ForIter | JIT/opcodes/loop.cc:40-93 | FOR_ITER pushes the next item above the iterator; a NULL with no exception, or with StopIteration (cleared), pops the iterator and jumps to the loop's end; any other exception propagates with the iterator popped |
| Loop.ContinueLoopCode | JIT/opcodes/loop.cc:95-121 | CONTINUE_LOOP registers the loop start as a case of the unwind-target switch |
| Loop.ContinueLoop | JIT/opcodes/loop.cc:95-121 | CONTINUE_LOOP unwinds for CONTINUE with the boxed target in retval; nothing else changes |
| Loop.BreakLoop | JIT/opcodes/loop.cc:123-137 | BREAK_LOOP unwinds for BREAK; nothing else changes |
| Loop.ContinueReachesLoopStart | JIT/opcodes/loop.cc:95-121 | a continue whose innermost taking block is its loop arrives at the loop start, a registered target, with the loop block kept |
| Loop.BreakLeavesLoop | JIT/opcodes/loop.cc:123-137 | a break with a loop as its innermost taking block leaves through that loop's handler, with the block gone and the stack at the loop's level |
| StackOps.PopTop | JIT/opcodes/stack.cc:23-27 | POP_TOP drops the top value and nothing else |
| StackOps.DupTop | JIT/opcodes/stack.cc:29-36 | DUP_TOP appends a copy of the top value and nothing else |
| StackOps.DupTopTwo | JIT/opcodes/stack.cc:38-49 | DUP_TOPX 2 appends copies of the top two values in order |
| StackOps.DupTopThree | JIT/opcodes/stack.cc:51-66 | DUP_TOPX 3 appends copies of the top three values in order |
| StackOps.RotTwo | JIT/opcodes/stack.cc:68-75 | ROT_TWO swaps the top two values and keeps everything below |
| StackOps.RotThree | JIT/opcodes/stack.cc:77-86 | ROT_THREE moves the top value to third place and lifts the other two |
| StackOps.RotFour | JIT/opcodes/stack.cc:88-99 | ROT_FOUR moves the top value to fourth place and lifts the other three |
| StackOps.RotTwoInvolution | JIT/opcodes/stack.cc:68-75 | ROT_TWO twice is the identity |
| StackOps.RotThreeCycle | JIT/opcodes/stack.cc:77-86 | ROT_THREE three times is the identity |
| StackOps.RotFourCycle | JIT/opcodes/stack.cc:88-99 | ROT_FOUR four times is the identity |
| StackOps.DupThenPop | JIT/opcodes/stack.cc:23-36 | DUP_TOP then POP_TOP is the identity |
| Locals.UnboundLocal | JIT/opcodes/locals.cc:89-95 | an unbound local raises UnboundLocalError |
| Locals.LoadConst | JIT/opcodes/locals.cc:23-32 | LOAD_CONST pushes the code object's constant at the index and changes nothing else |
| Locals.LoadFastFast | JIT/opcodes/locals.cc:49-65 | the unchecked LOAD_FAST pushes the function's copy of the local and falls through |
| Locals.LoadFastSafe | JIT/opcodes/locals.cc:67-100 | the checked LOAD_FAST propagates UnboundLocalError exactly when the local is NULL, and otherwise pushes it |
| Locals.LoadFast | JIT/opcodes/locals.cc:38-47 | the unchecked load is used exactly for a parameter of code that never uses DELETE_FAST |
| Locals.LoadFastFastIsSound | JIT/opcodes/locals.cc:41-46 | when every parameter is bound, the unchecked load of a parameter does what the checked load would |
| Locals.EntryBindsParams | JIT/llvm_fbuilder.cc:883-923 | a plain function entered with every argument slot bound has every parameter bound in its own copy of the locals |
| Locals.SetLocal | JIT/opcodes/locals.cc:108-126 | a store writes the value to the same slot of both the function's copy and the frame's fast locals, and nothing else changes |
| Locals.StoreFast | JIT/opcodes/locals.cc:102-106 | STORE_FAST pops the top value into the local in both copies, leaves every other local alone, and keeps the two copies equal when they were |
| Locals.DeleteFast | JIT/opcodes/locals.cc:128-162 | DELETE_FAST propagates UnboundLocalError exactly when the local is NULL, and otherwise sets it to NULL in both copies, keeping them equal when they were |
| Locals.StoreThenLoad | JIT/opcodes/locals.cc:38-126 | STORE_FAST then LOAD_FAST of the same local gives back the stored value and the original stack, whichever load variant is chosen |
| Locals.DeleteThenLoadRaises | JIT/opcodes/locals.cc:38-162 | in code that uses DELETE_FAST, deleting a bound local and then loading it raises UnboundLocalError |
| Call.NumArgs | JIT/opcodes/call.cc:321-322 | the positional count is the oparg's low byte, below 256 |
| Call.NumKwargs | JIT/opcodes/call.cc:321-322 | the keyword count is the oparg's second byte, below 256 |
| Call.CheckTicker | JIT/llvm_fbuilder.cc:1820-1833 | the ticker check falls through, with the state unchanged, exactly when `_PyLlvm_DecAndCheckPyTicker` is not negative, and otherwise propagates its exception |
| Call.FinishCall | JIT/opcodes/call.cc:254-272 | a call's end drops the consumed slots; a NULL result propagates the call's exception; any other result is pushed and the ticker decides between falling through and propagating |
| Call.CallFunctionSafe | JIT/opcodes/call.cc:311-344 | the generic call passes the callable, the positional arguments and 2 slots per keyword argument with both counts, and replaces exactly those slots with the result, or propagates |
| Call.CallVarKw | JIT/opcodes/call.cc:360-402 | the var/kw call consumes the generic slots plus one for `*args` under the VAR flag and one for `**kwargs` under the KW flag, and replaces them with the result, or propagates |
| Call.VarKwSlotCounts | JIT/opcodes/call.cc:384-390 | each of CALL_FUNCTION_VAR and CALL_FUNCTION_KW consumes one slot more than the generic call, CALL_FUNCTION_VAR_KW two more |
| Call.ChoosePath | JIT/opcodes/call.cc:75-116 | the direct path is chosen exactly when there is feedback that did not overflow, no keyword arguments, exactly one recorded method definition, and that definition declares an arity range containing the argument count |
| Call.LenHelper | JIT/opcodes/call.cc:198-222 | `len` is inlined exactly when the first argument's recorded type is exactly str, unicode, list, tuple or dict, using that type's helper |
| Call.DirectArgs | JIT/opcodes/call.cc:224-249 | the direct call passes the callee's self, a NULL for a nullary function, the arguments bottom first, and NULL padding up to the maximum arity |
| Call.DirectCall | JIT/opcodes/call.cc:224-274 | the direct call replaces the callable and its arguments with the C function's result, or propagates its exception |
| Call.FastLenAsWritten | JIT/opcodes/call.cc:276-309 | as written, the length helper's NULL answer takes the guard bail on the stack with the argument already popped |
| Call.FastLen | JIT/opcodes/call.cc:276-309 | as intended, the length path bails exactly when the helper answers NULL, on the opcode's own stack, and otherwise replaces the callable and argument with the length |
| Call.CallFunctionFast | JIT/opcodes/call.cc:76-274 | CALL_FUNCTION_fast bails with CALL_PROFILE when profiling is possible and with GUARD_FAIL when the callee is not the recorded C function, both with the stack untouched and resuming at the opcode; with the corrected length path every bail leaves the stack untouched; a fall-through replaces the callable and its arguments with one non-NULL result |
| Call.LenPath | JIT/opcodes/call.cc:277-309 | the length path either bails with GUARD_FAIL at the opcode, with the stack untouched under the corrected order, or replaces the callable and its argument with one non-NULL length, or propagates |
| Call.CallFunctionOp | JIT/opcodes/call.cc:347-354 | CALL_FUNCTION is the generic call whenever the feedback does not choose the direct path; only the direct path can bail, and it always does when profiling is possible |
| Call.CallFunctionBailsCleanly | JIT/opcodes/call.cc:75-354 | with the corrected length path, every bail of CALL_FUNCTION hands the interpreter the stack the opcode started with and resumes at the opcode; every other outcome replaces the callable and its arguments with one non-NULL result, or propagates |
| Call.FastPathMatchesGenericShape | JIT/opcodes/call.cc:75-309 | when both the fast path and the generic call succeed, they leave stacks of the same height that agree below the call's slots |
| Call.FastLenAsWrittenLosesArgument | JIT/opcodes/call.cc:284-291 | as written, a failed length guard hands the interpreter a stack one value short of the one CALL_FUNCTION started with |
| Call.FastLenAsWrittenCounterexample | JIT/opcodes/call.cc:199-291 | `len(x)` compiled for a str argument and reached with a list resumes CALL_FUNCTION 1 with `len` alone on the stack |
| Attributes.CacheTypeLookup | JIT/opcodes/attributes.cc:317-332 | the accessor records the type's dictoffset and the name's lookup on the type; a getter is recorded exactly when the descriptor's type has the have-class bit and a getter, and the descriptor is a data descriptor exactly when that type also has a setter |
| Attributes.CanOptimizeAttrAccess | JIT/opcodes/attributes.cc:235-315 | an access is specialised exactly when the name is a str, the feedback did not overflow and saw one type, that type has a version tag and the generic getattr (setattr for a store), and a descriptor with a getter has a type with a version tag; only then is the type added to the watched types |
| Attributes.PlanAttrAccess | JIT/opcodes/attributes.cc:350-392 | emitting the guards of a specialised access also watches the descriptor's type when there is a descriptor; a refused access changes nothing |
| Attributes.PlannedTypesAreWatched | JIT/opcodes/attributes.cc:264-392 | every type a specialised access depends on, the guarded type and the descriptor's type, is watched for modification, and no watched type is dropped |
| Attributes.LoadAttrSafe | JIT/opcodes/attributes.cc:102-114 | the generic LOAD_ATTR replaces the object with PyObject_GetAttr's result or propagates |
| Attributes.LoadAttrFast | JIT/opcodes/attributes.cc:116-161 | a failed guard (code invalidated, other type, other descriptor type) bails with the object back on the stack; otherwise the object is replaced by the inlined getattr's result, called with the compile-time facts |
| Attributes.LoadAttr | JIT/opcodes/attributes.cc:93-100 | LOAD_ATTR takes the fast path exactly when the access was specialised |
| Attributes.LoadAttrShape | JIT/opcodes/attributes.cc:93-161 | LOAD_ATTR either bails on the opcode's own stack at the opcode, or replaces the object with one non-NULL value, or propagates with the object popped |
| Attributes.StoreAttrSafe | JIT/opcodes/attributes.cc:172-185 | the generic STORE_ATTR pops the object and then the value and calls PyObject_SetAttr; a nonzero status propagates |
| Attributes.StoreAttrFast | JIT/opcodes/attributes.cc:187-233 | a failed guard bails with the object back on the stack; otherwise the object and value are consumed by the inlined setattr |
| Attributes.StoreAttr | JIT/opcodes/attributes.cc:163-170 | STORE_ATTR takes the fast path exactly when the access was specialised |
| Attributes.StoreAttrShape | JIT/opcodes/attributes.cc:163-233 | STORE_ATTR either bails on the opcode's own stack at the opcode or consumes the object and the value and pushes nothing |
| Attributes.DeleteAttr | JIT/opcodes/attributes.cc:400-412 | DELETE_ATTR pops the object and propagates exactly when setting the attribute to NULL fails |
| Attributes.DeleteIsStoreOfNull | JIT/opcodes/attributes.cc:172-412 | DELETE_ATTR does what the generic STORE_ATTR does with a NULL value under the object |
| Container.BuildSequenceLiteral | JIT/opcodes/container.cc:53-87 | BUILD_LIST and BUILD_TUPLE propagate, with nothing popped, exactly when allocating the sequence fails; otherwise the top n values are replaced by one sequence holding them in stack order |
| Container.BuildMap | JIT/opcodes/container.cc:89-100 | BUILD_MAP pushes the presized dict, or propagates exactly when allocating it fails |
| Container.UnpackedItems | JIT/opcodes/container.cc:103-133 | the unpack helper yields exactly n items |
| Container.Reverse | JIT/opcodes/container.cc:122-124 | the items are written in reverse, so the first item ends on top |
| Container.UnpackSequence | JIT/opcodes/container.cc:102-133 | UNPACK_SEQUENCE pops the iterable and propagates exactly when the helper fails; otherwise the n items sit above the rest of the stack, the first on top |
| Container.StoreSubscrSafe | JIT/opcodes/container.cc:167-182 | the generic STORE_SUBSCR pops key, container and value and calls PyObject_SetItem; a nonzero status propagates |
| Container.PopThreePushThree | JIT/opcodes/container.cc:143-158 | pushing back value, container and key after popping them restores the state |
| Container.StoreSubscrListInt | JIT/opcodes/container.cc:137-165 | the list/int store bails, with the operands back in place, exactly when the list helper answers nonzero, and otherwise consumes the three operands |
| Container.StoreSubscrOp | JIT/opcodes/container.cc:186-204 | STORE_SUBSCR is specialised exactly when the container has only been seen as a list and the key as an int |
| Container.StoreSubscrSpecialisationIsSafe | JIT/opcodes/container.cc:137-204 | when the generic store would succeed, the specialised one does the same or bails at the opcode with its stack intact |
| Container.DeleteSubscrOp | JIT/opcodes/container.cc:206-218 | DELETE_SUBSCR consumes key and container and propagates exactly when PyObject_DelItem fails; nothing else changes |
| Container.ListAppendOp | JIT/opcodes/container.cc:220-232 | LIST_APPEND consumes the item and the list and propagates exactly when PyList_Append fails; nothing else changes |
| Container.StoreMap | JIT/opcodes/container.cc:234-254 | STORE_MAP consumes key and value, keeps the dict on the stack whatever happens, and propagates exactly when PyDict_SetItem fails |
| Container.SeenModule | JIT/opcodes/container.cc:285-295 | a module is known exactly when the feedback did not overflow and saw exactly one object, a module |
| Container.PlanImportAsWritten | JIT/opcodes/container.cc:282-316 | as written, the fast import is compiled exactly for a known module when sys.modules is already watched or can be watched now, and the watches are marked used only when they are set up here |
| Container.PlanImport | JIT/opcodes/container.cc:282-316 | as intended, the fast import is compiled in the same cases and always marks sys.modules as used |
| Container.FinishWatches | JIT/llvm_fbuilder.cc:2100-2111 | after compilation a code object keeps watching exactly the dicts the compiled code marked used |
| Container.FastImportStaysWatched | JIT/opcodes/container.cc:296-316 | as intended, code that relies on the module it saw stays subscribed to sys.modules |
| Container.FastImportAsWrittenLosesWatch | JIT/opcodes/container.cc:296-316 | as written, a recompilation that finds sys.modules already watched compiles the fast import and then drops the watch |
| Container.ImportNameOp | JIT/opcodes/container.cc:258-346 | the fast IMPORT_NAME bails fatally, with the stack untouched, once the code is invalidated, and otherwise replaces its three operands with the module; the generic path replaces them with `_PyEval_ImportName`'s result or propagates |
| Container.ImportNameShape | JIT/opcodes/container.cc:258-346 | both paths consume three values and push one non-NULL value on success; a bail keeps the stack, a propagation drops the three |
| Cmpops.FastCompareName | JIT/opcodes/cmpops.cc:107-125 | the optimized path is taken exactly when both operands have type feedback and the table of optimized operations has a helper for the operation and those two types |
| Cmpops.CompareFast | JIT/opcodes/cmpops.cc:43-105 | the optimized comparison bails with GUARD_FAIL and lhs and rhs back in place exactly when its helper answers NULL, and otherwise replaces them with the answer |
| Cmpops.Test | JIT/opcodes/cmpops.cc:199-225 | a status test fails with the call's exception exactly when the status is negative, and is true exactly when it is positive |
| Cmpops.PushTest | JIT/opcodes/cmpops.cc:175-181 | a successful test pushes True or False, a failed one propagates its exception |
| Cmpops.CompareSafe | JIT/opcodes/cmpops.cc:127-197 | the generic comparison pops rhs and lhs; IS and IS NOT push the identity result; the rich comparisons push PyObject_RichCompare's result or propagate; IN, NOT IN and EXC_MATCH push True or False or propagate; the rest of the stack is untouched |
| Cmpops.CompareOp | JIT/opcodes/cmpops.cc:43-182 | COMPARE_OP is a fatal error exactly for an unknown comparison code, and otherwise takes the optimized path exactly when a helper is found |
| Cmpops.NotInNegatesIn | JIT/opcodes/cmpops.cc:146-157 | NOT IN fails exactly when IN does, with the same error, and otherwise pushes the opposite boolean |
| Cmpops.IsNotNegatesIs | JIT/opcodes/cmpops.cc:134-145 | IS NOT always succeeds and pushes the opposite of IS |
| Cmpops.FastCompareIsSafe | JIT/opcodes/cmpops.cc:43-197 | when the helper agrees with the rich comparison wherever it answers, the optimized path either bails at the opcode with its stack intact or does exactly what the generic path does |
| Globals.DictGet | JIT/opcodes/globals.cc:101-120 | a dict lookup answers the mapped object, or NULL for a missing name |
| Globals.GlobalNameError | JIT/opcodes/globals.cc:122-126 | a missing global raises NameError |
| Globals.Resolve | JIT/opcodes/globals.cc:40-52 | a global name resolves to the globals dict's entry when there is one, and to the builtins dict's entry otherwise |
| Globals.PlanLoadGlobal | JIT/opcodes/globals.cc:21-54 | the object is baked into the code exactly when both dicts are watched and the name resolves in them, and only then are both watches marked used |
| Globals.LoadGlobalSafe | JIT/opcodes/globals.cc:87-137 | the generic LOAD_GLOBAL pushes the resolved object and propagates NameError exactly when the name is in neither dict |
| Globals.LoadGlobalOp | JIT/opcodes/globals.cc:33-85 | a baked-in object is pushed while the code is valid, and the code bails fatally with the stack untouched once it has been invalidated |
| Globals.LoadGlobalFastAgrees | JIT/opcodes/globals.cc:21-137 | while the watched dicts are the frame's dicts, unchanged, and the code is valid, LOAD_GLOBAL does exactly what the generic lookup does |
| Globals.BakedGlobalIsWatched | JIT/opcodes/globals.cc:53-54 | a baked-in global keeps both the globals and the builtins watches after compilation |
| Globals.StoreGlobalOp | JIT/opcodes/globals.cc:139-150 | STORE_GLOBAL pops the value and stores it under the name in the globals dict; a nonzero status propagates |
| Globals.DeleteGlobalOp | JIT/opcodes/globals.cc:152-171 | DELETE_GLOBAL leaves the stack alone and propagates exactly when the deletion fails, always as NameError |
| Closure.LoadClosure | JIT/opcodes/closure.cc:23-33 | LOAD_CLOSURE pushes the cell in the given slot and changes nothing else |
| Closure.MakeClosure | JIT/opcodes/closure.cc:35-92 | MAKE_CLOSURE succeeds exactly when making the function, setting its closure, allocating the defaults tuple and setting the defaults all succeed, leaving only the new function in place of its operands; each failure propagates with what had been popped gone |
| Closure.MakeClosureStackEffect | JIT/opcodes/closure.cc:35-92 | a successful MAKE_CLOSURE shrinks the stack by one plus the number of defaults, leaves the non-NULL function on top, and set as defaults the values just below the closure, bottom first |
| Closure.LoadDeref | JIT/opcodes/closure.cc:94-139 | a full cell's contents are pushed; an empty cell raises the unbound free variable error unless reading it already raised, in which case that error propagates |
| Closure.LoadDerefPushesCellContents | JIT/opcodes/closure.cc:94-139 | LOAD_DEREF falls through exactly when the cell is full, and then it only pushes the cell's contents; a failure changes nothing but the pending error |
| Closure.StoreDeref | JIT/opcodes/closure.cc:141-158 | STORE_DEREF pops the value, sets the cell and propagates on a nonzero status, the value gone either way |
| Slice.OperandCount | JIT/opcodes/slice.cc:53-87 | a slice takes the sequence plus one value for each bound it wrote |
| Slice.OperandsOf | JIT/opcodes/slice.cc:53-87 | the stop is on top when written, the start below it when written, the sequence below them; a bound not written is NULL |
| Slice.PopOperands | JIT/opcodes/slice.cc:53-87 | popping in the handlers' order removes exactly the operands and yields them in their places |
| Slice.SliceOp | JIT/opcodes/slice.cc:39-87 | SLICE applies the slice to its operands and pushes the result, propagating NULL, with the operands removed either way |
| Slice.StoreSliceOp | JIT/opcodes/slice.cc:23-37 | STORE_SLICE assigns the source just below the operands into the slice and propagates a nonzero status, with operands and source removed |
| Slice.DeleteSliceOp | JIT/opcodes/slice.cc:129-167 | DELETE_SLICE assigns NULL into the slice and propagates a nonzero status, with the operands removed |
| Slice.SliceStackEffects | JIT/opcodes/slice.cc:23-127 | SLICE replaces its operands by one result on success and removes them on failure, and STORE_SLICE removes its operands and the source, all leaving the rest of the stack alone |
| Slice.DeleteIsStoreOfNull | JIT/opcodes/slice.cc:89-167 | DELETE_SLICE does exactly what STORE_SLICE does with a NULL source below the operands |
| Slice.BuildSliceOp | JIT/opcodes/slice.cc:169-200 | BUILD_SLICE pops step (only in the three-argument form), stop and start and pushes the new slice, the step NULL in the two-argument form; NULL propagates |
| Name.LoadNameOp | JIT/opcodes/name.cc:23-33 | LOAD_NAME propagates exactly when the name lookup returns NULL, and otherwise pushes the looked-up object and nothing else |
| Name.StoreNameOp | JIT/opcodes/name.cc:35-46 | STORE_NAME pops the value, propagates exactly when storing it under the name fails, and otherwise changes nothing else |
| Name.DeleteNameOp | JIT/opcodes/name.cc:48-57 | DELETE_NAME leaves the stack alone and propagates exactly when the deletion fails |
| Name.StoreUndoesLoad | JIT/opcodes/name.cc:23-46 | storing what LOAD_NAME just pushed hands the object the load helper returned to the store helper, and restores the state from before the load, apart from the exception a failing store records |
| Unaryops.ApiFor | JIT/opcodes/unaryops.cc:40-43 | each generic unary opcode calls its own runtime function, and no two share one |
| Unaryops.GenericUnaryOp | JIT/opcodes/unaryops.cc:21-31 | the operand is replaced by the function's result, and a NULL result propagates with the operand gone and nothing pushed |
| Unaryops.UnaryNot | JIT/opcodes/unaryops.cc:47-58 | UNARY_NOT replaces the operand by False exactly when it tests true and by True otherwise, always a boolean singleton, and a failing truth test propagates with the operand gone |
| Unaryops.NotNotIsTruth | JIT/opcodes/unaryops.cc:47-58 | UNARY_NOT applied twice leaves True exactly when the operand tests true, and is the identity on a boolean |
| Feedback.AddSeen | Util/RuntimeFeedback.h:37-78 | recording an object keeps the entry within three distinct objects, never forgets an object already seen or an overflow, fills the lowest free slot with a new object, sets the overflow flag when none is free, and sets the NULL flag exactly for a NULL |
| Feedback.Record | Util/RuntimeFeedback.h:37-78 | a history of observations always leaves a well-formed object entry |
| Feedback.RecordKeepsFirstThree | Util/RuntimeFeedback.h:37-78 | the limited entry holds the first three distinct objects of its history in order of first appearance, reports overflow exactly when there were more than three, and notes NULL exactly when one was seen |
| Feedback.FullAddSeen | Util/RuntimeFeedback.h:80-96 | the full entry adds every non-NULL object to its set and leaves the counters alone |
| Feedback.FullRecord | Util/RuntimeFeedback.h:80-96 | recording objects never touches the full entry's counters |
| Feedback.FullRecordKeepsAll | Util/RuntimeFeedback.h:80-96 | the full entry holds exactly the non-NULL objects of its history |
| Feedback.LimitedAgreesWithFull | Util/RuntimeFeedback.h:10-96 | everything the limited entry holds the full entry holds too, and until the limited entry overflows they hold the same objects |
| Feedback.IncCounter | Util/RuntimeFeedback.h:47-51 | an increment bumps only its own counter, by one, and never past the counter's capacity |
| Feedback.CountersSaturate | Util/RuntimeFeedback.h:47-51 | after any number of increments a counter reads that number or its capacity, whichever is smaller, and the other counters read zero |
| Feedback.GetOrCreate | Util/RuntimeFeedback.h:101-108 | the map afterwards holds the key, unchanged when it was there and with a fresh empty entry when it was not, every other key untouched |
| Feedback.GetOrCreateIdempotent | Util/RuntimeFeedback.h:101-108 | asking again for an entry just fetched or created changes nothing |
| Feedback.Lookup | JIT/llvm_fbuilder.cc:1189-1196 | there is feedback exactly when the code has a feedback map holding the key, and then it is that entry |
| Feedback.TypeFeedback | JIT/llvm_fbuilder.cc:1061-1077 | type feedback names a type exactly when the entry exists, has not overflowed and holds one object which is exactly a type, and then names that type |
| Feedback.TypeFeedbackOfHistory | JIT/llvm_fbuilder.cc:1061-1077 | over a recorded history, type feedback names a type exactly when that type object is the only non-NULL object ever seen |
| Feedback.BranchCounts | JIT/opcodes/control.cc:210-219 | branch prediction has counts exactly when there is feedback, and they are the times-true and times-false counters |
| SyncQueue.NewQueue | Util/SynchronousQueue.h:34-38 | a new queue is empty, open and unlocked |
| SyncQueue.Close | Util/SynchronousQueue.h:46-54 | closing needs the caller to hold the lock, and sets the closed flag keeping the contents and the lock |
| SyncQueue.Open | Util/SynchronousQueue.h:56-60 | opening clears the closed flag and keeps the contents, releasing the lock it took |
| SyncQueue.PushFront | Util/SynchronousQueue.h:62-72 | a push onto a closed queue answers -1 and changes nothing; otherwise it answers 0 with the element first |
| SyncQueue.PushBack | Util/SynchronousQueue.h:74-84 | a push onto a closed queue answers -1 and changes nothing; otherwise it answers 0 with the element last |
| SyncQueue.PopFront | Util/SynchronousQueue.h:86-107 | a pop, possible only on an open, non-empty queue, hands over the front element and keeps the rest in order |
| SyncQueue.AcquireQueue | Util/SynchronousQueue.h:109-118 | acquiring a free lock succeeds and holds it; a non-blocking acquire of a held lock fails and changes nothing |
| SyncQueue.ReleaseQueue | Util/SynchronousQueue.h:120-124 | releasing frees the lock and keeps the items and the closed flag, so a blocking acquire afterwards succeeds and gives back the held queue |
| SyncQueue.ReleaseUndoesAcquire | Util/SynchronousQueue.h:109-124 | acquiring a free queue succeeds, and releasing it afterwards restores the queue exactly |
| SyncQueue.ResetAfterFork | Util/SynchronousQueue.h:126-136 | after a fork the locks are fresh and released, the contents and closed flag kept |
| SyncQueue.Step | Util/SynchronousQueue.h:62-107 | one push or pop keeps every element, either queued or handed to the consumer, and a pop hands over one element exactly when the queue was not empty |
| SyncQueue.Run | Util/SynchronousQueue.h:62-107 | a run of pushes and pops keeps the queue open and unlocked |
| SyncQueue.EveryPushPoppedOnce | Util/SynchronousQueue.h:28-107 | over any run, what the consumer popped and what remains queued together are exactly what was queued before plus what was pushed, nothing lost or duplicated |
| SyncQueue.PushBackAllAppends | Util/SynchronousQueue.h:74-84 | pushing a run of elements to the back appends them in order |
| SyncQueue.PopNTakesPrefix | Util/SynchronousQueue.h:86-107 | popping n elements takes the first n in order and leaves the rest |
| SyncQueue.BackPushesAreFifo | Util/SynchronousQueue.h:74-107 | elements pushed to the back of an empty queue come out in the order they went in, leaving it empty |
| SyncQueue.FrontPushIsPoppedFirst | Util/SynchronousQueue.h:62-107 | an element pushed to the front is the next one popped, the rest left as before |
| LlvmError.Fresh | Include/llvm_compile.h:14-18 | a new record holds no error |
| LlvmError.SetError | Include/llvm_compile.h:23-28 | setting records the given type and message, replacing what was there, and an error is then recorded exactly when the type is not NULL |
| LlvmError.RaiseIfError | Include/llvm_compile.h:35-45 | with nothing recorded the answer is 0 and the thread's pending exception is untouched; with an error recorded the answer is -1 and the recorded type and message are what is now pending |
| LlvmError.RaiseUnraisableIfError | Include/llvm_compile.h:47-55 | with nothing recorded nothing is written; otherwise the recorded error is written once to the unraisable log |
| LlvmError.SetThenRaise | Include/llvm_compile.h:14-45 | raising after setting a real type hands over exactly what was set, and a new record raises nothing |
| GlobalData.Optimize | Python/global_llvm_data.cc:350-361 | optimizing answers 0 and runs that level's passes exactly when there is a pass manager for the level (0, 1 or 2), and answers -1 running nothing otherwise |
| GlobalData.AcceptedLevelAsWrittenFailsToOptimize | Modules/_llvm.c:51-54 | the compile entry point's range check lets level 3 through although no pass manager exists for it |
| GlobalData.AcceptedLevelsOptimize | Modules/_llvm.c:51-54 | with the bound at the last pass manager, a level is accepted exactly when it means no optimization or Optimize carries it out |
| GlobalData.Collect | Python/global_llvm_data.cc:406-425 | a collection leaves the surviving globals and records their count as the new baseline |
| GlobalData.MaybeCollectAsWritten | Python/global_llvm_data.cc:390-404 | with counts taken modulo 2^32, the collector is skipped, changing nothing, exactly when there are fewer than 20 globals or fewer than the baseline plus a quarter of it |
| GlobalData.SecondCollectAsWrittenRunsAgain | Python/global_llvm_data.cc:399-401 | once the baseline plus a quarter wraps past 2^32, a second call right after a collection collects again |
| GlobalData.MaybeCollect | Python/global_llvm_data.cc:390-404 | with unbounded counts, the collector runs exactly when there are at least 20 globals and at least a quarter more than the last collection left, and changes nothing otherwise |
| GlobalData.SecondCollectIsNoOp | Python/global_llvm_data.cc:390-425 | a second call right after a collection, with no globals added, never collects and changes nothing |
| GlobalData.AsWrittenAgreesWithoutWrap | Python/global_llvm_data.cc:390-404 | while every count fits in 32 bits the as-written check and the unbounded one agree |
| GlobalData.GetGlobalStringPtr | Python/global_llvm_data.cc:433-463 | a cached string reuses its global; a new one gets a new global holding it, cached at its index; either way the answer is a global holding the string and the cache stays in step with the globals |
| GlobalData.GetGlobalStringPtrIdempotent | Python/global_llvm_data.cc:433-463 | asking again for the same string answers the same global and creates nothing |
| GlobalData.OneGlobalPerString | Python/global_llvm_data.cc:436-450 | while the cache is in step, no two string globals hold the same string |
| GlobalData.GetOneAddsItsString | Python/global_llvm_data.cc:436-450 | one request adds its string to the cache and creates a global exactly when the string was new, keeping the old globals |
| GlobalData.GetAllCreatesOnePerString | Python/global_llvm_data.cc:433-463 | after any run of requests the cache holds every string asked for, and exactly one global was created per string not cached before |
| GlobalData.GetAllKeepsStringsWf | Python/global_llvm_data.cc:433-463 | any run of requests keeps the cache and the globals in step |
| GlobalData.InstallFastCallingConv | Python/global_llvm_data.cc:183-188 | every function named with the `_PyLlvm_Fast` prefix is switched to the fast calling convention, every other keeps its own, and names and order are kept |
| GlobalData.FastFunctions | Python/global_llvm_data.cc:183-188 | starting from C conventions only, the functions on the fast convention afterwards are exactly the ones named with the prefix |
| Scheduler.NewThread | Python/llvm_thread.cc:313-319 | a new compilation thread is not running, has no worker, and both its queues are open, empty and unlocked |
| Scheduler.CompileRun | Python/llvm_thread.cc:220-259 | a compile job fails when the code has no IR and none can be built, and fails with SystemError "Optimization failed" when raising the level and the optimizer refuses; otherwise it succeeds with IR (the old one when there was one) and native code generated from it, the error record untouched |
| Scheduler.RunJobBody | Python/llvm_thread.cc:82-311 | wait and free jobs succeed, a free job deleting its function, an exit job alone asks the worker to exit, and only compile jobs change the job or its error record |
| Scheduler.RunAfterShutdown | Python/llvm_thread.cc:56-266 | after shutdown a compile job is skipped, a free job still deletes its function, a pause job takes the unpause lock once, and wait and exit jobs change nothing |
| Scheduler.Apply | Python/llvm_thread.cc:268-276 | applying a compile job clears the code object's pending flag and installs the new level, IR and native code, using native code exactly when there is some; other jobs change no code object |
| Scheduler.ApplyAllAppend | Python/llvm_thread.cc:493-499 | finished jobs are applied in output order, so the last job to touch a code object decides its state |
| Scheduler.OutputFinishedJob | Python/llvm_thread.cc:332-351 | a finished job joins the back of the output queue and its waiter, if it has one, is woken |
| Scheduler.Drain | Python/llvm_thread.cc:398-406 | the cleanup drain outputs every job left, in queue order, and wakes every waiter among them |
| Scheduler.DoCleanups | Python/llvm_thread.cc:395-419 | cleanup leaves the input queue empty, closed and unlocked, having appended its jobs to the output in order and woken their waiters, and touches no code object |
| Scheduler.PauseRunAsWritten | Python/llvm_thread.cc:124-157 | as compiled, the pause job waits for Unpause only when the unpause lock was already held or the assertion holding the first acquire is compiled in; otherwise it wakes its waiter and finishes in the same step |
| Scheduler.PauseStart | Python/llvm_thread.cc:124-148 | the intended pause holds the unpause lock and both queue locks, wakes its waiter and leaves the worker paused on the job |
| Scheduler.PauseAsWrittenWithAssertions | Python/llvm_thread.cc:127-148 | with assertions compiled in, the pause job as written is the intended pause |
| Scheduler.PauseAsWrittenDoesNotPause | Python/llvm_thread.cc:124-157 | with assertions compiled out and the unpause lock free, the pause job as written leaves the worker running and the queues unlocked, the job already output |
| Scheduler.WorkerStep | Python/llvm_thread.cc:353-393 | one iteration of the worker's loop consumes a job, keeps the invariant on the queue locks and flags, and leaves the code objects and the caller's pending exception alone; a job without a caller's error record runs on a fresh one, and if it fails that error is printed as unraisable; a job with a caller's record leaves the record holding the job's error and prints nothing; a pause job touches neither |
| Scheduler.WorkerStepQueues | Python/llvm_thread.cc:353-393 | a pause job leaves the worker paused holding both queues; an exit job drains the queue behind it, then is output itself, and stops the worker; any other job is output once at the back; a waiter is always woken; no job is lost or duplicated |
| Scheduler.Resume | Python/llvm_thread.cc:147-157 | after Unpause the paused worker gives back both queue locks and the unpause lock and outputs the pause job |
| Scheduler.WorkUntilReleased | Python/llvm_thread.cc:463-467 | waiting on a job whose waiter was already woken returns at once, and waiting never changes code objects or the caller's pending exception |
| Scheduler.RunJob | Python/llvm_thread.cc:421-446 | an exit or pause job is queued at the front and any other at the back, answering 0; on a closed queue the job instead runs its shutdown variant and is applied in the caller, answering -1 |
| Scheduler.RunJobAndWait | Python/llvm_thread.cc:448-472 | queueing a job and waiting for it keeps the invariant and the caller's pending exception, and loses no code object |
| Scheduler.ApplyFinishedJobs | Python/llvm_thread.cc:482-502 | a non-blocking attempt on a held output queue changes nothing; otherwise every finished job is applied in order and the output queue is left empty |
| Scheduler.RunJobAndApply | Python/llvm_thread.cc:474-480 | waiting for a job and applying what finished keeps the invariant and the caller's pending exception |
| Scheduler.JitInBackground | Python/llvm_thread.cc:521-552 | a non-blocking compile always answers COMPILE_OK; a blocking COMPILE_OK leaves the code object with IR and native code; COMPILE_ERROR leaves an exception pending in the caller; COMPILE_SHUTDOWN leaves the "Compilation had no effect" SystemError pending; the scheduler's invariant is kept either way |
| Scheduler.FreeInBackground | Python/llvm_thread.cc:575-585 | freeing queues a free job at the back, or after shutdown deletes the function at once |
| Scheduler.WaitForJobs | Python/llvm_thread.cc:513-519 | waiting for the jobs keeps the scheduler's invariant |
| Scheduler.WaitForJobsAppliesFinished | Python/llvm_thread.cc:513-519 | waiting on an idle worker applies every finished job in order and leaves both queues empty with the worker still running |
| Scheduler.Terminate | Python/llvm_thread.cc:504-511 | after terminating, the thread is marked not running |
| Scheduler.PauseThread | Python/llvm_thread.cc:610-620 | pausing keeps the scheduler's invariant |
| Scheduler.Unpause | Python/llvm_thread.cc:622-628 | Unpause frees the unpause lock, keeps the invariant, and leaves the worker and both queues as they were, so a paused worker can then resume, unlocking both queues and outputting its pause job; PauseHoldsWorkerUntilUnpause is its partner |
| Scheduler.Start | Python/llvm_thread.cc:593-608 | starting a running thread changes nothing; otherwise the thread is marked running with a worker and the input queue reopened with its jobs kept |
| Scheduler.ResetAfterFork | Python/llvm_thread.cc:630-656 | in the child after a fork the thread is not running, has no worker, holds no locks and has its input queue closed, with the queued jobs kept; the output queue keeps its jobs and its closed flag |
| Scheduler.StartIdempotent | Python/llvm_thread.cc:593-608 | starting twice is starting once |
| Scheduler.StartAfterFork | Python/llvm_thread.cc:593-656 | after a fork the thread can be started again, with a worker, an open input queue and the jobs that were queued |
| Scheduler.ShutdownRunsInCaller | Python/llvm_thread.cc:431-461 | once the input queue is closed, a waited-for job does not wait: it runs its shutdown variant and is applied in the caller |
| Scheduler.CompileAfterShutdownReportsShutdown | Python/llvm_thread.cc:537-544 | a blocking compile after shutdown of code with no IR reports COMPILE_SHUTDOWN with a SystemError pending and leaves the code object without IR |
| Scheduler.NonBlockingCompileIsQueued | Python/llvm_thread.cc:545-552 | a non-blocking compile answers COMPILE_OK, with the job queued at the back, or after shutdown applied at once without new code |
| Scheduler.BlockingCompileOnIdleWorker | Python/llvm_thread.cc:521-544 | a blocking compile on an idle worker installs exactly what the compile job produced; success means COMPILE_OK running the new native code, and a recorded error is raised as COMPILE_ERROR |
| Scheduler.CompileWaitedOnIdleWorker | Python/llvm_thread.cc:448-502 | on an idle worker the waited-for compile job runs at once, and after applying, the code object and the caller's error record hold what the job produced |
| Scheduler.CompileAtLevelThreeAsWrittenFails | Python/llvm_thread.cc:241-247 | level 3, which the compile entry point accepts, makes a blocking compile fail with SystemError "Optimization failed" whenever it would raise the level |
| Scheduler.AcceptedLevelCompiles | Python/llvm_thread.cc:221-276 | with the corrected bound, a blocking compile on an idle worker at any accepted level succeeds and installs native code at that level whenever the IR builds |
| Scheduler.PauseHoldsWorkerUntilUnpause | Python/llvm_thread.cc:109-169 | pausing an idle worker returns with the worker paused holding both queues and the unpause lock; after Unpause it resumes with the queues free and the pause job output |
| Scheduler.TerminateStops | Python/llvm_thread.cc:504-511 | terminating an idle worker stops it, closes the input queue and empties the output queue, and terminating again stops nothing else and leaves the code objects alone |
| DiffConstants.Diff | Util/DiffConstants.cc:21-124 | every reported pair has one type, is unequal and is a most precise difference, and two constants of different kinds are reported as that one pair |
| DiffConstants.DiffAll | Util/DiffConstants.cc:113-117 | every pair reported for corresponding operands has one type, is unequal and is a most precise difference |
| DiffConstants.DiffEmptyIff | Util/DiffConstants.cc:21-124 | nothing is reported exactly when the two constants are the same |
| DiffConstants.DiffAllEmptyIff | Util/DiffConstants.cc:113-117 | nothing is reported for two operand lists exactly when they are equal |
| DiffConstants.DiffAllAppend | Util/DiffConstants.cc:113-117 | operand lists are walked left to right, so two joined runs report the first run's pairs and then the second's |
| DiffConstants.AggregatesConcatenate | Util/DiffConstants.cc:59-67 | arrays, structs and vectors report what their corresponding elements report, left to right |
| DiffConstants.LeavesDifferOnce | Util/DiffConstants.cc:38-46 | two different leaves of one kind and type are reported exactly once, as that pair |
| DiffConstants.UniquesNeverDiffer | Util/DiffConstants.cc:50-54 | undef, zero-aggregate and null-pointer constants of one kind and type report nothing, and two of different kinds are one pair |
| DiffConstants.ExprHeaderStopsWalk | Util/DiffConstants.cc:69-119 | expressions differing in opcode or in an attribute their opcode has are reported as one pair without walking the operands; otherwise the operands are walked and something is reported |
| DiffConstants.InterfaceExample | Util/DiffConstants.h:20-25 | the documented example reports exactly the pointer pair |

## Left out

- IR construction: basic blocks, PHI nodes, types, debug info and the LLVM API are not modelled; each handler states the effect its IR has when run.
- Reference counting: increments and decrements are not modelled, so leaks and double frees are out of scope.
- The C-API entry points are oracles (`Values.Runtime`); their own behaviour, and so Python semantics, is not modelled.
- Real concurrency: locks, the GIL, the push event and thread start-up are modelled as atomic steps of one state machine; a blocking acquire that would deadlock is not modelled, and the scheduler assumes the single worker the source starts.
- `_PyCode_ToLlvmIr` and `_LlvmFunction_Jit` are parameters (`Scheduler.Env`), because they are LLVM itself.
- GlobalData.Optimize: optimization is modelled as PyGlobalLlvmData::Optimize (Python/global_llvm_data.cc:350-361), its level check included. The path from llvm_thread.cc:243 goes through `PyGlobalLlvmData_Optimize` to `_LlvmFunction_Optimize` (global_llvm_data.cc:363-368), whose body is not part of this model; it is assumed to forward to PyGlobalLlvmData::Optimize, and the level-3 finding rests on that assumption.
- The string cache holds weak handles that the unused-globals pass can clear; the model's cache never forgets an entry.
- The collector run by `CollectUnusedGlobals` is a parameter (the count of survivors).
- `Modules/_llvm.c` and `Modules/_llvmjit.cc` (the Python-level wrappers, `llvmfunction_dealloc` and the entry point's argument parsing) are not part of this model; only the entry point's level range check is.
- `Util/ConstantMirror.cc`, `Util/External2Available.cc`, `Util/PyGilGuard.h`, the LLVM toolchain and its tests, and headers that only declare are not part of this model.
- `Util/RuntimeFeedback.cc` is not part of this model: the feedback store follows what its header promises.
- `#ifndef NDEBUG` assertions (such as the check that a local's alloca matches the frame's slot, or STORE_MAP's exact-dict assertion), `WITH_TSC` event logging and `Py_WITH_INSTRUMENTATION` statistics are left out, as they change nothing the code computes. The one exception is the `assert` around the unpause acquire at Python/llvm_thread.cc:127-128, which does change behaviour; it is modelled under Findings and in the Scheduler.WorkerStep line below.
- The builds without background compilation (the `#else` branches of `WITH_BACKGROUND_COMPILATION`) are left out; the model follows the background build.
- Allocas that the entry block does not initialise are given the values the code stores before any read (no unwind reason, NULL, 0).
- JUMP_ABSOLUTE (JIT/opcodes/control.cc:193-198) is a plain branch with no effect on the state, so it has no member of its own.
- The default case of `PyDiffConstants`, `llvm_report_error` for an impossible constant kind, is unreachable in the model because its constant datatype lists every kind.
- DiffConstants.Diff: inputs whose corresponding operands differ in type are excluded by `Parallel`; the source would fail its own type assertion on them.
- Cmpops.CompareSafe: IS and IS NOT compare the two values structurally (`==` on `Values.Value`), not by pointer as JIT/opcodes/cmpops.cc:134-145 does, because values carry no object identity; two distinct objects with equal contents (two empty lists, two equal large ints, two equal strings) count as the same object, where CPython answers False for IS.
- The fatal error that COMPARE_OP raises for an unknown operator is modelled as `None` from Cmpops.CompareOp.
- Scheduler.JitInBackground: its own contract states what each answer implies, not which answer a blocking compile gets; that is stated for an idle worker and after shutdown by BlockingCompileOnIdleWorker and CompileAfterShutdownReportsShutdown, not for a worker with a backlog.
- Scheduler.RunJobAndWait: its own contract states only the invariant; what it does is stated by ShutdownRunsInCaller after shutdown and CompileWaitedOnIdleWorker on an idle worker.
- Scheduler.WaitForJobs: its own contract states only the invariant; WaitForJobsAppliesFinished states its effect on an idle worker, not on a worker with a backlog.
- Scheduler.PauseThread: its own contract states only the invariant; PauseHoldsWorkerUntilUnpause states its effect on an idle worker.
- Scheduler.Terminate: its own contract states only that the thread is marked not running; TerminateStops states the rest on an idle worker.
- Scheduler.TerminateStops: states that terminating twice keeps the code objects and the stopped worker, not that the second call changes nothing at all (it still takes a fresh job identity).
- Scheduler.WorkerStep: a job with a caller's error record keeps that record under the job's identity; the foreign pointer from job to record is not modelled.
- Scheduler.WorkerStep: the worker loop runs a pause job with the corrected PauseStart, which takes the unpause lock, so it pauses as the assertions-enabled build does. A release build's pause job is PauseRunAsWritten with assertions off: it does not pause (PauseAsWrittenDoesNotPause). Scheduler.WorkerStepQueues' pause clause, Scheduler.PauseThread and Scheduler.PauseHoldsWorkerUntilUnpause therefore describe the corrected or assertions-enabled pause, not a release build.

## Findings

| source | as written | input that shows it | evidently intended | confidence | as-written member | corrected member |
|---|---|---|---|---|---|---|
| JIT/opcodes/call.cc:284-291 | the fast `len()` path pops its argument before the guard that bails to the interpreter, so the interpreter resumes with the argument gone | `len(x)` with `len` itself unchanged, compiled after the argument was only ever a str, then reached with a list: the function-pointer guard passes, the str helper answers NULL after the pop, and the bail resumes CALL_FUNCTION 1 with `len` alone on the stack | bail with the stack as it was at the call | not executed; medium | Call.FastLenAsWritten, Call.FastLenAsWrittenCounterexample | Call.FastLen, Call.CallFunctionBailsCleanly |
| JIT/opcodes/container.cc:296-316 | the fast IMPORT_NAME path marks the `sys.modules` watch as used only when it first sets the watch up, so a recompilation that finds the watch already in place drops it | recompiling a function whose module import was compiled before | mark the watch used whenever the fast path is taken | not executed; low | Container.PlanImportAsWritten, Container.FastImportAsWrittenLosesWatch | Container.PlanImport, Container.FastImportStaysWatched |
| Python/global_llvm_data.cc:399-401 | the collection threshold `last + (last >> 2)` is computed in 32-bit unsigned arithmetic and wraps, so the hysteresis is lost | a baseline of four billion globals, none collectable | compare without wrapping | not executed; low | GlobalData.MaybeCollectAsWritten, GlobalData.SecondCollectAsWrittenRunsAgain | GlobalData.MaybeCollect, GlobalData.SecondCollectIsNoOp |
| Python/global_llvm_data_fwd.h:76 | the compile entry point accepts levels up to 3, but only levels 0 to 2 have pass managers, so a compile at level 3 fails with "Optimization failed" | `_llvm.compile(code, 3)` for code below level 3 | accept only levels with a pass manager | not executed; medium (assumes `_LlvmFunction_Optimize` forwards to PyGlobalLlvmData::Optimize) | GlobalData.AcceptedLevelAsWrittenFailsToOptimize, Scheduler.CompileAtLevelThreeAsWrittenFails | GlobalData.AcceptedLevelsOptimize, Scheduler.AcceptedLevelCompiles |
| Python/llvm_thread.cc:127-128 | the pause job's first acquire of the unpause lock is written inside `assert`, so builds without assertions never take it and the worker does not pause | Pause in a release build with the unpause lock free | take the lock whether or not assertions are compiled in | not executed; medium | Scheduler.PauseRunAsWritten, Scheduler.PauseAsWrittenDoesNotPause | Scheduler.PauseStart, Scheduler.PauseHoldsWorkerUntilUnpause |

=== FILE: attributes.dfy ===
/** LOAD_ATTR, STORE_ATTR and DELETE_ATTR.

    A monomorphic attribute access on a type that uses the generic attribute
    protocol is compiled against what the type's dictionary held at compile
    time: the type and, when the lookup found one, the descriptor's type are
    guarded at run time, and the lookup itself is a call of an inlinable
    helper with those facts as constants.  Modifying either type invalidates
    the code, so the compiler records them in `types_used`. */
module Attributes {
  import opened Wrappers
  import opened Values
  import opened Frame
  import opened Feedback

  datatype AccessKind = Load | Store

  /** The slots of a type object code generation reads: the version-tag and
      have-class feature bits, whether `tp_getattro` / `tp_setattro` are the
      generic ones, whether `tp_descr_get` / `tp_descr_set` are set, and
      `tp_dictoffset`. */
  datatype TypeInfo = TypeInfo(
    versionTag: bool,
    haveClass: bool,
    genericGetAttr: bool,
    genericSetAttr: bool,
    hasDescrGet: bool,
    hasDescrSet: bool,
    dictoffset: int)

  /** The type objects as seen at compile time: their slots, and
      `_PyType_Lookup(type, name)` (NULL when the name is not found). */
  datatype TypeSystem = TypeSystem(info: Value -> TypeInfo, lookup: (Value, Value) -> Value)

  /** What an accepted access is compiled against.  `descrGet` and
      `descrSet` say whether the descriptor's getter and setter were found. */
  datatype Accessor = Accessor(
    guardType: Value,
    name: Value,
    dictoffset: int,
    descr: Value,
    descrType: Value,
    descrGet: bool,
    descrSet: bool,
    isDataDescr: bool)

  /** CacheTypeLookup: looks the name up on the guarded type.  The getter and
      setter are read only from a descriptor type with the have-class bit;
      the descriptor is a data descriptor when it has a getter and its type
      also has a setter. */
  function CacheTypeLookup(ts: TypeSystem, guardType: Value, name: Value): (a: Accessor)
    ensures a.guardType == guardType && a.name == name
    ensures a.dictoffset == ts.info(guardType).dictoffset
    ensures a.descr == ts.lookup(guardType, name)
    ensures a.descr != Null ==> a.descrType == ObType(a.descr)
    ensures a.descrGet <==> a.descr != Null && ts.info(ObType(a.descr)).haveClass && ts.info(ObType(a.descr)).hasDescrGet
    ensures a.isDataDescr <==>
      a.descr != Null && ts.info(ObType(a.descr)).haveClass
      && ts.info(ObType(a.descr)).hasDescrGet && ts.info(ObType(a.descr)).hasDescrSet
  {
    var descr := ts.lookup(guardType, name);
    var base := Accessor(guardType, name, ts.info(guardType).dictoffset, descr, Null, false, false, false);
    if descr == Null then base
    else
      var dt := ObType(descr);
      var di := ts.info(dt);
      if di.haveClass then
        base.(descrType := dt, descrGet := di.hasDescrGet, descrSet := di.hasDescrSet,
              isDataDescr := di.hasDescrGet && di.hasDescrSet)
      else base.(descrType := dt)
  }

  /** Whether the type lets the access go through the generic protocol. */
  predicate UsesGenericAccess(ts: TypeSystem, kind: AccessKind, t: Value) {
    match kind
    case Load => ts.info(t).genericGetAttr
    case Store => ts.info(t).genericSetAttr
  }

  /** CanOptimizeAttrAccess: the accessor when the access can be specialised,
      together with the emitter, which records the guarded type only then. */
  function CanOptimizeAttrAccess(ts: TypeSystem, kind: AccessKind, name: Value, fb: Option<Limited<Value>>, e: Emitter)
    : (r: (Option<Accessor>, Emitter))
    ensures r.0.Some? <==>
      name.StrObj? && fb.Some? && !OverflowedOf(fb.value) && |SeenOf(fb.value)| == 1
      && ts.info(SeenOf(fb.value)[0]).versionTag
      && UsesGenericAccess(ts, kind, SeenOf(fb.value)[0])
      && var a := CacheTypeLookup(ts, SeenOf(fb.value)[0], name);
         !(a.descrGet && !ts.info(a.descrType).versionTag)
    ensures r.0.Some? ==> r.0.value == CacheTypeLookup(ts, SeenOf(fb.value)[0], name)
    ensures r.0.Some? ==> r.1 == e.(typesUsed := e.typesUsed + {SeenOf(fb.value)[0]})
    ensures r.0.None? ==> r.1 == e
  {
    if !name.StrObj? || fb.None? || OverflowedOf(fb.value) || |SeenOf(fb.value)| != 1 then (None, e)
    else
      var t := SeenOf(fb.value)[0];
      if !ts.info(t).versionTag || !UsesGenericAccess(ts, kind, t) then (None, e)
      else
        var a := CacheTypeLookup(ts, t, name);
        if a.descrGet && !ts.info(a.descrType).versionTag then (None, e)
        else (Some(a), e.(typesUsed := e.typesUsed + {t}))
  }

  /** The compile-time half of LOAD_ATTR / STORE_ATTR: the accessor if the
      fast path is taken, and the emitter after emitting its guards, which
      also subscribe to the descriptor's type when there is a descriptor. */
  function PlanAttrAccess(ts: TypeSystem, kind: AccessKind, name: Value, fb: Option<Limited<Value>>, e: Emitter)
    : (r: (Option<Accessor>, Emitter))
    ensures r.0 == CanOptimizeAttrAccess(ts, kind, name, fb, e).0
    ensures r.0.None? ==> r.1 == e
    ensures r.0.Some? ==>
      r.1 == e.(typesUsed := e.typesUsed + {r.0.value.guardType}
                             + (if r.0.value.descr != Null then {r.0.value.descrType} else {}))
  {
    var (acc, e1) := CanOptimizeAttrAccess(ts, kind, name, fb, e);
    if acc.Some? && acc.value.descr != Null then
      (acc, e1.(typesUsed := e1.typesUsed + {acc.value.descrType}))
    else (acc, e1)
  }

  /** Every type an optimised access depends on is one whose modification
      invalidates the code. */
  lemma PlannedTypesAreWatched(ts: TypeSystem, kind: AccessKind, name: Value, fb: Option<Limited<Value>>, e: Emitter)
    ensures var (acc, e1) := PlanAttrAccess(ts, kind, name, fb, e);
      acc.Some? ==>
        (acc.value.guardType in e1.typesUsed
         && (acc.value.descr != Null ==> acc.value.descrType in e1.typesUsed))
    ensures var (acc, e1) := PlanAttrAccess(ts, kind, name, fb, e);
      e.typesUsed <= e1.typesUsed && e1.watchesUsed == e.watchesUsed
  {
  }

  /** GuardAttributeAccess at run time: the code object is still valid, the
      object has the guarded type, and, if a descriptor was found, the
      descriptor still has the type it had (`descrTypeNow`). */
  predicate GuardPasses(s: State, a: Accessor, obj: Value, descrTypeNow: Value) {
    s.code.useJit && ObType(obj) == a.guardType && (a.descr != Null ==> descrTypeNow == a.descrType)
  }

  /** The arguments of the inlinable getattr/setattr helpers besides the
      object (and value): the compile-time facts, with the descriptor's getter
      for a load and its setter for a store. */
  function AccessorArgs(a: Accessor, kind: AccessKind): seq<Value> {
    [a.guardType, a.name, IntObj(a.dictoffset), a.descr,
     Bool(if kind == Load then a.descrGet else a.descrSet), Bool(a.isDataDescr)]
  }

  /** LOAD_ATTR_safe: PyObject_GetAttr on the popped object. */
  function LoadAttrSafe(rt: Runtime, s: State, index: nat): (r: Step)
    requires index < |s.code.names| && |s.stack| >= 1
    ensures r == PushResultOf(rt, Drop(s, 1), GetAttr, [Peek(s, 1), LookupName(s, index)])
  {
    var (s1, obj) := Pop(s);
    PushResultOf(rt, s1, GetAttr, [obj, LookupName(s, index)])
  }

  /** LOAD_ATTR_fast: pops the object; a failed guard pushes it back and
      bails; otherwise the inlined generic getattr's result is pushed. */
  function LoadAttrFast(rt: Runtime, s: State, at: int, a: Accessor, descrTypeNow: Value): (r: Step)
    requires |s.stack| >= 1
    ensures var obj := Peek(s, 1);
      !GuardPasses(s, a, obj, descrTypeNow) ==> r == CreateGuardBailPoint(s, at, AttrGuard)
    ensures var obj := Peek(s, 1);
      GuardPasses(s, a, obj, descrTypeNow) ==>
        r == PushResultOf(rt, Drop(s, 1), GenericGetAttr, [obj] + AccessorArgs(a, Load))
  {
    var (s1, obj) := Pop(s);
    if !GuardPasses(s, a, obj, descrTypeNow) then
      PopPush(s);
      CreateGuardBailPoint(Push(s1, obj), at, AttrGuard)
    else PushResultOf(rt, s1, GenericGetAttr, [obj] + AccessorArgs(a, Load))
  }

  /** LOAD_ATTR: the fast path exactly when the plan accepted the access. */
  function LoadAttr(rt: Runtime, s: State, index: nat, at: int, plan: Option<Accessor>, descrTypeNow: Value): (r: Step)
    requires index < |s.code.names| && |s.stack| >= 1
    ensures plan.None? ==> r == LoadAttrSafe(rt, s, index)
    ensures plan.Some? ==> r == LoadAttrFast(rt, s, at, plan.value, descrTypeNow)
  {
    if plan.Some? then LoadAttrFast(rt, s, at, plan.value, descrTypeNow) else LoadAttrSafe(rt, s, index)
  }

  /** Whichever path LOAD_ATTR takes, a bail leaves the stack as it was
      before the opcode and resumes at the opcode, and otherwise the object
      is replaced by the non-NULL result or an exception propagates. */
  lemma LoadAttrShape(rt: Runtime, s: State, index: nat, at: int, plan: Option<Accessor>, descrTypeNow: Value)
    requires index < |s.code.names| && |s.stack| >= 1
    ensures var r := LoadAttr(rt, s, index, at, plan, descrTypeNow);
      (r.ToBail? ==> plan.Some? && r.s.stack == s.stack && r.s.frame.lasti + 1 == at && r.s.frame.bailed == GuardFail)
      && (r.Fall? ==> r.s.stack[..|s.stack| - 1] == s.stack[..|s.stack| - 1] && |r.s.stack| == |s.stack|
                      && r.s.stack[|s.stack| - 1] != Null)
      && (r.ToPropagate? ==> r.s.stack == s.stack[..|s.stack| - 1])
      && (r.ToBail? || r.Fall? || r.ToPropagate?)
  {
  }

  /** STORE_ATTR_safe: pops the object, then the value, and calls
      PyObject_SetAttr; a nonzero status propagates. */
  function StoreAttrSafe(rt: Runtime, s: State, index: nat): (r: Step)
    requires index < |s.code.names| && |s.stack| >= 2
    ensures r == CheckNonZero(rt, Drop(s, 2), SetAttr, [Peek(s, 1), LookupName(s, index), Peek(s, 2)])
  {
    var (s1, obj) := Pop(s);
    var (s2, value) := Pop(s1);
    CheckNonZero(rt, s2, SetAttr, [obj, LookupName(s, index), value])
  }

  /** STORE_ATTR_fast: pops the object; a failed guard pushes it back and
      bails; otherwise pops the value and calls the inlined generic setattr. */
  function StoreAttrFast(rt: Runtime, s: State, at: int, a: Accessor, descrTypeNow: Value): (r: Step)
    requires |s.stack| >= 2
    ensures var obj := Peek(s, 1);
      !GuardPasses(s, a, obj, descrTypeNow) ==> r == CreateGuardBailPoint(s, at, AttrGuard)
    ensures var obj := Peek(s, 1);
      GuardPasses(s, a, obj, descrTypeNow) ==>
        r == CheckNonZero(rt, Drop(s, 2), GenericSetAttr, [obj, Peek(s, 2)] + AccessorArgs(a, Store))
  {
    var (s1, obj) := Pop(s);
    if !GuardPasses(s, a, obj, descrTypeNow) then
      PopPush(s);
      CreateGuardBailPoint(Push(s1, obj), at, AttrGuard)
    else
      var (s2, value) := Pop(s1);
      CheckNonZero(rt, s2, GenericSetAttr, [obj, value] + AccessorArgs(a, Store))
  }

  /** STORE_ATTR: the fast path exactly when the plan accepted the access. */
  function StoreAttr(rt: Runtime, s: State, index: nat, at: int, plan: Option<Accessor>, descrTypeNow: Value): (r: Step)
    requires index < |s.code.names| && |s.stack| >= 2
    ensures plan.None? ==> r == StoreAttrSafe(rt, s, index)
    ensures plan.Some? ==> r == StoreAttrFast(rt, s, at, plan.value, descrTypeNow)
  {
    if plan.Some? then StoreAttrFast(rt, s, at, plan.value, descrTypeNow) else StoreAttrSafe(rt, s, index)
  }

  /** STORE_ATTR either bails with the stack untouched or consumes the object
      and the value and pushes nothing. */
  lemma StoreAttrShape(rt: Runtime, s: State, index: nat, at: int, plan: Option<Accessor>, descrTypeNow: Value)
    requires index < |s.code.names| && |s.stack| >= 2
    ensures var r := StoreAttr(rt, s, index, at, plan, descrTypeNow);
      (r.ToBail? ==> plan.Some? && r.s.stack == s.stack && r.s.frame.lasti + 1 == at)
      && (!r.ToBail? ==> r.s.stack == s.stack[..|s.stack| - 2] && (r.Fall? || r.ToPropagate?))
  {
  }

  /** DELETE_ATTR: pops the object and sets the attribute to NULL. */
  function DeleteAttr(rt: Runtime, s: State, index: nat): (r: Step)
    requires index < |s.code.names| && |s.stack| >= 1
    ensures r.Fall? || r.ToPropagate?
    ensures r.s.stack == s.stack[..|s.stack| - 1]
    ensures r.ToPropagate? <==> rt.status(SetAttr, [Peek(s, 1), LookupName(s, index), Null]) != 0
  {
    var (s1, obj) := Pop(s);
    CheckNonZero(rt, s1, SetAttr, [obj, LookupName(s, index), Null])
  }

  /** DELETE_ATTR is the generic STORE_ATTR of a NULL value. */
  lemma DeleteIsStoreOfNull(rt: Runtime, s: State, index: nat)
    requires index < |s.code.names| && |s.stack| >= 1
    ensures var n := |s.stack|;
      var s' := s.(stack := s.stack[..n - 1] + [Null, s.stack[n - 1]]);
      DeleteAttr(rt, s, index) == StoreAttrSafe(rt, s', index)
  {
    var n := |s.stack|;
    var s' := s.(stack := s.stack[..n - 1] + [Null, s.stack[n - 1]]);
    assert s'.stack[..n - 1] == s.stack[..n - 1];
  }
}

=== FILE: blocks.dfy ===
/** The block-stack opcodes: SETUP_LOOP, SETUP_EXCEPT, SETUP_FINALLY,
    POP_BLOCK, END_FINALLY and WITH_CLEANUP. */
module Blocks {
  import opened Values
  import opened Frame
  import opened Unwinding

  /** The runtime half of SETUP_*: pushes a block recording the current stack
      depth and the handler's opcode index. */
  function SetupBlock(s: State, kind: BlockKind, handler: int): (r: State)
    ensures r.blocks == s.blocks + [Block(kind, handler, |s.stack|)]
    ensures r.(blocks := s.blocks) == s
  {
    s.(blocks := s.blocks + [Block(kind, handler, |s.stack|)])
  }

  /** The compile-time half of SETUP_*: the handler becomes a case of the
      unwind-target switch, and the block stores the index that switch knows. */
  function SetupBlockCode(e: Emitter, s: State, kind: BlockKind, handler: int): (r: (Emitter, State))
    ensures handler in r.0.unwindCases
    ensures r.1 == SetupBlock(s, kind, handler)
  {
    var (e1, index) := AddUnwindTarget(e, handler);
    (e1, SetupBlock(s, kind, index))
  }

  /** POP_BLOCK: drops the innermost block and pops the stack to its level. */
  function PopBlock(s: State): (r: State)
    requires |s.blocks| > 0
    ensures r.blocks == s.blocks[..|s.blocks| - 1]
    ensures r.stack == s.stack[..Min(s.blocks[|s.blocks| - 1].level, |s.stack|)]
    ensures r.(stack := s.stack, blocks := s.blocks) == s
  {
    PopTo(s.(blocks := s.blocks[..|s.blocks| - 1]), s.blocks[|s.blocks| - 1].level)
  }

  /** SETUP_* then POP_BLOCK with nothing pushed in between is a no-op. */
  lemma SetupThenPop(s: State, kind: BlockKind, handler: int)
    ensures PopBlock(SetupBlock(s, kind, handler)) == s
  {
    assert SetupBlock(s, kind, handler).blocks[..|s.blocks|] == s.blocks;
  }

  /** SETUP_* and POP_BLOCK keep the block stack well nested. */
  lemma BlockOpsKeepWellNested(s: State, kind: BlockKind, handler: int)
    requires WellNested(s)
    ensures WellNested(SetupBlock(s, kind, handler))
    ensures |s.blocks| > 0 ==> WellNested(PopBlock(s))
  {
  }

  /** Every block's handler is a case of the unwind-target switch. */
  predicate HandlersRegistered(blocks: seq<Block>, e: Emitter) {
    forall i :: 0 <= i < |blocks| ==> blocks[i].handler in e.unwindCases
  }

  /** SETUP_* keeps every handler registered. */
  lemma SetupKeepsHandlersRegistered(e: Emitter, s: State, kind: BlockKind, handler: int)
    requires HandlersRegistered(s.blocks, e)
    ensures var (e1, s1) := SetupBlockCode(e, s, kind, handler);
      HandlersRegistered(s1.blocks, e1)
  {
    var (e1, s1) := SetupBlockCode(e, s, kind, handler);
    assert forall t :: t in e.unwindCases ==> t in e1.unwindCases;
  }

  /** The unwind block never takes the unreachable default of its target
      switch: a handler it enters was registered by its SETUP_*, and a
      `continue` target by CONTINUE_LOOP. */
  lemma UnwindTargetRegistered(s: State, e: Emitter)
    requires HandlersRegistered(s.blocks, e)
    requires s.reason == Continue ==> ContinueTarget(s.retval) in e.unwindCases
    ensures Unwind(s).Handled? ==> Unwind(s).target in e.unwindCases
  {
  }

  /** What END_FINALLY needs below the discriminator: the saved return value
      or continue target, or the rest of a saved exception. */
  predicate EndFinallyOperands(s: State) {
    |s.stack| >= 1
    && var d := Peek(s, 1);
    (IsInt(d) && (TruncToReason(IntValue(d)) == ReturnReason || TruncToReason(IntValue(d)) == Continue) ==>
       |s.stack| >= 2)
    && (!IsInt(d) && (IsExceptionClass(d) || d.StrObj?) ==> |s.stack| >= 3)
  }

  const BadFinallyMessage := "'finally' pops bad exception"

  /** END_FINALLY pops a discriminator.  An int is an unwind reason to resume
      (a return or continue also pops its saved value into the return value).
      An exception class or string is a saved exception: value and traceback
      are popped and the exception re-raised without a new traceback entry.
      None falls through; anything else is a SystemError. */
  function EndFinally(s: State): (r: Step)
    requires EndFinallyOperands(s)
    ensures var d := Peek(s, 1);
      (r.Fall? <==> d == NoneObj)
      && (r.Fall? ==> r.s == Drop(s, 1))
      && (!r.Fall? ==> r.ToUnwind?)
    ensures var d := Peek(s, 1);
      IsInt(d) && (TruncToReason(IntValue(d)) == ReturnReason || TruncToReason(IntValue(d)) == Continue) ==>
        r.s == Drop(s, 2).(reason := TruncToReason(IntValue(d)), retval := Peek(s, 2))
    ensures var d := Peek(s, 1);
      IsInt(d) && TruncToReason(IntValue(d)) != ReturnReason && TruncToReason(IntValue(d)) != Continue ==>
        r.s == Drop(s, 1).(reason := TruncToReason(IntValue(d)))
    ensures var d := Peek(s, 1);
      !IsInt(d) && (IsExceptionClass(d) || d.StrObj?) ==>
        r.s == Drop(s, 3).(err := ExcTriple(d, Peek(s, 2), Peek(s, 3)), retval := Null, reason := Exception)
    ensures var d := Peek(s, 1);
      !IsInt(d) && !IsExceptionClass(d) && !d.StrObj? && d != NoneObj ==>
        r.s == Drop(s, 1).(err := ErrorWith(SystemError, BadFinallyMessage), reason := Exception)
  {
    var d := Peek(s, 1);
    if IsInt(d) then
      var why := TruncToReason(IntValue(d));
      if why == ReturnReason || why == Continue then
        ToUnwind(Pop(Pop(s).0.(reason := why)).0.(retval := Peek(s, 2)))
      else
        ToUnwind(Pop(s).0.(reason := why))
    else if IsExceptionClass(d) || d.StrObj? then
      ToUnwind(Pop(Pop(Pop(s).0).0).0.(err := ExcTriple(d, Peek(s, 2), Peek(s, 3)), retval := Null, reason := Exception))
    else if d == NoneObj then
      Fall(Pop(s).0)
    else
      ToUnwind(Pop(s).0.(err := ErrorWith(SystemError, BadFinallyMessage), reason := Exception))
  }

  /** The reasons whose unwinding through a finally block END_FINALLY resumes
      exactly: the exception must be a class with a value and a traceback, as
      a raise leaves it. */
  predicate Resumable(s: State) {
    s.reason == ReturnReason || s.reason == Continue || s.reason == Break
    || (s.reason == Exception && IsExceptionClass(s.err.typ) && s.err.value != Null && s.err.tb != Null
        && s.retval == Null)
  }

  /** The state a finally handler starts on, as the unwind block leaves it. */
  lemma FinallyEntry(s: State)
    requires WellNested(s) && |s.blocks| > 0
    requires s.blocks[|s.blocks| - 1].kind == FinallyBlock
    ensures var b := s.blocks[|s.blocks| - 1]; var h := Unwind(s);
      h.Handled? && h.target == b.handler
      && h.s == s.(stack := s.stack[..b.level] + Payload(FinallyBlock, s.reason, s.retval, s.err),
                   blocks := s.blocks[..|s.blocks| - 1], reason := NoUnwind, target := b.handler,
                   err := if s.reason == Exception then NoError else s.err)
  {
    assert Innermost(s.blocks, s.reason) == |s.blocks| - 1;
    UnwindStackShape(s, s.reason);
  }

  /** The stack below a payload of length `k` is the stack the payload was
      pushed onto. */
  lemma DropPayload(s: State, base: seq<Value>, payload: seq<Value>)
    requires s.stack == base + payload
    ensures Drop(s, |payload|).stack == base
  {
    assert s.stack[..|s.stack| - |payload|] == base;
  }

  /** The state END_FINALLY resumes the unwind with. */
  function Resumed(s: State): State
    requires |s.blocks| > 0 && s.blocks[|s.blocks| - 1].level <= |s.stack|
  {
    s.(stack := s.stack[..s.blocks[|s.blocks| - 1].level],
       blocks := s.blocks[..|s.blocks| - 1],
       target := s.blocks[|s.blocks| - 1].handler)
  }

  /** The state a finally handler starts on, written out. */
  function Entered(s: State): State
    requires |s.blocks| > 0 && s.blocks[|s.blocks| - 1].level <= |s.stack|
  {
    var b := s.blocks[|s.blocks| - 1];
    s.(stack := s.stack[..b.level] + Payload(FinallyBlock, s.reason, s.retval, s.err),
       blocks := s.blocks[..|s.blocks| - 1], reason := NoUnwind, target := b.handler,
       err := if s.reason == Exception then NoError else s.err)
  }

  /** FinallyRoundTrip for an exception: END_FINALLY finds the type on top,
      with value and traceback below, and restores all three. */
  lemma {:induction false} FinallyRoundTripException(s: State)
    requires WellNested(s) && |s.blocks| > 0
    requires s.blocks[|s.blocks| - 1].kind == FinallyBlock
    requires s.reason == Exception && IsExceptionClass(s.err.typ)
    requires s.err.value != Null && s.err.tb != Null && s.retval == Null
    ensures Unwind(s).Handled? && EndFinallyOperands(Unwind(s).s)
    ensures EndFinally(Unwind(s).s) == ToUnwind(Resumed(s))
  {
    FinallyEntry(s);
    assert Unwind(s).s == Entered(s);
    ResumeException(s);
  }

  lemma ResumeException(s: State)
    requires |s.blocks| > 0 && s.blocks[|s.blocks| - 1].level <= |s.stack|
    requires s.reason == Exception && IsExceptionClass(s.err.typ)
    requires s.err.value != Null && s.err.tb != Null && s.retval == Null
    ensures EndFinallyOperands(Entered(s)) && EndFinally(Entered(s)) == ToUnwind(Resumed(s))
  {
    var b := s.blocks[|s.blocks| - 1];
    var h := Entered(s);
    var payload := [s.err.tb, s.err.value, s.err.typ];
    assert Payload(FinallyBlock, s.reason, s.retval, s.err) == payload;
    DropPayload(h, s.stack[..b.level], payload);
    assert Peek(h, 1) == s.err.typ && Peek(h, 2) == s.err.value && Peek(h, 3) == s.err.tb;
    assert !IsInt(s.err.typ);
  }

  /** FinallyRoundTrip for a return or continue: END_FINALLY finds the
      reason as an int and pops the saved value back into retval. */
  lemma {:induction false} FinallyRoundTripValue(s: State)
    requires WellNested(s) && |s.blocks| > 0
    requires s.blocks[|s.blocks| - 1].kind == FinallyBlock
    requires s.reason == ReturnReason || s.reason == Continue
    ensures Unwind(s).Handled? && EndFinallyOperands(Unwind(s).s)
    ensures EndFinally(Unwind(s).s) == ToUnwind(Resumed(s))
  {
    FinallyEntry(s);
    assert Unwind(s).s == Entered(s);
    ResumeValue(s);
  }

  lemma ResumeValue(s: State)
    requires |s.blocks| > 0 && s.blocks[|s.blocks| - 1].level <= |s.stack|
    requires s.reason == ReturnReason || s.reason == Continue
    ensures EndFinallyOperands(Entered(s)) && EndFinally(Entered(s)) == ToUnwind(Resumed(s))
  {
    var b := s.blocks[|s.blocks| - 1];
    var h := Entered(s);
    var payload := [s.retval, IntObj(s.reason)];
    assert Payload(FinallyBlock, s.reason, s.retval, s.err) == payload;
    DropPayload(h, s.stack[..b.level], payload);
    assert Peek(h, 1) == IntObj(s.reason) && Peek(h, 2) == s.retval;
  }

  /** FinallyRoundTrip for a break: END_FINALLY finds the reason alone. */
  lemma {:induction false} FinallyRoundTripBreak(s: State)
    requires WellNested(s) && |s.blocks| > 0
    requires s.blocks[|s.blocks| - 1].kind == FinallyBlock
    requires s.reason == Break
    ensures Unwind(s).Handled? && EndFinallyOperands(Unwind(s).s)
    ensures EndFinally(Unwind(s).s) == ToUnwind(Resumed(s))
  {
    FinallyEntry(s);
    assert Unwind(s).s == Entered(s);
    ResumeBreak(s);
  }

  lemma ResumeBreak(s: State)
    requires |s.blocks| > 0 && s.blocks[|s.blocks| - 1].level <= |s.stack|
    requires s.reason == Break
    ensures EndFinallyOperands(Entered(s)) && EndFinally(Entered(s)) == ToUnwind(Resumed(s))
  {
    EnteredOnBreak(s);
    EndFinallyOnBreak(Entered(s));
  }

  /** A finally handler entered on a break finds the reason alone on top,
      and popping it leaves the stack the block was set up at. */
  lemma EnteredOnBreak(s: State)
    requires |s.blocks| > 0 && s.blocks[|s.blocks| - 1].level <= |s.stack|
    requires s.reason == Break
    ensures |Entered(s).stack| >= 1 && Peek(Entered(s), 1) == IntObj(Break)
    ensures Drop(Entered(s), 1).(reason := Break) == Resumed(s)
  {
    var b := s.blocks[|s.blocks| - 1];
    var h := Entered(s);
    assert Payload(FinallyBlock, s.reason, s.retval, s.err) == [IntObj(Break)];
    DropPayload(h, s.stack[..b.level], [IntObj(Break)]);
  }

  /** END_FINALLY on a plain break reason resumes the break. */
  lemma EndFinallyOnBreak(h: State)
    requires |h.stack| >= 1 && Peek(h, 1) == IntObj(Break)
    ensures EndFinallyOperands(h) && EndFinally(h) == ToUnwind(Drop(h, 1).(reason := Break))
  {
    assert TruncToReason(IntValue(IntObj(Break))) == Break;
  }

  /** Unwinding into a finally block and then running END_FINALLY (with the
      finally body leaving the stack as it found it) resumes the same unwind:
      same reason, same return value or continue target, same exception, and
      the stack at the block's level with the block gone. */
  lemma FinallyRoundTrip(s: State)
    requires WellNested(s) && |s.blocks| > 0
    requires s.blocks[|s.blocks| - 1].kind == FinallyBlock
    requires Resumable(s)
    ensures Unwind(s).Handled? && EndFinallyOperands(Unwind(s).s)
    ensures EndFinally(Unwind(s).s) == ToUnwind(Resumed(s))
  {
    if s.reason == Exception {
      FinallyRoundTripException(s);
    } else if s.reason == Break {
      FinallyRoundTripBreak(s);
    } else {
      FinallyRoundTripValue(s);
    }
  }

  /** How far below the top WITH_CLEANUP finds the `__exit__` method: under
      None or a plain reason it is second, under a return or continue (with
      its saved value) third, and under a saved exception fourth. */
  function ExitDepth(t: Value): (k: nat)
    ensures 2 <= k <= 4
  {
    if t == NoneObj then 2
    else if IsInt(t) then
      (if TruncToReason(IntValue(t)) == ReturnReason || TruncToReason(IntValue(t)) == Continue then 3 else 2)
    else 4
  }

  /** The sequence with the element at index `i` removed. */
  function RemoveAt(xs: seq<Value>, i: nat): (r: seq<Value>)
    requires i < |xs|
    ensures |r| == |xs| - 1
    ensures forall j :: 0 <= j < i ==> r[j] == xs[j]
    ensures forall j :: i <= j < |r| ==> r[j] == xs[j + 1]
  {
    xs[..i] + xs[i + 1..]
  }

  /** The arguments `__exit__` is called with: the saved exception, or three
      Nones when the block was left any other way. */
  function ExitArgs(s: State): seq<Value>
    requires |s.stack| >= 1 && |s.stack| >= ExitDepth(Peek(s, 1))
  {
    if ExitDepth(Peek(s, 1)) == 4 then [Peek(s, 1), Peek(s, 2), Peek(s, 3)]
    else [NoneObj, NoneObj, NoneObj]
  }

  /** The stack with `__exit__` taken out from under the values above it. */
  function WithoutExit(s: State): (r: State)
    requires |s.stack| >= 1 && |s.stack| >= ExitDepth(Peek(s, 1))
    ensures r.stack == RemoveAt(s.stack, |s.stack| - ExitDepth(Peek(s, 1)))
    ensures SameButStack(s, r)
  {
    s.(stack := RemoveAt(s.stack, |s.stack| - ExitDepth(Peek(s, 1))))
  }

  /** The first half of WITH_CLEANUP: pops the values above `__exit__` and
      `__exit__` itself, pushes the values back, and picks the arguments.
      Whatever the case, only `__exit__` leaves the stack; the values above it
      keep their order. */
  function ExitCallOperands(s: State): (r: (State, Value, seq<Value>))
    requires |s.stack| >= 1 && |s.stack| >= ExitDepth(Peek(s, 1))
    ensures r.0 == WithoutExit(s)
    ensures r.1 == Peek(s, ExitDepth(Peek(s, 1)))
    ensures r.2 == ExitArgs(s)
  {
    var t := Peek(s, 1);
    if t == NoneObj then
      RestoreAboveOne(s);
      (Push(Drop(s, 2), t), Peek(s, 2), [t, NoneObj, NoneObj])
    else if IsInt(t) && ExitDepth(t) == 3 then
      RestoreAboveTwo(s);
      (Push(Push(Drop(s, 3), Peek(s, 2)), t), Peek(s, 3), [NoneObj, NoneObj, NoneObj])
    else if IsInt(t) then
      RestoreAboveOne(s);
      (Push(Drop(s, 2), t), Peek(s, 2), [NoneObj, NoneObj, NoneObj])
    else
      RestoreAboveThree(s);
      (Push(Push(Push(Drop(s, 4), Peek(s, 3)), Peek(s, 2)), t), Peek(s, 4), [t, Peek(s, 2), Peek(s, 3)])
  }

  /** Popping two values and pushing the top one back removes the second. */
  lemma RestoreAboveOne(s: State)
    requires |s.stack| >= 2
    ensures Push(Drop(s, 2), Peek(s, 1)) == s.(stack := RemoveAt(s.stack, |s.stack| - 2))
  {
    var n := |s.stack|;
    assert s.stack[n - 1..] == [Peek(s, 1)];
  }

  /** Popping three values and pushing the top two back removes the third. */
  lemma RestoreAboveTwo(s: State)
    requires |s.stack| >= 3
    ensures Push(Push(Drop(s, 3), Peek(s, 2)), Peek(s, 1)) == s.(stack := RemoveAt(s.stack, |s.stack| - 3))
  {
    var n := |s.stack|;
    assert s.stack[n - 2..] == [Peek(s, 2), Peek(s, 1)];
  }

  /** Popping four values and pushing the top three back removes the fourth. */
  lemma RestoreAboveThree(s: State)
    requires |s.stack| >= 4
    ensures Push(Push(Push(Drop(s, 4), Peek(s, 3)), Peek(s, 2)), Peek(s, 1))
      == s.(stack := RemoveAt(s.stack, |s.stack| - 4))
  {
    var n := |s.stack|;
    assert s.stack[n - 3..] == [Peek(s, 3), Peek(s, 2), Peek(s, 1)];
  }

  /** WITH_CLEANUP: the stack holds `__exit__` under None, a reason (with a
      return value or continue target for RETURN and CONTINUE), or a saved
      exception.  It removes `__exit__`, calls it with the exception or three
      Nones, and if it was called with an exception and returns a true value,
      replaces the saved exception with None so END_FINALLY does not re-raise
      it.  A failing call or truth test propagates. */
  function WithCleanup(rt: Runtime, s: State): (r: Step)
    requires |s.stack| >= 1 && |s.stack| >= ExitDepth(Peek(s, 1))
    ensures r.Fall? || r.ToPropagate?
    ensures var args := [Peek(s, ExitDepth(Peek(s, 1)))] + ExitArgs(s);
      rt.call(CallFunction, args) == Null ==> r == ToPropagate(WithoutExit(s).(err := rt.raised(CallFunction, args)))
    ensures var ret := rt.call(CallFunction, [Peek(s, ExitDepth(Peek(s, 1)))] + ExitArgs(s));
      r.Fall? <==> ret != Null && (ExitDepth(Peek(s, 1)) < 4 || IsPythonTrue(rt, ret).Truth?)
    ensures var ret := rt.call(CallFunction, [Peek(s, ExitDepth(Peek(s, 1)))] + ExitArgs(s));
      var silenced := ExitDepth(Peek(s, 1)) == 4 && IsPythonTrue(rt, ret) == Truth(true);
      r.Fall? ==>
        if silenced then r.s == s.(stack := s.stack[..|s.stack| - 4] + [NoneObj])
        else r.s == WithoutExit(s)
  {
    var (s2, exit, args) := ExitCallOperands(s);
    var ret := rt.call(CallFunction, [exit] + args);
    if ret == Null then ToPropagate(s2.(err := rt.raised(CallFunction, [exit] + args)))
    else if args[0] == NoneObj then Fall(s2)
    else match IsPythonTrue(rt, ret)
      case TruthFailed(e) => ToPropagate(s2.(err := e))
      case Truth(b) =>
        if b then Fall(Push(Drop(s2, 3), NoneObj)) else Fall(s2)
  }
}

=== FILE: call.dfy ===
/** CALL_FUNCTION and its variants.

    With feedback naming a single C function that takes a declared range of
    positional arguments, the call site is compiled to a guarded direct call
    of that C function (or, for `len` on a known builtin type, to an inline
    length helper); otherwise every call goes through the generic
    `_PyEval_CallFunction`.  Every path ends by checking the ticker. */
module Call {
  import opened Wrappers
  import opened Values
  import opened Frame
  import opened Feedback

  /** The positional argument count: the low byte of the oparg. */
  function NumArgs(oparg: nat): (n: nat)
    ensures n < 256
  {
    oparg % 256
  }

  /** The keyword argument count: the second byte of the oparg. */
  function NumKwargs(oparg: nat): (k: nat)
    ensures k < 256
  {
    (oparg / 256) % 256
  }

  /** The `PyMethodDef` of builtin `len`, which takes exactly one argument. */
  const LenDef := MethodDef(BuiltinLen, true, 1, 1)

  /** The runtime's only method definition whose entry point is builtin `len`
      is `len`'s own. */
  predicate KnownDefs(funcs: Option<Limited<MethodDef>>) {
    funcs.Some? ==>
      forall i :: 0 <= i < |SeenOf(funcs.value)| && SeenOf(funcs.value)[i].meth == BuiltinLen ==>
        SeenOf(funcs.value)[i] == LenDef
  }

  /** CheckPyTicker: a negative answer from the ticker means a signal handler
      raised, and the exception propagates. */
  function CheckTicker(rt: Runtime, s: State): (r: Step)
    ensures r.Fall? || r.ToPropagate?
    ensures r.Fall? <==> rt.status(Ticker, []) >= 0
    ensures r.Fall? ==> r.s == s
    ensures r.ToPropagate? ==> r.s == s.(err := rt.raised(Ticker, []))
  {
    if rt.status(Ticker, []) < 0 then ToPropagate(Raised(rt, s, Ticker, [])) else Fall(s)
  }

  /** The common end of a call: the callee has consumed `consumed` slots; a
      NULL result propagates, anything else is pushed and the ticker checked. */
  function FinishCall(rt: Runtime, s: State, consumed: nat, result: Value, api: Api, args: seq<Value>): (r: Step)
    requires consumed <= |s.stack|
    ensures r.Fall? || r.ToPropagate?
    ensures r.Fall? <==> result != Null && rt.status(Ticker, []) >= 0
    ensures result == Null ==> r.s == Drop(s, consumed).(err := rt.raised(api, args))
    ensures result != Null ==> r.s.stack == s.stack[..|s.stack| - consumed] + [result]
    ensures result != Null && r.Fall? ==> r.s == s.(stack := s.stack[..|s.stack| - consumed] + [result])
    ensures result != Null && r.ToPropagate? ==>
      r.s == s.(stack := s.stack[..|s.stack| - consumed] + [result], err := rt.raised(Ticker, []))
  {
    var s1 := Drop(s, consumed);
    if result == Null then ToPropagate(Raised(rt, s1, api, args))
    else CheckTicker(rt, Push(s1, result))
  }

  // ---------------------------------------------------------------------
  // The generic paths

  /** The slots a generic call consumes: the callable, the positional
      arguments, and a name and a value per keyword argument. */
  function SafeSlots(oparg: nat): nat {
    NumArgs(oparg) + 2 * NumKwargs(oparg) + 1
  }

  /** The arguments `_PyEval_CallFunction` reads: the consumed slots and the
      two counts. */
  function SafeArgs(s: State, oparg: nat): seq<Value>
    requires SafeSlots(oparg) <= |s.stack|
  {
    TopN(s, SafeSlots(oparg)) + [IntObj(NumArgs(oparg)), IntObj(NumKwargs(oparg))]
  }

  /** CALL_FUNCTION_safe: the generic call replaces the callable and its
      arguments with the result. */
  function CallFunctionSafe(rt: Runtime, s: State, oparg: nat): (r: Step)
    requires SafeSlots(oparg) <= |s.stack|
    ensures r.Fall? || r.ToPropagate?
    ensures var v := rt.call(CallFunction, SafeArgs(s, oparg));
      (r.Fall? <==> v != Null && rt.status(Ticker, []) >= 0)
      && (v == Null ==> r.s == Drop(s, SafeSlots(oparg)).(err := rt.raised(CallFunction, SafeArgs(s, oparg))))
      && (v != Null ==> r.s.stack == s.stack[..|s.stack| - SafeSlots(oparg)] + [v])
  {
    var args := SafeArgs(s, oparg);
    FinishCall(rt, s, SafeSlots(oparg), rt.call(CallFunction, args), CallFunction, args)
  }

  const CallFlagVar := 1
  const CallFlagKw := 2

  /** The slots CallVarKwFunction consumes: those of a generic call, plus the
      `*args` sequence when the VAR flag is set and the `**kwargs` mapping
      when the KW flag is. */
  function VarKwSlots(oparg: nat, flag: nat): nat {
    SafeSlots(oparg) + (if flag % 2 == 1 then 1 else 0) + (if (flag / 2) % 2 == 1 then 1 else 0)
  }

  function VarKwArgs(s: State, oparg: nat, flag: nat): seq<Value>
    requires VarKwSlots(oparg, flag) <= |s.stack|
  {
    TopN(s, VarKwSlots(oparg, flag)) + [IntObj(NumArgs(oparg)), IntObj(NumKwargs(oparg)), IntObj(flag)]
  }

  /** CallVarKwFunction, shared by CALL_FUNCTION_VAR (flag 1),
      CALL_FUNCTION_KW (flag 2) and CALL_FUNCTION_VAR_KW (flag 3). */
  function CallVarKw(rt: Runtime, s: State, oparg: nat, flag: nat): (r: Step)
    requires VarKwSlots(oparg, flag) <= |s.stack|
    ensures r.Fall? || r.ToPropagate?
    ensures var v := rt.call(CallFunctionVarKw, VarKwArgs(s, oparg, flag));
      (r.Fall? <==> v != Null && rt.status(Ticker, []) >= 0)
      && (v == Null ==> r.s == Drop(s, VarKwSlots(oparg, flag)).(err := rt.raised(CallFunctionVarKw, VarKwArgs(s, oparg, flag))))
      && (v != Null ==> r.s.stack == s.stack[..|s.stack| - VarKwSlots(oparg, flag)] + [v])
  {
    var args := VarKwArgs(s, oparg, flag);
    FinishCall(rt, s, VarKwSlots(oparg, flag), rt.call(CallFunctionVarKw, args), CallFunctionVarKw, args)
  }

  /** Each of the VAR and KW flags costs exactly one more stack slot. */
  lemma VarKwSlotCounts(oparg: nat)
    ensures VarKwSlots(oparg, CallFlagVar) == SafeSlots(oparg) + 1
    ensures VarKwSlots(oparg, CallFlagKw) == SafeSlots(oparg) + 1
    ensures VarKwSlots(oparg, CallFlagVar + CallFlagKw) == SafeSlots(oparg) + 2
    ensures VarKwSlots(oparg, 0) == SafeSlots(oparg)
  {
  }

  // ---------------------------------------------------------------------
  // The fast path

  /** Which code CALL_FUNCTION gets. */
  datatype CallPath = SafePath | DirectPath(def: MethodDef)

  /** CALL_FUNCTION's compile-time choice: a direct call needs callee
      feedback that did not overflow and names exactly one method
      definition, no keyword arguments, and a definition declaring an arity
      range that contains the argument count. */
  function ChoosePath(oparg: nat, funcs: Option<Limited<MethodDef>>): (p: CallPath)
    ensures p.DirectPath? <==>
      funcs.Some? && !OverflowedOf(funcs.value) && NumKwargs(oparg) == 0
      && |SeenOf(funcs.value)| == 1 && SeenOf(funcs.value)[0].argRange
      && SeenOf(funcs.value)[0].minArity <= NumArgs(oparg) <= SeenOf(funcs.value)[0].maxArity
    ensures p.DirectPath? ==> p.def == SeenOf(funcs.value)[0]
  {
    if funcs.None? || OverflowedOf(funcs.value) then SafePath
    else if NumKwargs(oparg) != 0 then SafePath
    else
      var seen := SeenOf(funcs.value);
      if |seen| != 1 then SafePath
      else
        var d := seen[0];
        if d.argRange && d.minArity <= NumArgs(oparg) <= d.maxArity then DirectPath(d) else SafePath
  }

  /** The length helper for `len` of an argument whose recorded type is
      exactly str, unicode, list, tuple or dict. */
  function LenHelper(arg1: Option<TypeTag>): (h: Option<Api>)
    ensures h.Some? <==> arg1.Some? && arg1.value in {StrType, UnicodeType, ListType, TupleType, DictType}
    ensures h.Some? ==> h.value == LenOf(arg1.value)
  {
    match arg1
    case Some(t) =>
      if t == StrType || t == UnicodeType || t == ListType || t == TupleType || t == DictType
      then Some(LenOf(t)) else None
    case None => None
  }

  /** The arguments of the direct call: the callee's `self`, a NULL stand-in
      for a nullary function, the arguments bottom first, and NULL padding up
      to the maximum arity. */
  function DirectArgs(s: State, self: Value, n: nat, maxArity: nat): (args: seq<Value>)
    requires n <= maxArity && n <= |s.stack|
    ensures |args| == 1 + (if maxArity == 0 then 1 else maxArity)
    ensures args[0] == self
    ensures args[1..n + 1] == TopN(s, n)
    ensures forall i :: n + 1 <= i < |args| ==> args[i] == Null
  {
    [self] + (if n == 0 && maxArity == 0 then [Null] else []) + TopN(s, n) + Nulls(maxArity - n)
  }

  /** The direct call of the recorded C function, once the guards held. */
  function DirectCall(rt: Runtime, s: State, n: nat, d: MethodDef): (r: Step)
    requires n + 1 <= |s.stack| && n <= d.maxArity
    requires Peek(s, n + 1).CFunc?
    ensures r.Fall? || r.ToPropagate?
    ensures var args := DirectArgs(s, Peek(s, n + 1).self, n, d.maxArity);
      var v := rt.call(CallCFunction(d.meth), args);
      (r.Fall? <==> v != Null && rt.status(Ticker, []) >= 0)
      && (v == Null ==> r.s == Drop(s, n + 1).(err := rt.raised(CallCFunction(d.meth), args)))
      && (v != Null ==> r.s.stack == s.stack[..|s.stack| - n - 1] + [v])
  {
    var args := DirectArgs(s, Peek(s, n + 1).self, n, d.maxArity);
    FinishCall(rt, s, n + 1, rt.call(CallCFunction(d.meth), args), CallCFunction(d.meth), args)
  }

  /** The guards of the fast path hold: the callable under the arguments is a
      C function object with the recorded entry point. */
  predicate GuardsHold(s: State, n: nat, d: MethodDef)
    requires n + 1 <= |s.stack|
  {
    Peek(s, n + 1).CFunc? && Peek(s, n + 1).def.meth == d.meth
  }

  /** CALL_FUNCTION_fast_len as written: the argument is popped before the
      helper runs, and a NULL from the helper takes the guard bail on the
      popped stack. */
  function FastLenAsWritten(rt: Runtime, s: State, at: int, helper: Api): (r: Step)
    requires |s.stack| >= 2
    ensures var v := rt.call(helper, [Peek(s, 1)]);
      (v == Null ==> r == CreateGuardBailPoint(Drop(s, 1), at, CFuncGuard))
      && (v != Null ==> r == FinishCall(rt, s, 2, v, helper, [Peek(s, 1)]))
  {
    var (s1, obj) := Pop(s);
    var v := rt.call(helper, [obj]);
    if v == Null then CreateGuardBailPoint(s1, at, CFuncGuard)
    else FinishCall(rt, s, 2, v, helper, [obj])
  }

  /** The length path as evidently intended: the helper reads the argument
      in place, so a failed guard bails with the opcode's operands intact. */
  function FastLen(rt: Runtime, s: State, at: int, helper: Api): (r: Step)
    requires |s.stack| >= 2
    ensures r.ToBail? || r.Fall? || r.ToPropagate?
    ensures var v := rt.call(helper, [Peek(s, 1)]);
      (r.ToBail? <==> v == Null)
      && (v == Null ==> r == CreateGuardBailPoint(s, at, CFuncGuard))
      && (v != Null ==> r.s.stack == s.stack[..|s.stack| - 2] + [v])
  {
    var v := rt.call(helper, [Peek(s, 1)]);
    if v == Null then CreateGuardBailPoint(s, at, CFuncGuard)
    else FinishCall(rt, s, 2, v, helper, [Peek(s, 1)])
  }

  /** CALL_FUNCTION_fast once the path is chosen: bail when profiling is
      possible, bail when the guards fail, and otherwise take the length
      helper or the direct call.  `asWritten` selects the length path as the
      source has it. */
  function CallFunctionFast(rt: Runtime, s: State, oparg: nat, at: int, d: MethodDef,
                            arg1: Option<TypeTag>, profiling: bool, asWritten: bool): (r: Step)
    requires NumKwargs(oparg) == 0 && d.minArity <= NumArgs(oparg) <= d.maxArity
    requires NumArgs(oparg) + 1 <= |s.stack|
    requires d.meth == BuiltinLen ==> d == LenDef
    ensures r.ToBail? || r.Fall? || r.ToPropagate?
    ensures profiling ==>
      r.ToBail? && r.s.frame.bailed == CallProfile && r.s.stack == s.stack && r.s.frame.lasti + 1 == at
    ensures !profiling && !GuardsHold(s, NumArgs(oparg), d) ==>
      r.ToBail? && r.s.frame.bailed == GuardFail && r.s.stack == s.stack && r.s.frame.lasti + 1 == at
    ensures !asWritten && r.ToBail? ==> r.s.stack == s.stack && r.s.frame.lasti + 1 == at
    ensures r.Fall? ==>
      |r.s.stack| == |s.stack| - NumArgs(oparg)
      && r.s.stack[..|r.s.stack| - 1] == s.stack[..|s.stack| - NumArgs(oparg) - 1]
      && r.s.stack[|r.s.stack| - 1] != Null
  {
    var n := NumArgs(oparg);
    if profiling then CreateBailPoint(s, at, CallProfile)
    else if !GuardsHold(s, n, d) then CreateGuardBailPoint(s, at, CFuncGuard)
    else if d.meth == BuiltinLen && LenHelper(arg1).Some? then
      assert n == 1;
      LenPath(rt, s, at, LenHelper(arg1).value, asWritten)
    else DirectCall(rt, s, n, d)
  }

  /** The length path of CALL_FUNCTION_fast, as written or as intended: a
      bail at the opcode, or the callable and its argument replaced by the
      helper's answer, or an exception. */
  function LenPath(rt: Runtime, s: State, at: int, helper: Api, asWritten: bool): (r: Step)
    requires |s.stack| >= 2
    ensures r.ToBail? || r.Fall? || r.ToPropagate?
    ensures r.ToBail? ==> r.s.frame.bailed == GuardFail && r.s.frame.lasti + 1 == at
    ensures !asWritten && r.ToBail? ==> r.s.stack == s.stack
    ensures r.Fall? ==>
      |r.s.stack| == |s.stack| - 1 && r.s.stack[..|r.s.stack| - 1] == s.stack[..|s.stack| - 2]
      && r.s.stack[|r.s.stack| - 1] != Null
  {
    if asWritten then FastLenAsWritten(rt, s, at, helper) else FastLen(rt, s, at, helper)
  }

  /** CALL_FUNCTION: `funcs` is the callee feedback of the opcode at `at`,
      `arg1` the type feedback of its first argument, and `profiling` the
      run-time `_Py_ProfilingPossible` flag. */
  function CallFunctionOp(rt: Runtime, s: State, oparg: nat, at: int, funcs: Option<Limited<MethodDef>>,
                          arg1: Option<Limited<Value>>, profiling: bool, asWritten: bool): (r: Step)
    requires SafeSlots(oparg) <= |s.stack|
    requires KnownDefs(funcs)
    ensures r.ToBail? || r.Fall? || r.ToPropagate?
    ensures ChoosePath(oparg, funcs).SafePath? ==> r == CallFunctionSafe(rt, s, oparg)
    ensures r.ToBail? ==> ChoosePath(oparg, funcs).DirectPath?
    ensures profiling && ChoosePath(oparg, funcs).DirectPath? ==> r.ToBail? && r.s.frame.bailed == CallProfile
  {
    match ChoosePath(oparg, funcs)
    case SafePath => CallFunctionSafe(rt, s, oparg)
    case DirectPath(d) => CallFunctionFast(rt, s, oparg, at, d, TypeFeedback(arg1), profiling, asWritten)
  }

  /** Every bail CALL_FUNCTION takes hands the interpreter the stack as it
      was before the opcode and resumes at the opcode itself; every other
      outcome is the generic call's shape: the callable and its arguments
      replaced by one result, or an exception. */
  lemma CallFunctionBailsCleanly(rt: Runtime, s: State, oparg: nat, at: int, funcs: Option<Limited<MethodDef>>,
                                 arg1: Option<Limited<Value>>, profiling: bool)
    requires SafeSlots(oparg) <= |s.stack|
    requires KnownDefs(funcs)
    ensures var r := CallFunctionOp(rt, s, oparg, at, funcs, arg1, profiling, false);
      r.ToBail? || r.Fall? || r.ToPropagate?
    ensures var r := CallFunctionOp(rt, s, oparg, at, funcs, arg1, profiling, false);
      r.ToBail? ==>
        BailToInterpreter(r.s).stacktop == Some(s.stack) && r.s.frame.lasti + 1 == at
        && r.s.blocks == s.blocks && r.s.locals == s.locals
    ensures var r := CallFunctionOp(rt, s, oparg, at, funcs, arg1, profiling, false);
      r.Fall? ==>
        |r.s.stack| == |s.stack| - SafeSlots(oparg) + 1
        && r.s.stack[..|r.s.stack| - 1] == s.stack[..|s.stack| - SafeSlots(oparg)]
        && r.s.stack[|r.s.stack| - 1] != Null
  {
    match ChoosePath(oparg, funcs)
    case SafePath =>
    case DirectPath(d) =>
      assert d in SeenOf(funcs.value);
      FastCallBailsCleanly(rt, s, oparg, at, d, TypeFeedback(arg1), profiling);
  }

  /** CallFunctionBailsCleanly on the direct path. */
  lemma FastCallBailsCleanly(rt: Runtime, s: State, oparg: nat, at: int, d: MethodDef,
                             arg1: Option<TypeTag>, profiling: bool)
    requires NumKwargs(oparg) == 0 && d.minArity <= NumArgs(oparg) <= d.maxArity
    requires NumArgs(oparg) + 1 <= |s.stack|
    requires d.meth == BuiltinLen ==> d == LenDef
    ensures SafeSlots(oparg) == NumArgs(oparg) + 1
    ensures var r := CallFunctionFast(rt, s, oparg, at, d, arg1, profiling, false);
      (r.ToBail? || r.Fall? || r.ToPropagate?)
      && (r.ToBail? ==>
            BailToInterpreter(r.s).stacktop == Some(s.stack) && r.s.frame.lasti + 1 == at
            && r.s.blocks == s.blocks && r.s.locals == s.locals)
      && (r.Fall? ==>
            |r.s.stack| == |s.stack| - SafeSlots(oparg) + 1
            && r.s.stack[..|r.s.stack| - 1] == s.stack[..|s.stack| - SafeSlots(oparg)]
            && r.s.stack[|r.s.stack| - 1] != Null)
  {
    var n := NumArgs(oparg);
    if !profiling && GuardsHold(s, n, d) && d.meth == BuiltinLen && LenHelper(arg1).Some? {
      assert n == 1;
    }
  }

  /** The fast path chooses only where to get the result, never the shape of
      the stack: when the direct call or length helper produces a value, the
      stack is what a successful generic call would leave with that value. */
  lemma FastPathMatchesGenericShape(rt: Runtime, s: State, oparg: nat, at: int, d: MethodDef,
                                    arg1: Option<TypeTag>, v: Value)
    requires NumKwargs(oparg) == 0 && d.minArity <= NumArgs(oparg) <= d.maxArity
    requires NumArgs(oparg) + 1 <= |s.stack|
    requires d.meth == BuiltinLen ==> d == LenDef
    requires CallFunctionFast(rt, s, oparg, at, d, arg1, false, false).Fall?
    requires rt.call(CallFunction, SafeArgs(s, oparg)) == v
    requires CallFunctionSafe(rt, s, oparg).Fall?
    ensures |CallFunctionFast(rt, s, oparg, at, d, arg1, false, false).s.stack|
      == |CallFunctionSafe(rt, s, oparg).s.stack|
    ensures CallFunctionFast(rt, s, oparg, at, d, arg1, false, false).s.stack[..|s.stack| - SafeSlots(oparg)]
      == CallFunctionSafe(rt, s, oparg).s.stack[..|s.stack| - SafeSlots(oparg)]
  {
    if GuardsHold(s, NumArgs(oparg), d) && d.meth == BuiltinLen && LenHelper(arg1).Some? {
      assert NumArgs(oparg) == 1;
    }
  }

  /** The length path as written loses the argument when its guard fails:
      the interpreter is handed a stack one value short of the one
      CALL_FUNCTION started with, and re-executes the call on it. */
  lemma FastLenAsWrittenLosesArgument(rt: Runtime, s: State, at: int, helper: Api)
    requires |s.stack| >= 2
    requires rt.call(helper, [Peek(s, 1)]) == Null
    ensures var r := FastLenAsWritten(rt, s, at, helper);
      r.ToBail? && r.s.frame.lasti + 1 == at
      && BailToInterpreter(r.s).stacktop == Some(s.stack[..|s.stack| - 1])
      && BailToInterpreter(r.s).stacktop != Some(s.stack)
  {
  }

  /** A concrete instance: `len(x)` compiled for a str argument, reached with
      a list; the list helper is not the one compiled in, the helper answers
      NULL, and the interpreter resumes CALL_FUNCTION 1 with `len` alone on
      the stack. */
  lemma FastLenAsWrittenCounterexample()
    ensures var lenFn := CFunc(LenDef, Null);
      var arg := Obj(7, ListType);
      var rt := Runtime((api, args) => Null, (api, args) => 0, (api, args) => NoError);
      var s := State(Code(0, 0, 0, [], [], false, true), [lenFn, arg], [], [], NoUnwind, Null, 0, NoError,
                     FrameObject(None, [], [], [], 0, NotBailed, true, false));
      var funcs := Some(Objects([LenDef], false, false));
      var arg1 := Some(Objects([TypeObj(StrType, true)], false, false));
      var r := CallFunctionOp(rt, s, 1, 5, funcs, arg1, false, true);
      r.ToBail? && BailToInterpreter(r.s).stacktop == Some([lenFn])
  {
    var lenFn := CFunc(LenDef, Null);
    var rt := Runtime((api, args) => Null, (api, args) => 0, (api, args) => NoError);
    var s := State(Code(0, 0, 0, [], [], false, true), [lenFn, Obj(7, ListType)], [], [], NoUnwind, Null, 0, NoError,
                   FrameObject(None, [], [], [], 0, NotBailed, true, false));
    var funcs := Some(Objects([LenDef], false, false));
    var arg1 := Some(Objects([TypeObj(StrType, true)], false, false));
    assert ChoosePath(1, funcs) == DirectPath(LenDef);
    assert TypeFeedback(arg1) == Some(StrType);
    assert GuardsHold(s, 1, LenDef);
    FastLenAsWrittenLosesArgument(rt, s, 5, LenOf(StrType));
    assert s.stack[..1] == [lenFn];
  }
}

=== FILE: closure.dfy ===
/** The closure opcodes: LOAD_CLOSURE, MAKE_CLOSURE, LOAD_DEREF and
    STORE_DEREF, over the frame's cell and free-variable slots. */
module Closure {
  import opened Wrappers
  import opened Values
  import opened Frame

  /** LOAD_CLOSURE: pushes the cell in slot `index` itself. */
  function LoadClosure(s: State, index: nat): (r: Step)
    requires index < |s.frame.cells|
    ensures r.Fall? && r.s.stack == s.stack + [s.frame.cells[index]] && SameButStack(s, r.s)
  {
    Fall(Push(s, s.frame.cells[index]))
  }

  /** MAKE_CLOSURE with `n` defaults: pops the code object and makes the
      function, pops the closure and sets it, then (when `n` > 0) allocates
      the defaults tuple, pops the `n` defaults into it in stack order and
      sets them; the function is pushed.  Each failure propagates with what
      has been popped so far gone from the stack. */
  function MakeClosure(rt: Runtime, s: State, n: nat): (r: Step)
    requires |s.stack| >= 2 + n
    ensures r.Fall? || r.ToPropagate?
    ensures var func := rt.call(NewFunction, [Peek(s, 1)]);
      var closureFailed := func != Null && rt.status(SetClosure, [func, Peek(s, 2)]) != 0;
      var tupleFailed := func != Null && !closureFailed && n > 0 && rt.call(NewTuple, [IntObj(n)]) == Null;
      var defaultsFailed := func != Null && !closureFailed && !tupleFailed && n > 0
        && rt.status(SetDefaults, [func, SeqObj(TupleType, TopN(Drop(s, 2), n))]) != 0;
      (func == Null ==> r == ToPropagate(Drop(s, 1).(err := rt.raised(NewFunction, [Peek(s, 1)]))))
      && (closureFailed ==> r == ToPropagate(Drop(s, 2).(err := rt.raised(SetClosure, [func, Peek(s, 2)]))))
      && (tupleFailed ==> r == ToPropagate(Drop(s, 2).(err := rt.raised(NewTuple, [IntObj(n)]))))
      && (defaultsFailed ==> r.ToPropagate? && r.s.stack == s.stack[..|s.stack| - 2 - n])
      && (r.Fall? <==> func != Null && !closureFailed && !tupleFailed && !defaultsFailed)
      && (r.Fall? ==> r.s == s.(stack := s.stack[..|s.stack| - 2 - n] + [func]))
  {
    var code := Peek(s, 1);
    var func := rt.call(NewFunction, [code]);
    if func == Null then ToPropagate(Raised(rt, Drop(s, 1), NewFunction, [code]))
    else
      var closure := Peek(s, 2);
      var s2 := Drop(s, 2);
      if rt.status(SetClosure, [func, closure]) != 0 then ToPropagate(Raised(rt, s2, SetClosure, [func, closure]))
      else if n == 0 then Fall(Push(s2, func))
      else if rt.call(NewTuple, [IntObj(n)]) == Null then ToPropagate(Raised(rt, s2, NewTuple, [IntObj(n)]))
      else
        var defaults := SeqObj(TupleType, TopN(s2, n));
        var s3 := Drop(s2, n);
        if rt.status(SetDefaults, [func, defaults]) != 0 then ToPropagate(Raised(rt, s3, SetDefaults, [func, defaults]))
        else Fall(Push(s3, func))
  }

  /** The stack effect of MAKE_CLOSURE: on success it is net -(1 + n), the
      function replacing the code object, the closure and the defaults; the
      defaults it sets are the `n` values below the closure, bottom first. */
  lemma MakeClosureStackEffect(rt: Runtime, s: State, n: nat)
    requires |s.stack| >= 2 + n
    ensures var r := MakeClosure(rt, s, n);
      r.Fall? ==> (|r.s.stack| == |s.stack| - (1 + n) && Peek(r.s, 1) == rt.call(NewFunction, [Peek(s, 1)])
                   && Peek(r.s, 1) != Null)
    ensures var func := rt.call(NewFunction, [Peek(s, 1)]);
      n > 0 && MakeClosure(rt, s, n).Fall? ==>
        rt.status(SetDefaults, [func, SeqObj(TupleType, s.stack[|s.stack| - 2 - n..|s.stack| - 2])]) == 0
  {
    var s2 := Drop(s, 2);
    assert TopN(s2, n) == s.stack[|s.stack| - 2 - n..|s.stack| - 2];
  }

  /** LOAD_DEREF: reads the cell in slot `index`.  An empty cell raises the
      unbound-variable error, unless reading it already raised; a full one
      is pushed. */
  function LoadDeref(rt: Runtime, s: State, index: nat): (r: Step)
    requires index < |s.frame.cells|
    ensures r.Fall? || r.ToPropagate?
    ensures var cell := s.frame.cells[index];
      var v := rt.call(CellGet, [cell]);
      var pending := rt.raised(CellGet, [cell]);
      (v != Null ==> r == Fall(s.(stack := s.stack + [v])))
      && (v == Null && pending.typ == Null
          ==> r == ToPropagate(s.(err := rt.raised(RaiseUnboundFreeVar, [IntObj(index)]))))
      && (v == Null && pending.typ != Null ==> r == ToPropagate(s.(err := pending)))
  {
    var cell := s.frame.cells[index];
    var v := rt.call(CellGet, [cell]);
    if v != Null then Fall(Push(s, v))
    else if rt.raised(CellGet, [cell]).typ == Null then
      ToPropagate(Raised(rt, s, RaiseUnboundFreeVar, [IntObj(index)]))
    else ToPropagate(Raised(rt, s, CellGet, [cell]))
  }

  /** STORE_DEREF: pops the value into the cell in slot `index`; a nonzero
      status propagates. */
  function StoreDeref(rt: Runtime, s: State, index: nat): (r: Step)
    requires index < |s.frame.cells| && |s.stack| >= 1
    ensures r == CheckNonZero(rt, Drop(s, 1), CellSet, [s.frame.cells[index], Peek(s, 1)])
    ensures r.s.stack == s.stack[..|s.stack| - 1]
  {
    var (s1, v) := Pop(s);
    CheckNonZero(rt, s1, CellSet, [s.frame.cells[index], v])
  }

  /** The stack never changes under LOAD_DEREF except by the one value it
      pushes, and it pushes only what the cell holds. */
  lemma LoadDerefPushesCellContents(rt: Runtime, s: State, index: nat)
    requires index < |s.frame.cells|
    ensures var r := LoadDeref(rt, s, index);
      (r.Fall? <==> rt.call(CellGet, [s.frame.cells[index]]) != Null)
      && (r.Fall? ==> Drop(r.s, 1) == s && Peek(r.s, 1) == rt.call(CellGet, [s.frame.cells[index]]))
      && (r.ToPropagate? ==> r.s.(err := s.err) == s)
  {
  }
}

=== FILE: cmpops.dfy ===
/** COMPARE_OP: the choice between an optimized comparison helper and the
    generic comparison, and the generic comparison itself. */
module Cmpops {
  import opened Wrappers
  import opened Values
  import opened Frame
  import opened Feedback

  /** The comparison codes of the interpreter (`PyCmp_*`); the six rich
      comparisons share their codes with `Py_LT` .. `Py_GE`. */
  const CmpLT := 0
  const CmpLE := 1
  const CmpEQ := 2
  const CmpNE := 3
  const CmpGT := 4
  const CmpGE := 5
  const CmpIn := 6
  const CmpNotIn := 7
  const CmpIs := 8
  const CmpIsNot := 9
  const CmpExcMatch := 10

  /** The codes the compiler accepts; any other is a fatal error. */
  predicate KnownCompare(op: int) {
    CmpLT <= op <= CmpExcMatch
  }

  predicate IsRichCompare(op: int) {
    CmpLT <= op <= CmpGE
  }

  /** The table of optimized operations: the name of a helper specialised to
      an operation and a pair of exact operand types, if there is one. */
  type OptimizedOps = (int, TypeTag, TypeTag) -> Option<string>

  /** Whether COMPARE_OP takes the optimized path, and with which helper:
      only when both operands have type feedback and the table has an entry
      for the operation and those two types. */
  function FastCompareName(table: OptimizedOps, op: int, lhs: Option<TypeTag>, rhs: Option<TypeTag>): (name: Option<string>)
    ensures name.Some? <==> lhs.Some? && rhs.Some? && table(op, lhs.value, rhs.value).Some?
    ensures name.Some? ==> name == table(op, lhs.value, rhs.value)
  {
    if lhs.Some? && rhs.Some? then table(op, lhs.value, rhs.value) else None
  }

  /** COMPARE_OP_fast: pops rhs and lhs and calls the helper; a NULL answer
      (the helper declines these operands) pushes lhs and rhs back and
      bails, otherwise the answer is pushed. */
  function CompareFast(rt: Runtime, s: State, at: int, name: string): (r: Step)
    requires |s.stack| >= 2
    ensures var v := rt.call(OptimizedCompare(name), [Peek(s, 2), Peek(s, 1)]);
      (v == Null ==> r == CreateBailPoint(s, at, GuardFail))
      && (v != Null ==> r == Fall(s.(stack := s.stack[..|s.stack| - 2] + [v])))
  {
    var (s1, rhs) := Pop(s);
    var (s2, lhs) := Pop(s1);
    var v := rt.call(OptimizedCompare(name), [lhs, rhs]);
    if v == Null then
      PopPush(s1);
      PopPush(s);
      CreateBailPoint(Push(Push(s2, lhs), rhs), at, GuardFail)
    else Fall(Push(s2, v))
  }

  /** A runtime predicate returning a status: negative is an error,
      positive is true (`IsPositive`). */
  function Test(rt: Runtime, api: Api, args: seq<Value>): (t: Truth)
    ensures t.TruthFailed? <==> rt.status(api, args) < 0
    ensures t.TruthFailed? ==> t.err == rt.raised(api, args)
    ensures t.Truth? ==> (t.b <==> rt.status(api, args) > 0)
  {
    if rt.status(api, args) < 0 then TruthFailed(rt.raised(api, args))
    else Truth(rt.status(api, args) > 0)
  }

  /** Pushes the boolean singleton for a successful test, or propagates its
      error. */
  function PushTest(s: State, t: Truth): (r: Step)
    ensures r.Fall? <==> t.Truth?
    ensures r.Fall? ==> r.s == Push(s, Bool(t.b))
    ensures r.ToPropagate? ==> r.s == s.(err := t.err)
  {
    match t
    case Truth(b) => Fall(Push(s, Bool(b)))
    case TruthFailed(e) => ToPropagate(s.(err := e))
  }

  /** COMPARE_OP_safe: pops rhs and lhs.  IS and IS NOT compare identity;
      IN asks whether the container rhs contains the item lhs, and NOT IN
      negates that; EXC_MATCH asks the checked exception match; the six rich
      comparisons push what PyObject_RichCompare returns. */
  function CompareSafe(rt: Runtime, s: State, op: int): (r: Step)
    requires |s.stack| >= 2
    requires KnownCompare(op)
    ensures r.Fall? || r.ToPropagate?
    ensures |r.s.stack| >= |s.stack| - 2 && r.s.stack[..|s.stack| - 2] == s.stack[..|s.stack| - 2]
    ensures r.Fall? ==> |r.s.stack| == |s.stack| - 1 && Peek(r.s, 1) != Null && SameButStack(s, r.s)
    ensures r.ToPropagate? ==> r.s.stack == s.stack[..|s.stack| - 2]
    ensures op == CmpIs ==> r == Fall(Push(Drop(s, 2), Bool(Peek(s, 2) == Peek(s, 1))))
    ensures op == CmpIsNot ==> r == Fall(Push(Drop(s, 2), Bool(Peek(s, 2) != Peek(s, 1))))
    ensures IsRichCompare(op) ==> r == PushResultOf(rt, Drop(s, 2), RichCompare(op), [Peek(s, 2), Peek(s, 1)])
    ensures !IsRichCompare(op) && r.Fall? ==> Peek(r.s, 1) in {TrueObj, FalseObj}
  {
    var (s1, rhs) := Pop(s);
    var (s2, lhs) := Pop(s1);
    assert s2 == Drop(s, 2) && lhs == Peek(s, 2) && rhs == Peek(s, 1);
    if op == CmpIs then Fall(Push(s2, Bool(lhs == rhs)))
    else if op == CmpIsNot then Fall(Push(s2, Bool(lhs != rhs)))
    else if op == CmpIn then PushTest(s2, Test(rt, Contains, [rhs, lhs]))
    else if op == CmpNotIn then
      match Test(rt, Contains, [rhs, lhs])
      case Truth(b) => Fall(Push(s2, Bool(!b)))
      case TruthFailed(e) => ToPropagate(s2.(err := e))
    else if op == CmpExcMatch then PushTest(s2, Test(rt, ExceptionMatches, [lhs, rhs]))
    else PushResultOf(rt, s2, RichCompare(op), [lhs, rhs])
  }

  /** COMPARE_OP.  None stands for the fatal error an unknown code raises. */
  function CompareOp(rt: Runtime, s: State, at: int, op: int, table: OptimizedOps,
                     lhs: Option<Limited<Value>>, rhs: Option<Limited<Value>>): (r: Option<Step>)
    requires |s.stack| >= 2
    ensures r.None? <==> !KnownCompare(op)
    ensures r.Some? ==>
      var name := FastCompareName(table, op, TypeFeedback(lhs), TypeFeedback(rhs));
      (name.Some? ==> r.value == CompareFast(rt, s, at, name.value))
      && (name.None? ==> r.value == CompareSafe(rt, s, op))
  {
    if !KnownCompare(op) then None
    else
      var name := FastCompareName(table, op, TypeFeedback(lhs), TypeFeedback(rhs));
      if name.Some? then Some(CompareFast(rt, s, at, name.value)) else Some(CompareSafe(rt, s, op))
  }

  /** NOT IN is the negation of IN: both fail together, with the same error,
      or both succeed with opposite booleans. */
  lemma NotInNegatesIn(rt: Runtime, s: State)
    requires |s.stack| >= 2
    ensures var i := CompareSafe(rt, s, CmpIn);
      var n := CompareSafe(rt, s, CmpNotIn);
      (i.ToPropagate? <==> n.ToPropagate?)
      && (i.ToPropagate? ==> i == n)
      && (i.Fall? ==> n.Fall? && Drop(i.s, 1) == Drop(n.s, 1)
                      && (Peek(i.s, 1) == TrueObj <==> Peek(n.s, 1) == FalseObj))
  {
  }

  /** IS NOT is the negation of IS. */
  lemma IsNotNegatesIs(rt: Runtime, s: State)
    requires |s.stack| >= 2
    ensures var i := CompareSafe(rt, s, CmpIs);
      var n := CompareSafe(rt, s, CmpIsNot);
      i.Fall? && n.Fall? && Drop(i.s, 1) == Drop(n.s, 1)
      && (Peek(i.s, 1) == TrueObj <==> Peek(n.s, 1) == FalseObj)
  {
  }

  /** The optimized path is invisible: either it bails with the stack as it
      was before the opcode, for the interpreter to redo the comparison, or,
      when its helper answers what the generic rich comparison answers, it
      leaves exactly the state the generic path leaves. */
  lemma FastCompareIsSafe(rt: Runtime, s: State, at: int, op: int, name: string)
    requires |s.stack| >= 2
    requires IsRichCompare(op)
    requires rt.call(OptimizedCompare(name), [Peek(s, 2), Peek(s, 1)]) != Null
      ==> rt.call(OptimizedCompare(name), [Peek(s, 2), Peek(s, 1)]) == rt.call(RichCompare(op), [Peek(s, 2), Peek(s, 1)])
    ensures var f := CompareFast(rt, s, at, name);
      (f.ToBail? && f.s.stack == s.stack && f.s.frame.lasti + 1 == at && f.s.frame.bailed == GuardFail)
      || f == CompareSafe(rt, s, op)
  {
  }
}

=== FILE: container.dfy ===
/** The container opcodes: sequence and dict literals, unpacking, item
    assignment and deletion, list append, STORE_MAP and IMPORT_NAME. */
module Container {
  import opened Wrappers
  import opened Values
  import opened Frame
  import opened Feedback

  /** The list or tuple constructor a literal uses. */
  function SequenceApi(tag: TypeTag): Api {
    if tag == ListType then NewList else NewTuple
  }

  /** BuildSequenceLiteral (BUILD_LIST and BUILD_TUPLE): allocates the
      sequence first, propagating a failure before anything is popped; then
      pops the `n` items into their slots from the last down, and pushes the
      sequence, whose items are therefore in stack order. */
  method BuildSequenceLiteral(rt: Runtime, s: State, n: nat, tag: TypeTag) returns (r: Step)
    requires n <= |s.stack|
    requires tag == ListType || tag == TupleType
    ensures r.Fall? || r.ToPropagate?
    ensures r.ToPropagate? <==> rt.call(SequenceApi(tag), [IntObj(n)]) == Null
    ensures r.ToPropagate? ==> r.s == s.(err := rt.raised(SequenceApi(tag), [IntObj(n)]))
    ensures r.Fall? ==> r.s == s.(stack := s.stack[..|s.stack| - n] + [SeqObj(tag, TopN(s, n))])
  {
    var api := SequenceApi(tag);
    if rt.call(api, [IntObj(n)]) == Null {
      return ToPropagate(Raised(rt, s, api, [IntObj(n)]));
    }
    var items: seq<Value> := Nulls(n);
    var cur := s;
    var size := n;
    var base := |s.stack| - n;
    while size > 0
      invariant 0 <= size <= n
      invariant cur == s.(stack := s.stack[..base + size])
      invariant |items| == n
      invariant forall i :: size <= i < n ==> items[i] == s.stack[base + i]
    {
      size := size - 1;
      var (c1, x) := Pop(cur);
      items := items[size := x];
      cur := c1;
    }
    assert items == TopN(s, n);
    return Fall(Push(cur, SeqObj(tag, items)));
  }

  /** BUILD_MAP: pushes a new dict presized for `size` entries. */
  function BuildMap(rt: Runtime, s: State, size: nat): (r: Step)
    ensures r.Fall? || r.ToPropagate?
    ensures r.ToPropagate? <==> rt.call(NewDict, [IntObj(size)]) == Null
    ensures r.Fall? ==> r.s.stack == s.stack + [rt.call(NewDict, [IntObj(size)])] && SameButStack(s, r.s)
  {
    PushResultOf(rt, s, NewDict, [IntObj(size)])
  }

  /** The items `_PyLlvm_FastUnpackIterable` takes from an iterable, in
      iteration order. */
  function UnpackedItems(rt: Runtime, iterable: Value, n: nat): (items: seq<Value>)
    ensures |items| == n
  {
    seq(n, i requires 0 <= i < n => rt.call(UnpackItem(i), [iterable]))
  }

  function Reverse(xs: seq<Value>): (r: seq<Value>)
    ensures |r| == |xs|
    ensures forall i :: 0 <= i < |xs| ==> r[i] == xs[|xs| - 1 - i]
  {
    if |xs| == 0 then [] else Reverse(xs[1..]) + [xs[0]]
  }

  /** UNPACK_SEQUENCE: pops the iterable and lets the helper write its `n`
      items above the stack pointer, the first item on top.  A nonzero
      status propagates without moving the stack pointer over the items. */
  function UnpackSequence(rt: Runtime, s: State, n: nat): (r: Step)
    requires |s.stack| >= 1
    ensures r.Fall? || r.ToPropagate?
    ensures r.ToPropagate? <==> rt.status(UnpackIterable(n), [Peek(s, 1)]) != 0
    ensures r.ToPropagate? ==> r.s == Drop(s, 1).(err := rt.raised(UnpackIterable(n), [Peek(s, 1)]))
    ensures r.Fall? ==>
      |r.s.stack| == |s.stack| - 1 + n
      && r.s.stack[..|s.stack| - 1] == s.stack[..|s.stack| - 1]
      && SameButStack(s, r.s)
      && forall i :: 0 <= i < n ==> Peek(r.s, i + 1) == UnpackedItems(rt, Peek(s, 1), n)[i]
  {
    var (s1, iterable) := Pop(s);
    if rt.status(UnpackIterable(n), [iterable]) != 0 then
      ToPropagate(Raised(rt, s1, UnpackIterable(n), [iterable]))
    else
      Fall(s1.(stack := s1.stack + Reverse(UnpackedItems(rt, iterable, n))))
  }

  // ---------------------------------------------------------------------
  // STORE_SUBSCR

  /** STORE_SUBSCR is specialised exactly when the container has only been
      seen to be a list and the key an int. */
  predicate StoreSubscrSpecialised(container: Option<Limited<Value>>, key: Option<Limited<Value>>) {
    TypeFeedback(container) == Some(ListType) && TypeFeedback(key) == Some(IntType)
  }

  /** STORE_SUBSCR_safe: pops key, container and value, and calls
      PyObject_SetItem; a nonzero status propagates. */
  function StoreSubscrSafe(rt: Runtime, s: State): (r: Step)
    requires |s.stack| >= 3
    ensures r == CheckNonZero(rt, Drop(s, 3), StoreSubscr, [Peek(s, 2), Peek(s, 1), Peek(s, 3)])
  {
    var (s1, key) := Pop(s);
    var (s2, obj) := Pop(s1);
    var (s3, value) := Pop(s2);
    CheckNonZero(rt, s3, StoreSubscr, [obj, key, value])
  }

  /** Popping three values and pushing them back in their order restores the
      state. */
  lemma PopThreePushThree(s: State)
    requires |s.stack| >= 3
    ensures Push(Push(Push(Drop(s, 3), Peek(s, 3)), Peek(s, 2)), Peek(s, 1)) == s
  {
    var n := |s.stack|;
    assert s.stack[..n - 3] + [s.stack[n - 3], s.stack[n - 2], s.stack[n - 1]] == s.stack;
  }

  /** STORE_SUBSCR_list_int: pops the operands and calls the list helper; a
      nonzero answer (not a list, not an int, out of range) pushes value,
      container and key back and bails. */
  function StoreSubscrListInt(rt: Runtime, s: State, at: int): (r: Step)
    requires |s.stack| >= 3
    ensures r.ToBail? || r.Fall?
    ensures var args := [Peek(s, 2), Peek(s, 1), Peek(s, 3)];
      (rt.status(Api.StoreSubscrListInt, args) != 0 ==> r == CreateGuardBailPoint(s, at, StoreSubscrGuard))
      && (rt.status(Api.StoreSubscrListInt, args) == 0 ==> r == Fall(Drop(s, 3)))
  {
    var (s1, key) := Pop(s);
    var (s2, obj) := Pop(s1);
    var (s3, value) := Pop(s2);
    if rt.status(Api.StoreSubscrListInt, [obj, key, value]) != 0 then
      PopThreePushThree(s);
      CreateGuardBailPoint(Push(Push(Push(s3, value), obj), key), at, StoreSubscrGuard)
    else Fall(s3)
  }

  /** STORE_SUBSCR, given the type feedback of the container (argument 0)
      and the key (argument 1). */
  function StoreSubscrOp(rt: Runtime, s: State, at: int, container: Option<Limited<Value>>, key: Option<Limited<Value>>): (r: Step)
    requires |s.stack| >= 3
    ensures StoreSubscrSpecialised(container, key) ==> r == StoreSubscrListInt(rt, s, at)
    ensures !StoreSubscrSpecialised(container, key) ==> r == StoreSubscrSafe(rt, s)
  {
    if StoreSubscrSpecialised(container, key) then StoreSubscrListInt(rt, s, at) else StoreSubscrSafe(rt, s)
  }

  /** The specialisation is invisible: it bails with the stack as it was,
      or it does what the generic store does when that succeeds. */
  lemma StoreSubscrSpecialisationIsSafe(rt: Runtime, s: State, at: int)
    requires |s.stack| >= 3
    requires rt.status(StoreSubscr, [Peek(s, 2), Peek(s, 1), Peek(s, 3)]) == 0
    ensures var r := StoreSubscrListInt(rt, s, at);
      r == StoreSubscrSafe(rt, s)
      || (r.ToBail? && r.s.stack == s.stack && r.s.frame.lasti + 1 == at && r.s.frame.bailed == GuardFail)
  {
  }

  /** DELETE_SUBSCR: pops key and container and calls PyObject_DelItem. */
  function DeleteSubscrOp(rt: Runtime, s: State): (r: Step)
    requires |s.stack| >= 2
    ensures r.Fall? || r.ToPropagate?
    ensures r.s.stack == s.stack[..|s.stack| - 2]
    ensures r.ToPropagate? <==> rt.status(DeleteSubscr, [Peek(s, 2), Peek(s, 1)]) != 0
    ensures r.s.(stack := s.stack, err := s.err) == s
  {
    var (s1, key) := Pop(s);
    var (s2, obj) := Pop(s1);
    CheckNonZero(rt, s2, DeleteSubscr, [obj, key])
  }

  /** LIST_APPEND: pops the item and the list and calls PyList_Append. */
  function ListAppendOp(rt: Runtime, s: State): (r: Step)
    requires |s.stack| >= 2
    ensures r.Fall? || r.ToPropagate?
    ensures r.s.stack == s.stack[..|s.stack| - 2]
    ensures r.ToPropagate? <==> rt.status(ListAppend, [Peek(s, 2), Peek(s, 1)]) != 0
    ensures r.s.(stack := s.stack, err := s.err) == s
  {
    var (s1, item) := Pop(s);
    var (s2, list) := Pop(s1);
    CheckNonZero(rt, s2, ListAppend, [list, item])
  }

  /** STORE_MAP: pops key, value and dict, pushes the dict back and sets the
      item, so the dict stays on the stack whatever the outcome. */
  function StoreMap(rt: Runtime, s: State): (r: Step)
    requires |s.stack| >= 3
    ensures r.Fall? || r.ToPropagate?
    ensures r.s.stack == s.stack[..|s.stack| - 3] + [Peek(s, 3)]
    ensures r.ToPropagate? <==> rt.status(DictSetItem, [Peek(s, 3), Peek(s, 1), Peek(s, 2)]) != 0
    ensures r.s.(stack := s.stack, err := s.err) == s
  {
    var (s1, key) := Pop(s);
    var (s2, value) := Pop(s1);
    var (s3, dict) := Pop(s2);
    CheckNonZero(rt, Push(s3, dict), DictSetItem, [dict, key, value])
  }

  // ---------------------------------------------------------------------
  // IMPORT_NAME

  /** What compiling IMPORT_NAME knows and changes: the dicts the code
      object watches (`co_watching`) and the emitter, whose `watchesUsed`
      is `uses_watched_dicts_`. */
  datatype CompileWatch = CompileWatch(watching: set<Watch>, e: Emitter)

  /** The single module the feedback has seen, if that is all it has seen. */
  function SeenModule(fb: Option<Limited<Value>>): (m: Option<Value>)
    ensures m.Some? <==>
      fb.Some? && !OverflowedOf(fb.value) && |SeenOf(fb.value)| == 1
      && SeenOf(fb.value)[0] != Null && TypeOf(SeenOf(fb.value)[0]) == ModuleType
    ensures m.Some? ==> m.value == SeenOf(fb.value)[0]
  {
    if fb.None? || OverflowedOf(fb.value) then None
    else
      var objs := SeenOf(fb.value);
      if |objs| == 1 && objs[0] != Null && TypeOf(objs[0]) == ModuleType then Some(objs[0]) else None
  }

  /** IMPORT_NAME_fast at compile time, as written: with a single module in
      the feedback, the fast path needs sys.modules watched; when the watch
      has to be set up here (the module dict exists and watching it
      succeeds), the builtins and sys.modules watches are marked used.  A
      watch that was already in place is not marked. */
  function PlanImportAsWritten(fb: Option<Limited<Value>>, c: CompileWatch, haveModules: bool, watchOk: bool)
    : (r: (Option<Value>, CompileWatch))
    ensures r.0.Some? <==> SeenModule(fb).Some? && (WatchSysModules in c.watching || (haveModules && watchOk))
    ensures r.0.Some? ==> r.0 == SeenModule(fb) && WatchSysModules in r.1.watching
    ensures r.0.None? ==> r.1 == c
    ensures WatchSysModules in c.watching ==> r.1 == c
  {
    var m := SeenModule(fb);
    if m.None? then (None, c)
    else if WatchSysModules !in c.watching then
      if !haveModules || !watchOk then (None, c)
      else (m, CompileWatch(c.watching + {WatchSysModules},
                            c.e.(watchesUsed := c.e.watchesUsed + {WatchBuiltins, WatchSysModules})))
    else (m, c)
  }

  /** The same, marking the watches used whenever the fast path is taken. */
  function PlanImport(fb: Option<Limited<Value>>, c: CompileWatch, haveModules: bool, watchOk: bool)
    : (r: (Option<Value>, CompileWatch))
    ensures r.0 == PlanImportAsWritten(fb, c, haveModules, watchOk).0
    ensures r.0.Some? ==> WatchSysModules in r.1.watching && WatchSysModules in r.1.e.watchesUsed
    ensures r.0.None? ==> r.1 == c
  {
    var m := SeenModule(fb);
    if m.None? then (None, c)
    else if WatchSysModules !in c.watching && (!haveModules || !watchOk) then (None, c)
    else (m, CompileWatch(c.watching + {WatchSysModules},
                          c.e.(watchesUsed := c.e.watchesUsed + {WatchBuiltins, WatchSysModules})))
  }

  /** FinishFunction: every watch the compiled code did not mark used is
      dropped, so changes to that dict no longer invalidate the code. */
  function FinishWatches(c: CompileWatch): (w: set<Watch>)
    ensures forall x :: x in w <==> x in c.watching && x in c.e.watchesUsed
  {
    c.watching * c.e.watchesUsed
  }

  /** With the watches marked whenever the fast path is taken, compiled code
      that relies on the module it saw always stays subscribed to
      sys.modules. */
  lemma FastImportStaysWatched(fb: Option<Limited<Value>>, c: CompileWatch, haveModules: bool, watchOk: bool)
    ensures var (m, c1) := PlanImport(fb, c, haveModules, watchOk);
      m.Some? ==> WatchSysModules in FinishWatches(c1)
  {
  }

  /** As written, a compilation that starts with sys.modules already watched
      (left by an earlier compilation of the same code object) and not yet
      marked used compiles the fast path and then drops the watch, so a
      later change to sys.modules does not invalidate the code. */
  lemma FastImportAsWrittenLosesWatch(fb: Option<Limited<Value>>, c: CompileWatch, haveModules: bool, watchOk: bool)
    requires SeenModule(fb).Some?
    requires WatchSysModules in c.watching && WatchSysModules !in c.e.watchesUsed
    ensures var (m, c1) := PlanImportAsWritten(fb, c, haveModules, watchOk);
      m.Some? && WatchSysModules !in FinishWatches(c1)
  {
  }

  /** IMPORT_NAME at run time.  The fast path bails fatally, with the stack
      untouched, once the code object has been invalidated; otherwise it
      replaces level, from-list and name with the module it saw.  The generic
      path calls `_PyEval_ImportName(level, names, name)`. */
  function ImportNameOp(rt: Runtime, s: State, at: int, imported: Option<Value>): (r: Step)
    requires |s.stack| >= 3
    ensures imported.Some? && !s.code.useJit ==> r == CreateBailPoint(s, at, FatalGuardFail)
    ensures imported.Some? && s.code.useJit ==> r == Fall(s.(stack := s.stack[..|s.stack| - 3] + [imported.value]))
    ensures imported.None? ==>
      r == PushResultOf(rt, Drop(s, 3), ImportName, [Peek(s, 3), Peek(s, 2), Peek(s, 1)])
  {
    if imported.Some? then
      if !s.code.useJit then CreateBailPoint(s, at, FatalGuardFail)
      else Fall(Push(Drop(s, 3), imported.value))
    else
      var (s1, name) := Pop(s);
      var (s2, names) := Pop(s1);
      var (s3, level) := Pop(s2);
      PushResultOf(rt, s3, ImportName, [level, names, name])
  }

  /** Both paths of IMPORT_NAME consume three values and push one on
      success. */
  lemma ImportNameShape(rt: Runtime, s: State, at: int, imported: Option<Value>)
    requires |s.stack| >= 3
    requires imported.Some? ==> imported.value != Null
    ensures var r := ImportNameOp(rt, s, at, imported);
      (r.Fall? ==> |r.s.stack| == |s.stack| - 2 && r.s.stack[..|s.stack| - 3] == s.stack[..|s.stack| - 3]
                   && Peek(r.s, 1) != Null)
      && (r.ToBail? ==> r.s.stack == s.stack && r.s.frame.bailed == FatalGuardFail)
      && (r.ToPropagate? ==> r.s.stack == s.stack[..|s.stack| - 3])
  {
  }
}

=== FILE: control.dfy ===
/** Raising, returning, yielding and branching. */
module Control {
  import opened Wrappers
  import opened Values
  import opened Frame
  import opened Unwinding

  // ---------------------------------------------------------------------
  // raise and return

  /** The shared part of RAISE_VARARGS: the reason becomes EXCEPTION and the
      return value NULL, and `_PyEval_DoRaise` sets the exception.  A re-raise
      (its answer is RERAISE) goes straight to the unwind block; a new raise
      goes through the propagate-exception block, which adds a traceback
      entry. */
  function DoRaise(rt: Runtime, s: State, typ: Value, inst: Value, tb: Value): (r: Step)
    ensures r.ToUnwind? || r.ToPropagate?
    ensures r.ToUnwind? <==> rt.status(Api.DoRaise, [typ, inst, tb]) == Reraise
    ensures r.s == s.(reason := Exception, retval := Null, err := rt.raised(Api.DoRaise, [typ, inst, tb]))
  {
    var args := [typ, inst, tb];
    var s1 := s.(reason := Exception, retval := Null, err := rt.raised(Api.DoRaise, args));
    if rt.status(Api.DoRaise, args) == Reraise then ToUnwind(s1) else ToPropagate(s1)
  }

  /** RAISE_VARARGS with `argc` operands: the top `argc` values are type,
      instance and traceback in that order from the bottom; missing ones are
      NULL. */
  function RaiseVarargs(rt: Runtime, s: State, argc: nat): (r: Step)
    requires argc <= 3 && |s.stack| >= argc
    ensures var n := |s.stack|;
      var typ := if argc >= 1 then s.stack[n - argc] else Null;
      var inst := if argc >= 2 then s.stack[n - argc + 1] else Null;
      var tb := if argc == 3 then s.stack[n - 1] else Null;
      r == DoRaise(rt, Drop(s, argc), typ, inst, tb)
  {
    if argc == 0 then DoRaise(rt, s, Null, Null, Null)
    else if argc == 1 then
      var (s1, typ) := Pop(s);
      DoRaise(rt, s1, typ, Null, Null)
    else if argc == 2 then
      var (s1, inst) := Pop(s);
      var (s2, typ) := Pop(s1);
      DoRaise(rt, s2, typ, inst, Null)
    else
      var (s1, tb) := Pop(s);
      var (s2, inst) := Pop(s1);
      var (s3, typ) := Pop(s2);
      DoRaise(rt, s3, typ, inst, tb)
  }

  /** RETURN_VALUE: pops the value and returns it through the unwind block. */
  function ReturnValue(s: State): (r: Step)
    requires |s.stack| >= 1
    ensures r.ToUnwind?
    ensures r.s == s.(stack := s.stack[..|s.stack| - 1], retval := Peek(s, 1), reason := ReturnReason)
  {
    var (s1, v) := Pop(s);
    Return(s1, v)
  }

  /** With no finally block to run, RETURN_VALUE returns the value it popped,
      unless a trace function raises on the way out. */
  lemma ReturnValueReturnsTop(s: State, tracing: bool, tracerRaises: bool)
    requires |s.stack| >= 1
    requires forall i :: 0 <= i < |s.blocks| ==> s.blocks[i].kind != FinallyBlock
    ensures var u := Unwind(ReturnValue(s).s);
      u.Exhausted? && u.s.stack == [] && u.s.blocks == []
      && DoReturn(u.s, tracing, tracerRaises) == (if tracing && tracerRaises then Null else Peek(s, 1))
  {
    ReturnWithoutFinally(ReturnValue(s).s);
  }

  // ---------------------------------------------------------------------
  // yield

  /** The compile-time half of YIELD_VALUE: the opcode index becomes a case of
      the generator-resume switch. */
  function YieldCode(e: Emitter, at: nat): (r: Emitter)
    ensures at in r.resumeCases
    ensures |r.resumeCases| == |e.resumeCases| + 1 && r.resumeCases[..|e.resumeCases|] == e.resumeCases
    ensures r.(resumeCases := e.resumeCases) == e
  {
    e.(resumeCases := e.resumeCases + [at])
  }

  /** YIELD_VALUE: pops the value, flushes the stacks to the frame, records
      the opcode index in `f_lasti`, and leaves through the return block with
      the value as result and YIELD as reason, without unwinding. */
  function YieldValue(s: State, at: nat): (r: Step)
    requires |s.stack| >= 1
    ensures r.ToDoReturn?
    ensures r.s.retval == Peek(s, 1) && r.s.reason == Yield
    ensures r.s.stack == s.stack[..|s.stack| - 1] && r.s.blocks == s.blocks
    ensures r.s.frame.stacktop == Some(r.s.stack) && r.s.frame.blockstack == s.blocks
    ensures r.s.frame.lasti == at
    ensures r.s.frame.(stacktop := s.frame.stacktop, blockstack := s.frame.blockstack, lasti := s.frame.lasti) == s.frame
  {
    var (s1, v) := Pop(s);
    var s2 := CopyToFrameObject(s1);
    ToDoReturn(s2.(frame := s2.frame.(lasti := at), retval := v, reason := Yield))
  }

  /** A generator that yielded at `at` and is resumed without an exception
      re-enters right after that yield, with the stack and blocks it left and
      every local it had, and `f_lasti` reset to -2. */
  lemma YieldResumeRoundTrip(s: State, at: nat, e: Emitter, err: ExcTriple)
    requires IsGenerator(s.code) && |s.stack| >= 1
    requires |s.frame.fastlocals| == s.code.nlocals && LocalsMirrored(s)
    requires !s.frame.throwflag
    ensures var y := YieldValue(s, at).s;
      var r := Entry(s.code, y.frame, err, false, YieldCode(e, at).resumeCases);
      r == ResumeAfterYield(at, r.s)
      && r.s.stack == s.stack[..|s.stack| - 1] && r.s.blocks == s.blocks
      && r.s.locals == s.locals && r.s.frame.lasti == -2 && r.s.frame.stacktop == None
  {
  }

  // ---------------------------------------------------------------------
  // Conditional branches

  /** What branch feedback says about a conditional jump. */
  datatype BranchInput = BranchFalse | Unpredictable | BranchTrue

  const PredictionThreshold := 200

  /** predict_branch_input: with no feedback, or no more than 200 recorded
      outcomes, nothing is predicted; otherwise a branch that went only one way
      is predicted to keep doing so. */
  function PredictBranchInput(counters: Option<(nat, nat)>): (p: BranchInput)
    ensures p == BranchTrue <==>
      counters.Some? && counters.value.0 + counters.value.1 > PredictionThreshold && counters.value.1 == 0
    ensures p == BranchFalse <==>
      counters.Some? && counters.value.0 + counters.value.1 > PredictionThreshold && counters.value.0 == 0
  {
    match counters
    case None => Unpredictable
    case Some((wasTrue, wasFalse)) =>
      if wasTrue + wasFalse <= PredictionThreshold then Unpredictable
      else
        var d := (if wasTrue > 0 then 1 else 0) - (if wasFalse > 0 then 1 else 0);
        if d == 1 then BranchTrue else if d == -1 then BranchFalse else Unpredictable
  }

  /** The edge taken for a branch outcome: an edge the prediction says never
      happens becomes a guard bail that resumes the interpreter at that edge's
      destination. */
  function TakeEdge(s: State, pred: BranchInput, outcome: bool, dest: int, edge: Step): (r: Step)
    ensures (pred == BranchTrue && !outcome) || (pred == BranchFalse && outcome) ==>
      r == CreateGuardBailPoint(s, dest, BranchGuard)
    ensures !((pred == BranchTrue && !outcome) || (pred == BranchFalse && outcome)) ==> r == edge
  {
    if (pred == BranchTrue && !outcome) || (pred == BranchFalse && outcome) then
      CreateGuardBailPoint(s, dest, BranchGuard)
    else edge
  }

  /** POP_JUMP_IF_FALSE and POP_JUMP_IF_TRUE: pop the value, test it, and
      jump to `target` on false (resp. true), falling through otherwise. */
  function PopJumpIf(rt: Runtime, s: State, jumpOn: bool, pred: BranchInput, target: int, next: int): (r: Step)
    requires |s.stack| >= 1
    ensures r.s.stack == Drop(s, 1).stack && r.s.blocks == s.blocks
    ensures r.ToPropagate? <==> IsPythonTrue(rt, Peek(s, 1)).TruthFailed?
    ensures r.ToPropagate? ==> r.s == Drop(s, 1).(err := IsPythonTrue(rt, Peek(s, 1)).err)
    ensures r.Goto? ==> r.target == target && r.s == Drop(s, 1)
    ensures r.Fall? ==> r.s == Drop(s, 1)
    ensures r.ToBail? ==> r.s.frame.bailed == GuardFail && (r.s.frame.lasti + 1 == target || r.s.frame.lasti + 1 == next)
    ensures pred == Unpredictable && IsPythonTrue(rt, Peek(s, 1)).Truth? ==>
      (r.Goto? <==> IsPythonTrue(rt, Peek(s, 1)).b == jumpOn)
      && (r.Fall? <==> IsPythonTrue(rt, Peek(s, 1)).b != jumpOn)
  {
    var (s1, v) := Pop(s);
    match IsPythonTrue(rt, v)
    case TruthFailed(e) => ToPropagate(s1.(err := e))
    case Truth(b) =>
      if b == jumpOn then TakeEdge(s1, pred, b, target, Goto(target, s1))
      else TakeEdge(s1, pred, b, next, Fall(s1))
  }

  /** JUMP_IF_FALSE_OR_POP and JUMP_IF_TRUE_OR_POP: test the top value; jump
      to `target` keeping it on false (resp. true), pop it and fall through
      otherwise.  A failing test propagates with the value still on the
      stack. */
  function JumpIfOrPop(rt: Runtime, s: State, jumpOn: bool, pred: BranchInput, target: int, next: int): (r: Step)
    requires |s.stack| >= 1
    ensures r.ToPropagate? <==> IsPythonTrue(rt, Peek(s, 1)).TruthFailed?
    ensures r.ToPropagate? ==> r.s == s.(err := IsPythonTrue(rt, Peek(s, 1)).err)
    ensures r.Goto? ==> r.target == target && r.s == s
    ensures r.Fall? ==> r.s == Drop(s, 1)
    ensures r.ToBail? ==>
      r.s.frame.bailed == GuardFail
      && ((r.s.frame.lasti + 1 == target && r.s.stack == s.stack)
          || (r.s.frame.lasti + 1 == next && r.s.stack == Drop(s, 1).stack))
    ensures pred == Unpredictable && IsPythonTrue(rt, Peek(s, 1)).Truth? ==>
      (r.Goto? <==> IsPythonTrue(rt, Peek(s, 1)).b == jumpOn)
      && (r.Fall? <==> IsPythonTrue(rt, Peek(s, 1)).b != jumpOn)
  {
    var v := Peek(s, 1);
    match IsPythonTrue(rt, v)
    case TruthFailed(e) => ToPropagate(s.(err := e))
    case Truth(b) =>
      if b == jumpOn then TakeEdge(s, pred, b, target, Goto(target, s))
      else TakeEdge(Pop(s).0, pred, b, next, Fall(Pop(s).0))
  }

  /** The opcode index a branch step continues at. */
  function Destination(r: Step, next: int): int {
    match r
    case Fall(_) => next
    case Goto(t, _) => t
    case ToBail(s) => s.frame.lasti + 1
    case _ => -1
  }

  /** The state a branch step continues with, as the interpreter would see it
      after a bail. */
  predicate SameContinuation(a: Step, b: Step, next: int) {
    Destination(a, next) == Destination(b, next)
    && a.s.stack == b.s.stack && a.s.blocks == b.s.blocks && a.s.err == b.s.err
  }

  /** Branch prediction never changes where execution goes: the predicted code
      either does what the unpredicted code does, or bails to the interpreter
      at the opcode the unpredicted code would have run next, with the same
      stack. */
  lemma PopJumpIfPredictionIsSafe(rt: Runtime, s: State, jumpOn: bool, pred: BranchInput, target: int, next: int)
    requires |s.stack| >= 1
    ensures var p := PopJumpIf(rt, s, jumpOn, pred, target, next);
      var u := PopJumpIf(rt, s, jumpOn, Unpredictable, target, next);
      p == u || (p.ToBail? && p.s.frame.bailed == GuardFail && SameContinuation(p, u, next))
    ensures PopJumpIf(rt, s, jumpOn, Unpredictable, target, next).ToPropagate?
      <==> IsPythonTrue(rt, Peek(s, 1)).TruthFailed?
    ensures var u := PopJumpIf(rt, s, jumpOn, Unpredictable, target, next);
      IsPythonTrue(rt, Peek(s, 1)) == Truth(jumpOn) ==> u == Goto(target, Drop(s, 1))
  {
  }

  /** The same for the jump-or-pop forms. */
  lemma JumpIfOrPopPredictionIsSafe(rt: Runtime, s: State, jumpOn: bool, pred: BranchInput, target: int, next: int)
    requires |s.stack| >= 1
    ensures var p := JumpIfOrPop(rt, s, jumpOn, pred, target, next);
      var u := JumpIfOrPop(rt, s, jumpOn, Unpredictable, target, next);
      p == u || (p.ToBail? && p.s.frame.bailed == GuardFail && SameContinuation(p, u, next))
    ensures var u := JumpIfOrPop(rt, s, jumpOn, Unpredictable, target, next);
      IsPythonTrue(rt, Peek(s, 1)) == Truth(jumpOn) ==> u == Goto(target, s)
    ensures var u := JumpIfOrPop(rt, s, jumpOn, Unpredictable, target, next);
      IsPythonTrue(rt, Peek(s, 1)) == Truth(!jumpOn) ==> u == Fall(Drop(s, 1))
  {
  }
}

=== FILE: diffconstants.dfy ===
/** PyDiffConstants: walks two LLVM constants of the same type in parallel
    and reports, left to right, each place where they differ at a leaf or
    can no longer be walked in parallel.  LLVM uniques its constants, so
    pointer equality is structural equality and is modelled as `==`. */
module DiffConstants {
  import opened Wrappers

  /** Constants with no sub-constants: each value is its own instance. */
  datatype LeafKind = Function | GlobalAlias | GlobalVariable | BlockAddress | ConstantInt | ConstantFP

  /** Constants with one instance per type. */
  datatype UniqueKind = UndefValue | AggregateZero | PointerNull

  /** Constants that are plain sequences of sub-constants. */
  datatype AggKind = ArrayKind | StructKind | VectorKind

  /** A constant tree.  `ty` stands for the LLVM type.  A constant
      expression carries its opcode and the attributes its opcode has (None
      when the opcode has no such attribute): the compare predicate, the
      extract/insert indices, GEP's inbounds, sdiv's exact, and the
      (no-unsigned-wrap, no-signed-wrap) flags of an overflowing operator. */
  datatype Const =
    | Leaf(leaf: LeafKind, ty: nat, value: nat)
    | Unique(unique: UniqueKind, ty: nat)
    | Aggregate(agg: AggKind, ty: nat, elems: seq<Const>)
    | Expr(ty: nat, opcode: nat, pred: Option<nat>, indices: Option<seq<nat>>,
           inBounds: Option<bool>, exact: Option<bool>, wraps: Option<(bool, bool)>,
           ops: seq<Const>)

  /** LLVM's value id: which kind of constant a node is. */
  datatype ValueId = LeafId(l: LeafKind) | UniqueId(u: UniqueKind) | AggId(g: AggKind) | ExprId

  function Id(c: Const): ValueId {
    match c
    case Leaf(k, _, _) => LeafId(k)
    case Unique(k, _) => UniqueId(k)
    case Aggregate(k, _, _) => AggId(k)
    case Expr(_, _, _, _, _, _, _, _) => ExprId
  }

  /** The checks on two constant expressions of the same kind, in the
      order they are made: opcode, then (where the opcode has them) the
      predicate, the indices, inbounds, exact and the wrap flags. */
  predicate HeaderDiffers(a: Const, b: Const)
    requires a.Expr? && b.Expr?
  {
    a.opcode != b.opcode
    || (a.pred.Some? && a.pred != b.pred)
    || (a.indices.Some? && a.indices != b.indices)
    || (a.inBounds.Some? && a.inBounds != b.inBounds)
    || (a.exact.Some? && a.exact != b.exact)
    || (a.wraps.Some? && a.wraps != b.wraps)
  }

  /** In LLVM an opcode decides which attributes an expression has. */
  predicate SameAttributes(a: Const, b: Const)
    requires a.Expr? && b.Expr?
  {
    a.pred.Some? == b.pred.Some? && a.indices.Some? == b.indices.Some?
    && a.inBounds.Some? == b.inBounds.Some? && a.exact.Some? == b.exact.Some?
    && a.wraps.Some? == b.wraps.Some?
  }

  /** What the walk needs of its inputs, wherever it goes: the two
      constants have the same type, and where it descends, aggregates of
      the same type have as many elements, expressions of the same opcode
      have the same attributes, and expressions that agree on them have as
      many operands, pairwise walkable again. */
  predicate Parallel(a: Const, b: Const)
    decreases a, 1
  {
    a.ty == b.ty
    && (a != b && Id(a) == Id(b) ==>
          match a
          case Aggregate(_, _, xs) => ParallelAll(xs, b.elems)
          case Expr(_, _, _, _, _, _, _, xs) =>
            (a.opcode == b.opcode ==> SameAttributes(a, b))
            && (!HeaderDiffers(a, b) ==> ParallelAll(xs, b.ops))
          case _ => true)
  }

  predicate ParallelAll(xs: seq<Const>, ys: seq<Const>)
    decreases xs, 0
  {
    |xs| == |ys| && (|xs| > 0 ==> Parallel(xs[0], ys[0]) && ParallelAll(xs[1..], ys[1..]))
  }

  /** A reported pair is a most precise difference: the kinds differ, or
      two leaves differ, or two expressions differ in their header. */
  predicate Precise(x: Const, y: Const) {
    Id(x) != Id(y) || x.Leaf? || (x.Expr? && y.Expr? && HeaderDiffers(x, y))
  }

  /** Every reported pair is of the same type, unequal and precise. */
  predicate GoodVisits(r: seq<(Const, Const)>) {
    forall k :: 0 <= k < |r| ==> r[k].0.ty == r[k].1.ty && r[k].0 != r[k].1 && Precise(r[k].0, r[k].1)
  }

  /** PyDiffConstants, with the visitor's calls as the result, in order. */
  function Diff(a: Const, b: Const): (r: seq<(Const, Const)>)
    requires Parallel(a, b)
    ensures GoodVisits(r)
    ensures Id(a) != Id(b) ==> r == [(a, b)]
    decreases a, 1
  {
    if a == b then []
    else if Id(a) != Id(b) then [(a, b)]
    else match a
      case Leaf(_, _, _) => [(a, b)]
      case Unique(_, _) => assert false; []
      case Aggregate(_, _, xs) => DiffAll(xs, b.elems)
      case Expr(_, _, _, _, _, _, _, xs) =>
        if HeaderDiffers(a, b) then [(a, b)] else DiffAll(xs, b.ops)
  }

  /** The operand loop: corresponding operands, left to right. */
  function DiffAll(xs: seq<Const>, ys: seq<Const>): (r: seq<(Const, Const)>)
    requires ParallelAll(xs, ys)
    ensures GoodVisits(r)
    decreases xs, 0
  {
    if |xs| == 0 then [] else Diff(xs[0], ys[0]) + DiffAll(xs[1..], ys[1..])
  }

  /** The walk reports nothing exactly when the constants are the same: an
      identical pair makes no call, and any difference is reported. */
  lemma {:induction false} DiffEmptyIff(a: Const, b: Const)
    requires Parallel(a, b)
    ensures Diff(a, b) == [] <==> a == b
    decreases a, 1
  {
    if a != b && Id(a) == Id(b) {
      match a
      case Leaf(_, _, _) =>
      case Unique(_, _) =>
      case Aggregate(_, _, xs) =>
        DiffAllEmptyIff(xs, b.elems);
      case Expr(_, _, _, _, _, _, _, xs) =>
        if !HeaderDiffers(a, b) {
          DiffAllEmptyIff(xs, b.ops);
          assert a.ops != b.ops;
        }
    }
  }

  lemma {:induction false} DiffAllEmptyIff(xs: seq<Const>, ys: seq<Const>)
    requires ParallelAll(xs, ys)
    ensures DiffAll(xs, ys) == [] <==> xs == ys
    decreases xs, 0
  {
    if |xs| > 0 {
      DiffEmptyIff(xs[0], ys[0]);
      DiffAllEmptyIff(xs[1..], ys[1..]);
      assert xs == [xs[0]] + xs[1..] && ys == [ys[0]] + ys[1..];
    }
  }

  /** Operand lists walk piecewise: the visits for two joined runs are the
      visits for the first run followed by those for the second. */
  lemma {:induction false} DiffAllAppend(xs1: seq<Const>, ys1: seq<Const>, xs2: seq<Const>, ys2: seq<Const>)
    requires ParallelAll(xs1, ys1) && ParallelAll(xs2, ys2)
    ensures ParallelAll(xs1 + xs2, ys1 + ys2)
    ensures DiffAll(xs1 + xs2, ys1 + ys2) == DiffAll(xs1, ys1) + DiffAll(xs2, ys2)
    decreases |xs1|
  {
    if |xs1| == 0 {
      assert xs1 + xs2 == xs2 && ys1 + ys2 == ys2;
    } else {
      DiffAllAppend(xs1[1..], ys1[1..], xs2, ys2);
      assert (xs1 + xs2)[1..] == xs1[1..] + xs2 && (ys1 + ys2)[1..] == ys1[1..] + ys2;
      assert (xs1 + xs2)[0] == xs1[0] && (ys1 + ys2)[0] == ys1[0];
    }
  }

  /** Arrays, structs and vectors: the visits are those of the
      corresponding elements, concatenated left to right; one element
      more on each side appends that element's visits. */
  lemma AggregatesConcatenate(k: AggKind, t: nat, xs: seq<Const>, ys: seq<Const>, x: Const, y: Const)
    requires ParallelAll(xs, ys) && Parallel(x, y)
    ensures Parallel(Aggregate(k, t, xs), Aggregate(k, t, ys))
    ensures Diff(Aggregate(k, t, xs), Aggregate(k, t, ys)) == DiffAll(xs, ys)
    ensures ParallelAll(xs + [x], ys + [y])
    ensures DiffAll(xs + [x], ys + [y]) == DiffAll(xs, ys) + Diff(x, y)
  {
    DiffAllEmptyIff(xs, ys);
    assert ParallelAll([x], [y]) by {
      assert [x][1..] == [] && [y][1..] == [];
    }
    DiffAllAppend(xs, ys, [x], [y]);
    assert DiffAll([x], [y]) == Diff(x, y) + DiffAll([], []);
  }

  /** Two different leaves of the same kind and type: exactly one call. */
  lemma LeavesDifferOnce(k: LeafKind, t: nat, v1: nat, v2: nat)
    requires v1 != v2
    ensures Diff(Leaf(k, t, v1), Leaf(k, t, v2)) == [(Leaf(k, t, v1), Leaf(k, t, v2))]
  {
  }

  /** Undef, zero-aggregate and null-pointer constants of one type are one
      instance each, so they never make a call among themselves; two of
      different kinds make one. */
  lemma UniquesNeverDiffer(k1: UniqueKind, k2: UniqueKind, t: nat)
    ensures Diff(Unique(k1, t), Unique(k1, t)) == []
    ensures k1 != k2 ==> Diff(Unique(k1, t), Unique(k2, t)) == [(Unique(k1, t), Unique(k2, t))]
  {
  }

  /** Expressions that differ in their header are reported as a pair,
      without walking their operands; otherwise their operands are walked. */
  lemma ExprHeaderStopsWalk(a: Const, b: Const)
    requires a.Expr? && b.Expr? && Parallel(a, b) && a != b
    ensures HeaderDiffers(a, b) ==> Diff(a, b) == [(a, b)]
    ensures !HeaderDiffers(a, b) ==> Diff(a, b) == DiffAll(a.ops, b.ops) && Diff(a, b) != []
  {
    DiffEmptyIff(a, b);
  }

  /** The example of the interface: {i32 1, inttoptr (i32 12345)} against
      {i32 1, @gv} reports exactly the pointer pair. */
  lemma InterfaceExample()
    ensures var i32 := 1; var ptr := 2; var st := 3;
      var one := Leaf(ConstantInt, i32, 1);
      var cast := Expr(ptr, 0, None, None, None, None, None, [Leaf(ConstantInt, i32, 12345)]);
      var gv := Leaf(GlobalVariable, ptr, 7);
      Parallel(Aggregate(StructKind, st, [one, cast]), Aggregate(StructKind, st, [one, gv]))
      && Diff(Aggregate(StructKind, st, [one, cast]), Aggregate(StructKind, st, [one, gv])) == [(cast, gv)]
  {
    var one := Leaf(ConstantInt, 1, 1);
    var cast := Expr(2, 0, None, None, None, None, None, [Leaf(ConstantInt, 1, 12345)]);
    var gv := Leaf(GlobalVariable, 2, 7);
    assert [one, cast][1..] == [cast] && [one, gv][1..] == [gv];
    assert [cast][1..] == [] && [gv][1..] == [];
    assert ParallelAll([], []);
    assert ParallelAll([cast], [gv]);
    assert DiffAll([cast], [gv]) == Diff(cast, gv) + DiffAll([], []);
    assert DiffAll([one, cast], [one, gv]) == Diff(one, one) + DiffAll([cast], [gv]);
  }
}

=== FILE: feedback.dfy ===
/** Runtime feedback: what the interpreter records about the operands an
    opcode has seen, and the questions code generation asks of it.

    A feedback entry holds either the distinct objects seen (for types and
    called functions) or three saturating counters (for branches), never
    both, since the two share storage.  The memory-efficient store keeps at
    most three objects and an overflow flag; the full store keeps them all. */
module Feedback {
  import opened Wrappers
  import opened Values

  /** The number of object slots in a limited entry (`NUM_POINTERS`). */
  const NumPointers := 3

  /** Counter ids of the conditional-branch feedback. */
  const JumpTrue := 0
  const JumpFalse := 1
  const JumpNonBoolean := 2

  /** PyLimitedFeedback.  `Unused` is the all-NULL entry a map creates, which
      reads as no objects and as three zero counters.  `seen` lists the
      objects in the order of their slots; `overflowed` is the
      more-than-three bit and `sawNull` the saw-a-NULL bit. */
  datatype Limited<T> =
    | Unused
    | Objects(seen: seq<T>, overflowed: bool, sawNull: bool)
    | Counters(counts: seq<nat>)

  predicate Distinct<T(==)>(xs: seq<T>) {
    forall i, j :: 0 <= i < j < |xs| ==> xs[i] != xs[j]
  }

  /** The representation invariant: at most three distinct objects, all slots
      full once overflowed, and exactly three counters. */
  predicate Valid<T(==)>(e: Limited<T>) {
    match e
    case Unused => true
    case Objects(seen, overflowed, _) =>
      |seen| <= NumPointers && Distinct(seen) && (overflowed ==> |seen| == NumPointers)
    case Counters(counts) => |counts| == 3
  }

  /** GetSeenTypesInto: the objects recorded so far, none for an entry used
      for counters. */
  function SeenOf<T>(e: Limited<T>): seq<T> {
    if e.Objects? then e.seen else []
  }

  /** TypesOverflowed. */
  predicate OverflowedOf<T>(e: Limited<T>) {
    e.Objects? && e.overflowed
  }

  predicate SawNullOf<T>(e: Limited<T>) {
    e.Objects? && e.sawNull
  }

  /** AddTypeSeen.  `None` stands for a NULL object, which only sets its flag.
      A new object goes into the lowest free slot; with no slot left the
      overflow flag is set instead. */
  function AddSeen<T(==)>(e: Limited<T>, x: Option<T>): (r: Limited<T>)
    requires Valid(e) && !e.Counters?
    ensures Valid(r) && r.Objects?
    ensures SeenOf(e) <= r.seen
    ensures OverflowedOf(e) ==> r.overflowed
    ensures r.sawNull <==> SawNullOf(e) || x.None?
    ensures x.Some? ==> x.value in r.seen || r.overflowed
    ensures x.Some? && x.value !in SeenOf(e) && |SeenOf(e)| < NumPointers ==> r.seen == SeenOf(e) + [x.value]
  {
    var seen := SeenOf(e);
    var overflowed := OverflowedOf(e);
    var sawNull := SawNullOf(e);
    match x
    case None => Objects(seen, overflowed, true)
    case Some(v) =>
      if v in seen then Objects(seen, overflowed, sawNull)
      else if |seen| < NumPointers then Objects(seen + [v], overflowed, sawNull)
      else Objects(seen, true, sawNull)
  }

  /** The entry after recording a history of observations, oldest first. */
  function Record<T(==)>(xs: seq<Option<T>>): (r: Limited<T>)
    ensures Valid(r) && !r.Counters?
  {
    if |xs| == 0 then Unused else AddSeen(Record(xs[..|xs| - 1]), xs[|xs| - 1])
  }

  /** The reference definition: the distinct non-NULL objects of a history,
      in order of first appearance. */
  function Dedup<T(==)>(xs: seq<Option<T>>): seq<T> {
    if |xs| == 0 then []
    else
      var d := Dedup(xs[..|xs| - 1]);
      var x := xs[|xs| - 1];
      if x.Some? && x.value !in d then d + [x.value] else d
  }

  /** Dedup holds each object of the history exactly once. */
  lemma {:induction false} DedupContents<T>(xs: seq<Option<T>>)
    ensures Distinct(Dedup(xs))
    ensures forall v :: v in Dedup(xs) <==> Some(v) in xs
  {
    if |xs| > 0 {
      var p := xs[..|xs| - 1];
      DedupContents(p);
      assert xs == p + [xs[|xs| - 1]];
      forall v ensures Some(v) in xs <==> Some(v) in p || Some(v) == xs[|xs| - 1] {
      }
    }
  }

  function Min(a: int, b: int): int {
    if a <= b then a else b
  }

  /** The limited store keeps the first three distinct objects of its
      history, in order, and reports overflow exactly when the history held
      more than three; it notes a NULL exactly when one was seen. */
  lemma {:induction false} RecordKeepsFirstThree<T>(xs: seq<Option<T>>)
    ensures var d := Dedup(xs);
      SeenOf(Record(xs)) == d[..Min(NumPointers, |d|)]
      && (OverflowedOf(Record(xs)) <==> |d| > NumPointers)
      && (SawNullOf(Record(xs)) <==> None in xs)
  {
    if |xs| > 0 {
      var p := xs[..|xs| - 1];
      var x := xs[|xs| - 1];
      RecordKeepsFirstThree(p);
      assert xs == p + [x];
      assert None in xs <==> None in p || x.None?;
      RecordStep(Record(p), Dedup(p), x);
    }
  }

  /** One observation keeps the relation between the entry and the history's
      distinct objects. */
  lemma RecordStep<T>(e: Limited<T>, d: seq<T>, x: Option<T>)
    requires Valid(e) && !e.Counters?
    requires SeenOf(e) == d[..Min(NumPointers, |d|)]
    requires OverflowedOf(e) <==> |d| > NumPointers
    ensures var d' := if x.Some? && x.value !in d then d + [x.value] else d;
      var r := AddSeen(e, x);
      SeenOf(r) == d'[..Min(NumPointers, |d'|)]
      && (OverflowedOf(r) <==> |d'| > NumPointers)
  {
    var seen := SeenOf(e);
    if x.Some? {
      var v := x.value;
      if v in seen {
        assert v in d;
      } else if |seen| < NumPointers {
        assert seen == d;
        assert (d + [v])[..|d| + 1] == d + [v];
      } else if v in d {
        var i :| 0 <= i < |d| && d[i] == v;
        assert v !in d[..NumPointers];
        assert i >= NumPointers;
      } else {
        assert (d + [v])[..NumPointers] == d[..NumPointers];
      }
    }
  }

  /** PyFullFeedback: every object seen, and three counters kept apart. */
  datatype Full<T> = Full(seen: set<T>, counts: seq<nat>)

  function FullAddSeen<T>(e: Full<T>, x: Option<T>): (r: Full<T>)
    ensures r.counts == e.counts
    ensures x.Some? ==> r.seen == e.seen + {x.value}
    ensures x.None? ==> r.seen == e.seen
  {
    if x.Some? then e.(seen := e.seen + {x.value}) else e
  }

  function FullRecord<T>(xs: seq<Option<T>>): (r: Full<T>)
    ensures r.counts == [0, 0, 0]
  {
    if |xs| == 0 then Full({}, [0, 0, 0])
    else FullAddSeen(FullRecord(xs[..|xs| - 1]), xs[|xs| - 1])
  }

  /** The full store retains every object of its history. */
  lemma {:induction false} FullRecordKeepsAll<T>(xs: seq<Option<T>>)
    ensures forall v :: v in FullRecord(xs).seen <==> Some(v) in xs
  {
    if |xs| > 0 {
      var p := xs[..|xs| - 1];
      FullRecordKeepsAll(p);
      assert xs == p + [xs[|xs| - 1]];
      forall v ensures Some(v) in xs <==> Some(v) in p || Some(v) == xs[|xs| - 1] {
      }
    }
  }

  /** Until the limited store overflows, it holds exactly the objects the full
      store holds; after that it holds three of them. */
  lemma LimitedAgreesWithFull<T>(xs: seq<Option<T>>)
    ensures forall v :: v in SeenOf(Record(xs)) ==> v in FullRecord(xs).seen
    ensures !OverflowedOf(Record(xs)) ==>
      forall v :: v in FullRecord(xs).seen ==> v in SeenOf(Record(xs))
    ensures OverflowedOf(Record(xs)) ==> |SeenOf(Record(xs))| == NumPointers
  {
    RecordKeepsFirstThree(xs);
    DedupContents(xs);
    FullRecordKeepsAll(xs);
    var d := Dedup(xs);
    forall v | v in SeenOf(Record(xs)) ensures v in d {
    }
  }

  // ---------------------------------------------------------------------
  // Counters

  /** IncCounter: bumps counter `id`, saturating at `cap`, the largest count
      the counter's storage can hold. */
  function IncCounter<T>(e: Limited<T>, id: nat, cap: nat): (r: Limited<T>)
    requires Valid(e) && !e.Objects? && id < 3
    ensures Valid(r) && r.Counters?
    ensures CounterOf(r, id) == Min(cap, CounterOf(e, id) + 1) || CounterOf(r, id) == CounterOf(e, id) > cap
    ensures CounterOf(r, id) >= CounterOf(e, id)
    ensures forall k :: 0 <= k < 3 && k != id ==> CounterOf(r, k) == CounterOf(e, k)
  {
    var counts := if e.Unused? then [0, 0, 0] else e.counts;
    Counters(counts[id := if counts[id] < cap then counts[id] + 1 else counts[id]])
  }

  /** GetCounter: zero for an entry never counted. */
  function CounterOf<T>(e: Limited<T>, id: nat): nat
    requires Valid(e) && id < 3
  {
    if e.Counters? then e.counts[id] else 0
  }

  /** `k` increments of one counter on a fresh entry. */
  function IncTimes<T>(id: nat, cap: nat, k: nat): (r: Limited<T>)
    requires id < 3
    ensures Valid(r) && !r.Objects?
  {
    if k == 0 then Unused else IncCounter(IncTimes(id, cap, k - 1), id, cap)
  }

  /** Counters saturate rather than wrap: after `k` increments a counter reads
      the smaller of `k` and its capacity, and the other counters read 0. */
  lemma {:induction false} CountersSaturate<T>(id: nat, cap: nat, k: nat)
    requires id < 3
    ensures CounterOf(IncTimes<T>(id, cap, k), id) == Min(k, cap)
    ensures forall j :: 0 <= j < 3 && j != id ==> CounterOf(IncTimes<T>(id, cap, k), j) == 0
  {
    if k > 0 {
      CountersSaturate<T>(id, cap, k - 1);
    }
  }

  // ---------------------------------------------------------------------
  // The feedback map

  /** PyFeedbackMap, keyed by (opcode index, argument index). */
  type FeedbackMap<T> = map<(nat, nat), Limited<T>>

  /** GetOrCreateFeedbackEntry: the entry for the key, created empty when
      missing. */
  function GetOrCreate<T>(m: FeedbackMap<T>, opIndex: nat, argIndex: nat): (r: (FeedbackMap<T>, Limited<T>))
    ensures (opIndex, argIndex) in r.0 && r.0[(opIndex, argIndex)] == r.1
    ensures (opIndex, argIndex) in m ==> r.0 == m
    ensures (opIndex, argIndex) !in m ==> r.1 == Unused
    ensures forall k :: k != (opIndex, argIndex) ==> (k in r.0 <==> k in m)
    ensures forall k :: k in m ==> k in r.0 && r.0[k] == m[k]
  {
    var key := (opIndex, argIndex);
    if key in m then (m, m[key]) else (m[key := Unused], Unused)
  }

  /** Asking twice for the same entry changes nothing the second time. */
  lemma GetOrCreateIdempotent<T>(m: FeedbackMap<T>, opIndex: nat, argIndex: nat)
    ensures var (m1, e) := GetOrCreate(m, opIndex, argIndex);
      GetOrCreate(m1, opIndex, argIndex) == (m1, e)
  {
  }

  /** GetFeedbackEntry: the entry for the key, if there is one. */
  function Lookup<T>(m: Option<FeedbackMap<T>>, opIndex: nat, argIndex: nat): (r: Option<Limited<T>>)
    ensures r.Some? <==> m.Some? && (opIndex, argIndex) in m.value
    ensures r.Some? ==> r.value == m.value[(opIndex, argIndex)]
  {
    if m.Some? && (opIndex, argIndex) in m.value then Some(m.value[(opIndex, argIndex)]) else None
  }

  // ---------------------------------------------------------------------
  // Speculation queries

  /** GetTypeFeedback: the one exact type an operand has been seen with, or
      nothing when there is no feedback, it overflowed, it holds other than
      one object, or that object is not exactly a type object. */
  function TypeFeedback(fb: Option<Limited<Value>>): (t: Option<TypeTag>)
    ensures t.Some? <==>
      fb.Some? && !OverflowedOf(fb.value) && |SeenOf(fb.value)| == 1
      && SeenOf(fb.value)[0].TypeObj? && SeenOf(fb.value)[0].exact
    ensures t.Some? ==> SeenOf(fb.value) == [TypeObj(t.value, true)]
  {
    if fb.None? || OverflowedOf(fb.value) then None
    else
      var seen := SeenOf(fb.value);
      if |seen| != 1 then None
      else if seen[0].TypeObj? && seen[0].exact then Some(seen[0].tag)
      else None
  }

  /** Over a recorded history, type feedback names a type exactly when that
      type object is the only non-NULL object ever seen. */
  lemma TypeFeedbackOfHistory(xs: seq<Option<Value>>, t: TypeTag)
    ensures TypeFeedback(Some(Record(xs))) == Some(t) <==> Dedup(xs) == [TypeObj(t, true)]
  {
    RecordKeepsFirstThree(xs);
  }

  /** The branch counters as predict_branch_input reads them: (times true,
      times false), or nothing without feedback. */
  function BranchCounts(fb: Option<Limited<Value>>): (c: Option<(nat, nat)>)
    requires fb.Some? ==> Valid(fb.value)
    ensures c.Some? <==> fb.Some?
    ensures c.Some? ==> c.value == (CounterOf(fb.value, JumpTrue), CounterOf(fb.value, JumpFalse))
  {
    if fb.None? then None else Some((CounterOf(fb.value, JumpTrue), CounterOf(fb.value, JumpFalse)))
  }
}

=== FILE: frame.dfy ===
/** The state that one call of a compiled function works on, and the shared
    blocks every opcode handler branches to: the value and block stacks with
    their push and pop, flushing them to the frame object and reloading them,
    function entry, bail points, the propagate-exception block and the return
    block.

    The generated code keeps the stack pointer, the block stack, the locals, the
    unwind reason, the return value and the unwind target in stack slots of its
    own, and copies them to the `PyFrameObject` only when it must hand the frame
    to someone else (a yield or a bail).  `State` holds both halves. */
module Frame {
  import opened Wrappers
  import opened Values

  const CO_VARARGS: bv32 := 0x4
  const CO_VARKEYWORDS: bv32 := 0x8
  const CO_GENERATOR: bv32 := 0x20

  /** The parts of a code object the generated code reads.  `usesDeleteFast`
      is what the compiler finds by scanning the bytecode for DELETE_FAST, and
      `useJit` is `co_use_jit`, which invalidation can clear at run time. */
  datatype Code = Code(
    argcount: nat,
    flags: bv32,
    nlocals: nat,
    consts: seq<Value>,
    names: seq<Value>,
    usesDeleteFast: bool,
    useJit: bool)

  predicate IsGenerator(code: Code) {
    code.flags & CO_GENERATOR != 0
  }

  /** The interpreter-visible frame object.  `stacktop` is `f_stacktop`: NULL,
      or the values that lie between `f_valuestack` and it; `blockstack` is the
      first `f_iblock` entries of `f_blockstack`; `cells` holds the cell and
      free-variable slots that follow the fast locals (`freevars_`). */
  datatype FrameObject = FrameObject(
    stacktop: Option<seq<Value>>,
    blockstack: seq<Block>,
    fastlocals: seq<Value>,
    cells: seq<Value>,
    lasti: int,
    bailed: BailReason,
    useJit: bool,
    throwflag: bool)

  /** The state of one activation of a compiled function. */
  datatype State = State(
    code: Code,
    stack: seq<Value>,        // stack_bottom .. stack_pointer, bottom first
    blocks: seq<Block>,       // the function's own block stack, innermost last
    locals: seq<Value>,       // the function's copies of the fast locals
    reason: Reason,           // unwind_reason
    retval: Value,            // retval
    target: int,              // unwind_target_index
    err: ExcTriple,           // the thread's pending exception
    frame: FrameObject)

  /** Where control goes after an opcode's code, together with the state it
      leaves behind. */
  datatype Step =
    | Fall(s: State)                      // on to the next opcode
    | Goto(target: int, s: State)         // a branch to the opcode at `target`
    | ToUnwind(s: State)                  // the unwind block
    | ToPropagate(s: State)               // the propagate-exception block
    | ToDoReturn(s: State)                // the shared return block
    | ToBail(s: State)                    // the bail-to-interpreter block
    | ResumeAfterYield(at: int, s: State) // the resume point of the yield at `at`

  /** The dict watches a compiled function can depend on. */
  datatype Watch = WatchGlobals | WatchBuiltins | WatchSysModules

  /** What code generation records besides the code itself: the cases of the
      unwind-target switch, the cases of the generator-resume switch, the types
      whose modification must invalidate the code, and the watched dicts it
      relies on. */
  datatype Emitter = Emitter(
    unwindCases: seq<int>,
    resumeCases: seq<int>,
    typesUsed: set<Value>,
    watchesUsed: set<Watch>)

  predicate NoDuplicates(xs: seq<int>) {
    forall i, j :: 0 <= i < j < |xs| ==> xs[i] != xs[j]
  }

  /** Everything but the value stack is the same. */
  predicate SameButStack(s: State, r: State) {
    r.(stack := s.stack) == s
  }

  // ---------------------------------------------------------------------
  // The value stack

  /** Stores the value at the stack pointer and moves the pointer up one slot. */
  function Push(s: State, v: Value): (r: State)
    ensures |r.stack| == |s.stack| + 1
    ensures r.stack[..|s.stack|] == s.stack && r.stack[|s.stack|] == v
    ensures SameButStack(s, r)
  {
    s.(stack := s.stack + [v])
  }

  /** Moves the stack pointer down one slot and hands back the value that was
      there; the caller owns the reference. */
  function Pop(s: State): (r: (State, Value))
    requires |s.stack| > 0
    ensures r.0.stack + [r.1] == s.stack
    ensures SameButStack(s, r.0)
  {
    (s.(stack := s.stack[..|s.stack| - 1]), s.stack[|s.stack| - 1])
  }

  /** The value `depth` slots below the stack pointer (`stack_pointer[-depth]`). */
  function Peek(s: State, depth: nat): Value
    requires 0 < depth <= |s.stack|
  {
    s.stack[|s.stack| - depth]
  }

  /** The top `n` values, bottom first. */
  function TopN(s: State, n: nat): seq<Value>
    requires n <= |s.stack|
  {
    s.stack[|s.stack| - n..]
  }

  /** Moves the stack pointer down `n` slots at once, as the call opcodes do
      after the callee has consumed its arguments. */
  function Drop(s: State, n: nat): (r: State)
    requires n <= |s.stack|
    ensures r.stack == s.stack[..|s.stack| - n]
    ensures SameButStack(s, r)
  {
    s.(stack := s.stack[..|s.stack| - n])
  }

  /** LookupName: the name `co_names[index]` an opcode operates on. */
  function LookupName(s: State, index: nat): Value
    requires index < |s.code.names|
  {
    s.code.names[index]
  }

  function Min(a: int, b: int): int {
    if a <= b then a else b
  }

  /** PopAndDecrefTo(stack_bottom + level): pops while the stack pointer is
      above the target.  A level above the current depth pops nothing. */
  function PopTo(s: State, level: nat): (r: State)
    ensures r.stack == s.stack[..Min(level, |s.stack|)]
    ensures SameButStack(s, r)
    decreases |s.stack|
  {
    if |s.stack| <= level then s
    else PopTo(Pop(s).0, level)
  }

  /** Push followed by Pop gives back the pushed value and the original state. */
  lemma PushPop(s: State, v: Value)
    ensures Pop(Push(s, v)) == (s, v)
  {
    assert Push(s, v).stack[..|s.stack|] == s.stack;
  }

  /** Pop followed by pushing the popped value restores the state. */
  lemma PopPush(s: State)
    requires |s.stack| > 0
    ensures Push(Pop(s).0, Pop(s).1) == s
  {
    assert Pop(s).0.stack + [Pop(s).1] == s.stack;
  }

  // ---------------------------------------------------------------------
  // Frame object transfers

  /** co_argcount, plus one slot for *args and one for **kwargs when the code
      object declares them. */
  function ParamCount(code: Code): (n: nat)
    ensures code.argcount <= n <= code.argcount + 2
    ensures n == code.argcount <==>
      (code.flags & CO_VARARGS == 0 && code.flags & CO_VARKEYWORDS == 0)
  {
    code.argcount
      + (if code.flags & CO_VARARGS != 0 then 1 else 0)
      + (if code.flags & CO_VARKEYWORDS != 0 then 1 else 0)
  }

  /** The function's copies of the locals on entry: a generator takes every
      slot from the frame; any other function takes only its parameters, which
      are never NULL, and starts every other local at NULL. */
  function CopyLocalsFromFrameObject(code: Code, fastlocals: seq<Value>): (locals: seq<Value>)
    requires |fastlocals| == code.nlocals
    ensures |locals| == code.nlocals
    ensures IsGenerator(code) ==> locals == fastlocals
    ensures !IsGenerator(code) ==>
      forall i :: 0 <= i < |locals| ==>
        locals[i] == (if i < ParamCount(code) then fastlocals[i] else Null)
  {
    seq(code.nlocals, i requires 0 <= i < code.nlocals =>
      if IsGenerator(code) || i < ParamCount(code) then fastlocals[i] else Null)
  }

  /** Saves the stack pointer and the block stack into the frame object.  The
      locals need no copy, since every store writes both. */
  function CopyToFrameObject(s: State): (r: State)
    ensures r.frame.stacktop == Some(s.stack)
    ensures r.frame.blockstack == s.blocks
    ensures r.frame.(stacktop := s.frame.stacktop, blockstack := s.frame.blockstack) == s.frame
    ensures r.(frame := s.frame) == s
  {
    s.(frame := s.frame.(stacktop := Some(s.stack), blockstack := s.blocks))
  }

  /** Reloads the stack pointer, the block stack and the locals from the frame
      object and clears `f_stacktop`. */
  function CopyFromFrameObject(s: State): (r: State)
    requires s.frame.stacktop.Some?
    requires |s.frame.fastlocals| == s.code.nlocals
    ensures r.stack == s.frame.stacktop.value
    ensures r.blocks == s.frame.blockstack
    ensures r.locals == CopyLocalsFromFrameObject(s.code, s.frame.fastlocals)
    ensures r.frame == s.frame.(stacktop := None)
  {
    s.(stack := s.frame.stacktop.value,
       blocks := s.frame.blockstack,
       locals := CopyLocalsFromFrameObject(s.code, s.frame.fastlocals),
       frame := s.frame.(stacktop := None))
  }

  /** Flushing to the frame and reloading from it reproduces the stack and the
      block stack and leaves `f_stacktop` NULL; a generator also gets back every
      local it had mirrored to the frame. */
  lemma CopyRoundTrip(s: State)
    requires |s.frame.fastlocals| == s.code.nlocals
    ensures var r := CopyFromFrameObject(CopyToFrameObject(s));
      r.stack == s.stack && r.blocks == s.blocks && r.frame.stacktop == None
      && (IsGenerator(s.code) && s.locals == s.frame.fastlocals ==> r.locals == s.locals)
  {
  }

  /** The locals mirror the frame's fast locals, as a debug build asserts at
      every load. */
  predicate LocalsMirrored(s: State) {
    s.locals == s.frame.fastlocals
  }

  /** The frame a plain function is called with holds its arguments in the
      parameter slots and NULL in every other local slot. */
  predicate FreshFrameLocals(code: Code, f: FrameObject) {
    |f.fastlocals| == code.nlocals
    && forall i :: ParamCount(code) <= i < |f.fastlocals| ==> f.fastlocals[i] == Null
  }

  /** Entering the compiled function.  A plain function starts with an empty
      value and block stack and NULL `f_stacktop`; a generator reloads them from
      the frame.  Tracing bails to the interpreter without touching `f_lasti`.
      A generator resumed with `f_throwflag` set propagates the exception it was
      sent; otherwise `f_lasti` selects the start (-1) or the yield to resume
      after.  The unwind slots start at NOUNWIND, NULL and 0. */
  function Entry(code: Code, f: FrameObject, err: ExcTriple, tracing: bool, resumeCases: seq<int>): (r: Step)
    requires |f.fastlocals| == code.nlocals
    requires IsGenerator(code) ==> f.stacktop.Some?
    requires IsGenerator(code) && !tracing && !f.throwflag ==>
      f.lasti == -1 || f.lasti in resumeCases
    ensures !IsGenerator(code) ==>
      r.s.stack == [] && r.s.blocks == [] && r.s.frame.stacktop == None
      && r.s.locals == CopyLocalsFromFrameObject(code, f.fastlocals)
    ensures IsGenerator(code) ==>
      r.s.stack == f.stacktop.value && r.s.blocks == f.blockstack
      && r.s.frame.stacktop == None && r.s.locals == f.fastlocals
    ensures tracing <==> r.ToBail?
    ensures r.ToBail? ==> r.s.frame.bailed == TraceOnEntry && r.s.frame.lasti == f.lasti
    ensures r.ToPropagate? <==> IsGenerator(code) && !tracing && f.throwflag
    ensures r.Goto? <==> !tracing && (IsGenerator(code) ==> !f.throwflag && f.lasti == -1)
    ensures r.Goto? ==> r.target == 0
    ensures r.ResumeAfterYield? ==> r.at == f.lasti && r.s.frame.lasti == -2
  {
    var s0 := State(code, [], [], [], NoUnwind, Null, 0, err, f);
    var s :=
      if IsGenerator(code) then CopyFromFrameObject(s0.(frame := f))
      else s0.(locals := CopyLocalsFromFrameObject(code, f.fastlocals),
               frame := f.(stacktop := None));
    if tracing then ToBail(s.(frame := s.frame.(bailed := TraceOnEntry)))
    else if !IsGenerator(code) then Goto(0, s)
    else if f.throwflag then ToPropagate(s)
    else if f.lasti == -1 then Goto(0, s)
    else ResumeAfterYield(f.lasti, s.(frame := s.frame.(lasti := -2)))
  }

  /** A plain function called on a fresh frame starts with its locals equal to
      the frame's. */
  lemma EntryMirrorsFreshLocals(code: Code, f: FrameObject, err: ExcTriple, tracing: bool)
    requires FreshFrameLocals(code, f)
    requires !IsGenerator(code)
    ensures LocalsMirrored(Entry(code, f, err, tracing, []).s)
  {
    var r := Entry(code, f, err, tracing, []).s;
    assert |r.locals| == |f.fastlocals|;
    forall i | 0 <= i < |r.locals|
      ensures r.locals[i] == f.fastlocals[i]
    {
    }
  }

  // ---------------------------------------------------------------------
  // Shared blocks

  /** Registers `target` as a case of the unwind-target switch unless it is one
      already, and returns the index unchanged. */
  function AddUnwindTarget(e: Emitter, target: int): (r: (Emitter, int))
    ensures r.1 == target
    ensures target in r.0.unwindCases
    ensures target in e.unwindCases ==> r.0 == e
    ensures target !in e.unwindCases ==> r.0 == e.(unwindCases := e.unwindCases + [target])
    ensures NoDuplicates(e.unwindCases) ==> NoDuplicates(r.0.unwindCases)
  {
    if target in e.unwindCases then (e, target)
    else (e.(unwindCases := e.unwindCases + [target]), target)
  }

  /** Registering the same target twice is the same as registering it once. */
  lemma AddUnwindTargetIdempotent(e: Emitter, target: int)
    ensures AddUnwindTarget(AddUnwindTarget(e, target).0, target) == AddUnwindTarget(e, target)
  {
  }

  /** Stores the return value and RETURN and enters the unwind block. */
  function Return(s: State, v: Value): (r: Step)
    ensures r.ToUnwind?
    ensures r.s.retval == v && r.s.reason == ReturnReason
    ensures r.s.(retval := s.retval, reason := s.reason) == s
  {
    ToUnwind(s.(retval := v, reason := ReturnReason))
  }

  /** The propagate-exception block: NULL return value, reason EXCEPTION, then
      on into the unwind block.  (Adding the traceback entry and calling the
      exception trace hook do not change this state.) */
  function PropagateException(s: State): (r: State)
    ensures r.retval == Null && r.reason == Exception
    ensures r.(retval := s.retval, reason := s.reason) == s
  {
    s.(retval := Null, reason := Exception)
  }

  /** A failing runtime call: the state it leaves has the call's exception
      pending. */
  function Raised(rt: Runtime, s: State, api: Api, args: seq<Value>): (r: State)
    ensures r.err == rt.raised(api, args)
    ensures r.(err := s.err) == s
  {
    s.(err := rt.raised(api, args))
  }

  /** PropagateExceptionOnNull around a runtime call whose result is pushed:
      a NULL result propagates the call's exception, anything else is pushed. */
  function PushResultOf(rt: Runtime, s: State, api: Api, args: seq<Value>): (r: Step)
    ensures r.Fall? || r.ToPropagate?
    ensures r.ToPropagate? <==> rt.call(api, args) == Null
    ensures r.ToPropagate? ==> r.s == s.(err := rt.raised(api, args))
    ensures r.Fall? ==> r.s == s.(stack := s.stack + [rt.call(api, args)])
  {
    var v := rt.call(api, args);
    if v == Null then ToPropagate(Raised(rt, s, api, args)) else Fall(Push(s, v))
  }

  /** PropagateExceptionOnNonZero around a runtime call returning a status. */
  function CheckNonZero(rt: Runtime, s: State, api: Api, args: seq<Value>): (r: Step)
    ensures r.Fall? || r.ToPropagate?
    ensures r.ToPropagate? <==> rt.status(api, args) != 0
    ensures r.ToPropagate? ==> r.s == s.(err := rt.raised(api, args))
    ensures r.Fall? ==> r.s == s
  {
    if rt.status(api, args) != 0 then ToPropagate(Raised(rt, s, api, args)) else Fall(s)
  }

  /** PropagateExceptionOnNegative around a runtime call returning a status. */
  function CheckNegative(rt: Runtime, s: State, api: Api, args: seq<Value>): (r: Step)
    ensures r.Fall? || r.ToPropagate?
    ensures r.ToPropagate? <==> rt.status(api, args) < 0
    ensures r.ToPropagate? ==> r.s == s.(err := rt.raised(api, args))
    ensures r.Fall? ==> r.s == s
  {
    if rt.status(api, args) < 0 then ToPropagate(Raised(rt, s, api, args)) else Fall(s)
  }

  /** Stores the resume index `bailIdx - 1` (the interpreter steps forward one
      instruction before executing) and the reason, then branches to the bail
      block. */
  function CreateBailPoint(s: State, bailIdx: int, why: BailReason): (r: Step)
    ensures r.ToBail?
    ensures r.s.frame.lasti + 1 == bailIdx && r.s.frame.bailed == why
    ensures r.s.(frame := s.frame) == s
    ensures r.s.frame.(lasti := s.frame.lasti, bailed := s.frame.bailed) == s.frame
  {
    ToBail(s.(frame := s.frame.(lasti := bailIdx - 1, bailed := why)))
  }

  /** A bail taken because a speculative guard failed.  The guard kind is only
      recorded by instrumented builds; the frame always records GUARD_FAIL. */
  function CreateGuardBailPoint(s: State, bailIdx: int, kind: GuardKind): (r: Step)
    ensures r.ToBail? && r.s.frame.lasti + 1 == bailIdx && r.s.frame.bailed == GuardFail
    ensures r.s.(frame := s.frame) == s
    ensures r.s.frame.(lasti := s.frame.lasti, bailed := s.frame.bailed) == s.frame
  {
    CreateBailPoint(s, bailIdx, GuardFail)
  }

  /** The bail block: stop the interpreter from re-entering machine code, flush
      the state to the frame, and hand the frame to the interpreter, whose
      result becomes this call's result. */
  function BailToInterpreter(s: State): (f: FrameObject)
    ensures !f.useJit
    ensures f.stacktop == Some(s.stack) && f.blockstack == s.blocks
    ensures f.(useJit := s.frame.useJit, stacktop := s.frame.stacktop, blockstack := s.frame.blockstack) == s.frame
  {
    CopyToFrameObject(s).frame.(useJit := false)
  }

  /** A guard bail on a stack equal to the one before the opcode lets the
      interpreter re-execute that opcode from exactly where machine code was:
      same stack, same blocks, resume index one before the opcode. */
  lemma GuardBailResumesAtOpcode(s: State, at: int, kind: GuardKind)
    ensures var f := BailToInterpreter(CreateGuardBailPoint(s, at, kind).s);
      f.stacktop == Some(s.stack) && f.blockstack == s.blocks
      && f.lasti == at - 1 && f.bailed == GuardFail && !f.useJit
      && f.fastlocals == s.frame.fastlocals
  {
  }

  /** The shared return block: if tracing is on and the trace function raises,
      the return value is dropped; otherwise `retval` is returned. */
  function DoReturn(s: State, tracing: bool, tracerRaises: bool): (result: Value)
    ensures tracing && tracerRaises ==> result == Null
    ensures !(tracing && tracerRaises) ==> result == s.retval
  {
    if tracing && tracerRaises then Null else s.retval
  }

  /** The outcome of testing an object's truth. */
  datatype Truth = Truth(b: bool) | TruthFailed(err: ExcTriple)

  /** IsPythonTrue: the True and False singletons are decided by identity;
      anything else asks PyObject_IsTrue, where a negative answer is an error
      and a positive one means true. */
  function IsPythonTrue(rt: Runtime, v: Value): (r: Truth)
    ensures v == TrueObj ==> r == Truth(true)
    ensures v == FalseObj ==> r == Truth(false)
    ensures v != TrueObj && v != FalseObj ==>
      (r.TruthFailed? <==> rt.status(IsTrue, [v]) < 0)
      && (r.Truth? ==> (r.b <==> rt.status(IsTrue, [v]) > 0))
  {
    if v == TrueObj then Truth(true)
    else if v == FalseObj then Truth(false)
    else
      var n := rt.status(IsTrue, [v]);
      if n < 0 then TruthFailed(rt.raised(IsTrue, [v])) else Truth(n > 0)
  }
}

=== FILE: globaldata.dfy ===
/** The policies of PyGlobalLlvmData that do not depend on LLVM itself: the
    optimization-level range, the hysteresis deciding when unused globals
    are collected, the cache of string constants, and which functions of
    the initial module get the fast calling convention. */
module GlobalData {
  import opened Wrappers

  // ---------------------------------------------------------------------
  // Optimization levels
  // ---------------------------------------------------------------------

  /** The number of pass managers the constructor allocates (levels 0..2). */
  const NumPassManagers: nat := 3

  /** Outcome of Optimize: the status and the pass manager that ran. */
  datatype OptResult = OptResult(status: int, ran: Option<nat>)

  /** Optimize: -1 and nothing run for a level below 0 or at least the
      number of pass managers; otherwise that level's passes run and 0. */
  function Optimize(level: int): (r: OptResult)
    ensures r.status == 0 || r.status == -1
    ensures r.status == 0 <==> 0 <= level < NumPassManagers
    ensures r.ran.Some? <==> r.status == 0
    ensures r.ran.Some? ==> r.ran.value == level
  {
    if level < 0 || level >= NumPassManagers then OptResult(-1, None)
    else OptResult(0, Some(level))
  }

  /** The largest level the `_llvm.compile` entry point lets through, as
      written (`Py_MAX_LLVM_OPT_LEVEL`). */
  const MaxOptLevelAsWritten: int := 3

  /** The entry point's range check as written: -1 (no optimization) up to
      the maximum. */
  predicate LevelAcceptedAsWritten(level: int) {
    -1 <= level <= MaxOptLevelAsWritten
  }

  /** As written, the entry point accepts a level that Optimize rejects. */
  lemma AcceptedLevelAsWrittenFailsToOptimize()
    ensures LevelAcceptedAsWritten(3) && Optimize(3).status == -1
  {
  }

  /** The largest level there is a pass manager for. */
  const MaxOptLevel: int := NumPassManagers - 1

  /** The corrected range check: -1 up to the last pass manager. */
  predicate LevelAccepted(level: int) {
    -1 <= level <= MaxOptLevel
  }

  /** With the corrected bound, the accepted levels are exactly "no
      optimization" and the levels Optimize carries out. */
  lemma AcceptedLevelsOptimize(level: int)
    ensures LevelAccepted(level) <==> level == -1 || Optimize(level).status == 0
  {
  }

  // ---------------------------------------------------------------------
  // Collecting unused globals
  // ---------------------------------------------------------------------

  /** `unsigned` is 32 bits wide: values are taken modulo 2^32. */
  const U32Modulus: nat := 0x1_0000_0000

  function U32(n: int): (r: nat)
    ensures r < U32Modulus
    ensures 0 <= n < U32Modulus ==> r == n
  {
    n % U32Modulus
  }

  /** The module's global count and the count left by the last collection. */
  datatype GcState = GcState(globals: nat, lastBaseline: nat)

  /** The fewest globals worth collecting at all. */
  const MinGlobalsToCollect: nat := 20

  /** CollectUnusedGlobals: the collector (not modelled) leaves `survivors`
      of the module's globals, and that count becomes the new baseline. */
  function Collect(st: GcState, survivors: nat): (r: GcState)
    requires survivors <= st.globals
    ensures r.globals == survivors && r.lastBaseline == survivors
  {
    GcState(survivors, survivors)
  }

  /** MaybeCollectUnusedGlobals as written: the count is stored in and the
      threshold computed in 32-bit unsigned arithmetic.  The result says
      whether the collector ran. */
  function MaybeCollectAsWritten(st: GcState, survivors: nat): (r: (GcState, bool))
    requires survivors <= st.globals
    ensures var num := U32(st.globals);
      var threshold := U32(st.lastBaseline + st.lastBaseline / 4);
      (!r.1 <==> num < MinGlobalsToCollect || num < threshold)
      && (!r.1 ==> r.0 == st)
      && (r.1 ==> r.0 == GcState(survivors, U32(survivors)))
  {
    var num := U32(st.globals);
    if num < MinGlobalsToCollect || num < U32(st.lastBaseline + st.lastBaseline / 4) then (st, false)
    else (GcState(survivors, U32(survivors)), true)
  }

  /** As written, a second call right after a collection collects again once
      the baseline is large enough for `last + (last >> 2)` to wrap: with
      four billion globals none of which can be collected, both calls run
      the collector. */
  lemma SecondCollectAsWrittenRunsAgain()
    ensures var st := GcState(4000000000, 0);
      var first := MaybeCollectAsWritten(st, 4000000000);
      first.1 && MaybeCollectAsWritten(first.0, 4000000000).1
  {
    var first := MaybeCollectAsWritten(GcState(4000000000, 0), 4000000000);
    assert first.0 == GcState(4000000000, 4000000000);
    assert U32(4000000000 + 1000000000) == 705032704;
  }

  /** MaybeCollectUnusedGlobals with the comparison done without wrapping:
      the collector runs only with at least 20 globals and at least a
      quarter more than the last collection left. */
  function MaybeCollect(st: GcState, survivors: nat): (r: (GcState, bool))
    requires survivors <= st.globals
    ensures !r.1 <==> st.globals < MinGlobalsToCollect || st.globals < st.lastBaseline + st.lastBaseline / 4
    ensures !r.1 ==> r.0 == st
    ensures r.1 ==> r.0 == Collect(st, survivors)
  {
    if st.globals < MinGlobalsToCollect || st.globals < st.lastBaseline + st.lastBaseline / 4 then (st, false)
    else (Collect(st, survivors), true)
  }

  /** Calling MaybeCollectUnusedGlobals twice in a row with no allocation in
      between: the second call never runs the collector and changes
      nothing. */
  lemma SecondCollectIsNoOp(st: GcState, survivors: nat, again: nat)
    requires survivors <= st.globals
    requires again <= MaybeCollect(st, survivors).0.globals
    ensures var first := MaybeCollect(st, survivors).0;
      MaybeCollect(first, again) == (first, false)
  {
  }

  /** Below 20 globals and below the hysteresis threshold the two versions
      agree; they part only where the threshold wraps. */
  lemma AsWrittenAgreesWithoutWrap(st: GcState, survivors: nat)
    requires survivors <= st.globals
    requires st.globals < U32Modulus && st.lastBaseline + st.lastBaseline / 4 < U32Modulus
    requires survivors < U32Modulus
    ensures MaybeCollectAsWritten(st, survivors) == MaybeCollect(st, survivors)
  {
  }

  // ---------------------------------------------------------------------
  // String constants
  // ---------------------------------------------------------------------

  /** The string constants created in the module, in creation order, and the
      cache from a string to the index of its global. */
  datatype Strings = Strings(globals: seq<string>, cache: map<string, nat>)

  /** The cache and the globals describe each other: every cached string
      points at a global holding it, and every global is cached. */
  ghost predicate StringsWf(st: Strings) {
    (forall v :: v in st.cache ==> st.cache[v] < |st.globals| && st.globals[st.cache[v]] == v)
    && (forall i :: 0 <= i < |st.globals| ==> st.globals[i] in st.cache && st.cache[st.globals[i]] == i)
  }

  /** GetGlobalStringPtr: a cached string reuses its global; otherwise a
      new constant global holding the string is created and cached.  The
      result identifies the global the pointer points into. */
  function GetGlobalStringPtr(st: Strings, value: string): (r: (Strings, nat))
    ensures StringsWf(st) ==> StringsWf(r.0) && r.1 < |r.0.globals| && r.0.globals[r.1] == value
    ensures value in st.cache ==> r.0 == st && r.1 == st.cache[value]
    ensures value !in st.cache ==> r.0.globals == st.globals + [value] && r.1 == |st.globals|
  {
    if value in st.cache then (st, st.cache[value])
    else
      var i := |st.globals|;
      var r := Strings(st.globals + [value], st.cache[value := i]);
      assert StringsWf(st) ==> forall j :: 0 <= j < i ==> st.globals[j] != value;
      (r, i)
  }

  /** Asking twice for the same string gives the same global the second time
      and creates nothing more. */
  lemma GetGlobalStringPtrIdempotent(st: Strings, value: string)
    ensures var (st1, p1) := GetGlobalStringPtr(st, value);
      GetGlobalStringPtr(st1, value) == (st1, p1)
  {
  }

  /** At most one global per distinct string. */
  lemma OneGlobalPerString(st: Strings, i: nat, j: nat)
    requires StringsWf(st)
    requires i < j < |st.globals|
    ensures st.globals[i] != st.globals[j]
  {
    assert st.cache[st.globals[i]] == i;
    assert st.cache[st.globals[j]] == j;
  }

  /** Asks for every string of `vs` in turn. */
  function GetAll(st: Strings, vs: seq<string>): (r: Strings)
    decreases |vs|
  {
    if |vs| == 0 then st else GetAll(GetGlobalStringPtr(st, vs[0]).0, vs[1..])
  }

  /** The distinct strings of a run of requests. */
  function Asked(vs: seq<string>): (r: set<string>)
    ensures forall v :: v in r <==> v in vs
  {
    if |vs| == 0 then {} else {vs[0]} + Asked(vs[1..])
  }

  /** One request caches its string and creates a global only if the string
      was new. */
  lemma GetOneAddsItsString(st: Strings, value: string)
    ensures var r := GetGlobalStringPtr(st, value).0;
      r.cache.Keys == st.cache.Keys + {value}
      && |r.globals| - |st.globals| == |r.cache| - |st.cache|
      && st.globals <= r.globals
  {
    if value !in st.cache {
      assert |st.cache[value := |st.globals|]| == |st.cache| + 1;
    }
  }

  /** After any run of requests the cache holds every string asked for
      before or now, and the module gained exactly one global for each
      string that was not cached yet. */
  lemma {:induction false} GetAllCreatesOnePerString(st: Strings, vs: seq<string>)
    ensures var r := GetAll(st, vs);
      r.cache.Keys == st.cache.Keys + Asked(vs)
      && |r.globals| - |st.globals| == |r.cache| - |st.cache|
      && st.globals <= r.globals
    decreases |vs|
  {
    if |vs| == 0 {
      assert GetAll(st, vs) == st;
      assert Asked(vs) == {};
    } else {
      var st1 := GetGlobalStringPtr(st, vs[0]).0;
      GetOneAddsItsString(st, vs[0]);
      GetAllCreatesOnePerString(st1, vs[1..]);
      assert GetAll(st, vs) == GetAll(st1, vs[1..]);
      assert Asked(vs) == {vs[0]} + Asked(vs[1..]);
      var r := GetAll(st1, vs[1..]);
      UnionRegroup(r.cache.Keys, st1.cache.Keys, st.cache.Keys, {vs[0]}, Asked(vs[1..]));
    }
  }

  /** The keys after one request and then the rest, regrouped. */
  lemma UnionRegroup<T>(after: set<T>, middle: set<T>, before: set<T>, first: set<T>, rest: set<T>)
    requires after == middle + rest && middle == before + first
    ensures after == before + (first + rest)
  {
  }

  /** Any run of requests keeps the cache and the globals in step, so the
      globals stay free of duplicates. */
  lemma {:induction false} GetAllKeepsStringsWf(st: Strings, vs: seq<string>)
    requires StringsWf(st)
    ensures StringsWf(GetAll(st, vs))
    decreases |vs|
  {
    if |vs| > 0 {
      GetAllKeepsStringsWf(GetGlobalStringPtr(st, vs[0]).0, vs[1..]);
    }
  }

  // ---------------------------------------------------------------------
  // The fast calling convention
  // ---------------------------------------------------------------------

  const FastPrefix: string := "_PyLlvm_Fast"

  datatype CallingConv = CConv | FastConv

  datatype Function = Function(name: string, conv: CallingConv)

  /** InstallInitialModule: every function of the module whose name starts
      with `_PyLlvm_Fast` is switched to the fast calling convention; the
      others keep theirs. */
  method InstallFastCallingConv(fns: seq<Function>) returns (r: seq<Function>)
    ensures |r| == |fns|
    ensures forall i :: 0 <= i < |fns| ==> r[i].name == fns[i].name
    ensures forall i :: 0 <= i < |fns| ==> (r[i].conv == if FastPrefix <= fns[i].name then FastConv else fns[i].conv)
  {
    r := [];
    var k := 0;
    while k < |fns|
      invariant 0 <= k <= |fns| && |r| == k
      invariant forall i :: 0 <= i < k ==> r[i].name == fns[i].name
      invariant forall i :: 0 <= i < k ==> (r[i].conv == if FastPrefix <= fns[i].name then FastConv else fns[i].conv)
    {
      var f := fns[k];
      if FastPrefix <= f.name {
        f := f.(conv := FastConv);
      }
      r := r + [f];
      k := k + 1;
    }
  }

  /** Starting from C conventions only, the functions on the fast
      convention afterwards are exactly the ones named with the prefix. */
  method FastFunctions(fns: seq<Function>) returns (fast: set<string>)
    requires forall i :: 0 <= i < |fns| ==> fns[i].conv == CConv
    ensures forall i :: 0 <= i < |fns| ==> (fns[i].name in fast <==> FastPrefix <= fns[i].name)
    ensures forall n :: n in fast ==> FastPrefix <= n
  {
    var installed := InstallFastCallingConv(fns);
    fast := set i | 0 <= i < |installed| && installed[i].conv == FastConv :: installed[i].name;
    assert forall i :: 0 <= i < |fns| ==> (installed[i].conv == FastConv <==> FastPrefix <= fns[i].name);
  }
}

=== FILE: globals.dfy ===
/** LOAD_GLOBAL, STORE_GLOBAL and DELETE_GLOBAL.  LOAD_GLOBAL can resolve
    the name while compiling, from the globals and builtins dicts the code
    object watches, and then relies on the watch to invalidate the code when
    either dict changes. */
module Globals {
  import opened Wrappers
  import opened Values
  import opened Frame

  /** A dict from names to objects. */
  type Dict = map<Value, Value>

  /** PyDict_GetItem: NULL for a missing key, and it never raises. */
  function DictGet(d: Dict, key: Value): (v: Value)
    ensures key !in d ==> v == Null
    ensures key in d ==> v == d[key]
  {
    if key in d then d[key] else Null
  }

  /** The dicts the code object watches (`co_watching`), when it watches them. */
  datatype Watched = Watched(globals: Option<Dict>, builtins: Option<Dict>)

  /** The frame's globals and builtins as the opcode finds them at run time. */
  datatype Namespaces = Namespaces(globals: Dict, builtins: Dict)

  /** The exception `_PyEval_RaiseForGlobalNameError` raises; its value stands
      for the message naming the global. */
  function GlobalNameError(name: Value): (e: ExcTriple)
    ensures e.typ == NameError && e != NoError
  {
    ExcTriple(NameError, name, Null)
  }

  /** The global lookup order: the globals dict, then the builtins dict. */
  function Resolve(globals: Dict, builtins: Dict, name: Value): (v: Value)
    ensures DictGet(globals, name) != Null ==> v == globals[name]
    ensures DictGet(globals, name) == Null ==> v == DictGet(builtins, name)
  {
    var g := DictGet(globals, name);
    if g != Null then g else DictGet(builtins, name)
  }

  /** Compiling LOAD_GLOBAL: when both dicts are watched and the name is
      found in one of them, the object is baked into the code and both
      watches are marked used; otherwise the generic lookup is compiled. */
  function PlanLoadGlobal(w: Watched, name: Value, e: Emitter): (r: (Option<Value>, Emitter))
    ensures r.0.Some? <==>
      w.globals.Some? && w.builtins.Some? && Resolve(w.globals.value, w.builtins.value, name) != Null
    ensures r.0.Some? ==> r.0.value == Resolve(w.globals.value, w.builtins.value, name)
    ensures r.0.Some? ==> r.1 == e.(watchesUsed := e.watchesUsed + {WatchGlobals, WatchBuiltins})
    ensures r.0.None? ==> r.1 == e
  {
    if w.globals.None? || w.builtins.None? then (None, e)
    else
      var obj := Resolve(w.globals.value, w.builtins.value, name);
      if obj == Null then (None, e)
      else (Some(obj), e.(watchesUsed := e.watchesUsed + {WatchGlobals, WatchBuiltins}))
  }

  /** LOAD_GLOBAL_safe: looks the name up in the frame's globals, then its
      builtins, pushing what it finds; a name in neither raises NameError. */
  function LoadGlobalSafe(s: State, index: nat, ns: Namespaces): (r: Step)
    requires index < |s.code.names|
    ensures r.Fall? || r.ToPropagate?
    ensures r.ToPropagate? <==> Resolve(ns.globals, ns.builtins, LookupName(s, index)) == Null
    ensures r.ToPropagate? ==> r.s == s.(err := GlobalNameError(LookupName(s, index)))
    ensures r.Fall? ==> r.s == Push(s, Resolve(ns.globals, ns.builtins, LookupName(s, index)))
  {
    var name := LookupName(s, index);
    var g := DictGet(ns.globals, name);
    if g != Null then Fall(Push(s, g))
    else
      var b := DictGet(ns.builtins, name);
      if b != Null then Fall(Push(s, b))
      else ToPropagate(s.(err := GlobalNameError(name)))
  }

  /** LOAD_GLOBAL at run time, given what compilation resolved.  A baked-in
      object is pushed while the code object is valid; once a watched dict
      has changed (`co_use_jit` cleared) the code bails fatally. */
  function LoadGlobalOp(s: State, index: nat, at: int, resolved: Option<Value>, ns: Namespaces): (r: Step)
    requires index < |s.code.names|
    ensures resolved.Some? && !s.code.useJit ==> r == CreateBailPoint(s, at, FatalGuardFail)
    ensures resolved.Some? && s.code.useJit ==> r == Fall(s.(stack := s.stack + [resolved.value]))
    ensures resolved.None? ==> r == LoadGlobalSafe(s, index, ns)
  {
    if resolved.Some? then
      if !s.code.useJit then CreateBailPoint(s, at, FatalGuardFail)
      else Fall(Push(s, resolved.value))
    else LoadGlobalSafe(s, index, ns)
  }

  /** While the watched dicts are the frame's dicts, unchanged since
      compilation, the baked-in object is exactly what the generic lookup
      would push: the fast path is the generic path. */
  lemma LoadGlobalFastAgrees(s: State, index: nat, at: int, w: Watched, ns: Namespaces, e: Emitter)
    requires index < |s.code.names|
    requires w == Watched(Some(ns.globals), Some(ns.builtins))
    requires s.code.useJit
    ensures LoadGlobalOp(s, index, at, PlanLoadGlobal(w, LookupName(s, index), e).0, ns)
      == LoadGlobalSafe(s, index, ns)
  {
  }

  /** A baked-in global always leaves both watches in place after
      FinishFunction, so changing either dict invalidates the code. */
  lemma BakedGlobalIsWatched(w: Watched, name: Value, e: Emitter)
    ensures var (obj, e1) := PlanLoadGlobal(w, name, e);
      obj.Some? ==> WatchGlobals in e1.watchesUsed && WatchBuiltins in e1.watchesUsed
  {
  }

  /** STORE_GLOBAL: pops the value and stores it under the name in the
      globals dict; a nonzero status propagates. */
  function StoreGlobalOp(rt: Runtime, s: State, index: nat): (r: Step)
    requires index < |s.code.names| && |s.stack| >= 1
    ensures r == CheckNonZero(rt, Drop(s, 1), StoreGlobal, [LookupName(s, index), Peek(s, 1)])
    ensures r.s.stack == s.stack[..|s.stack| - 1]
  {
    var (s1, v) := Pop(s);
    CheckNonZero(rt, s1, StoreGlobal, [LookupName(s, index), v])
  }

  /** DELETE_GLOBAL: deletes the name from the globals dict, leaving the
      stack alone; a failure is reported as NameError, whatever the dict
      raised. */
  function DeleteGlobalOp(rt: Runtime, s: State, index: nat): (r: Step)
    requires index < |s.code.names|
    ensures r.Fall? || r.ToPropagate?
    ensures r.ToPropagate? <==> rt.status(DeleteGlobal, [LookupName(s, index)]) != 0
    ensures r.ToPropagate? ==> r.s == s.(err := GlobalNameError(LookupName(s, index)))
    ensures r.Fall? ==> r.s == s
  {
    var name := LookupName(s, index);
    if rt.status(DeleteGlobal, [name]) != 0 then ToPropagate(s.(err := GlobalNameError(name)))
    else Fall(s)
  }
}

=== FILE: llvmerror.dfy ===
/** PyLlvmError: an exception recorded off the interpreter's thread, as a
    type and a message, to be raised later on a thread that may raise. */
module LlvmError {
  import opened Wrappers
  import opened Values

  /** The exception type (Null when nothing is recorded) and the message. */
  datatype LlvmErr = LlvmErr(excType: Value, excValue: Option<string>)

  /** A raised exception as the interpreter sees it: type and message. */
  datatype PendingExc = PendingExc(typ: Value, msg: Option<string>)

  /** The constructor: type and message both NULL. */
  function Fresh(): (e: LlvmErr)
    ensures !ErrorOccurred(e) && e.excValue == None
  {
    LlvmErr(Null, None)
  }

  /** SetError: records a type and a message, replacing what was there. */
  function SetError(e: LlvmErr, typ: Value, msg: string): (r: LlvmErr)
    ensures r.excType == typ && r.excValue == Some(msg)
    ensures ErrorOccurred(r) <==> typ != Null
  {
    LlvmErr(typ, Some(msg))
  }

  /** ErrorOccurred: an error is recorded exactly when the type is set. */
  predicate ErrorOccurred(e: LlvmErr) {
    e.excType != Null
  }

  /** RaiseIfError: with nothing recorded, 0 and the thread's pending
      exception untouched; otherwise -1 with the recorded type and message
      raised in place of whatever was pending. */
  function RaiseIfError(e: LlvmErr, pending: Option<PendingExc>): (r: (int, Option<PendingExc>))
    ensures !ErrorOccurred(e) <==> r.0 == 0
    ensures ErrorOccurred(e) <==> r.0 == -1
    ensures !ErrorOccurred(e) ==> r.1 == pending
    ensures ErrorOccurred(e) ==> r.1 == Some(PendingExc(e.excType, e.excValue))
  {
    if !ErrorOccurred(e) then (0, pending)
    else (-1, Some(PendingExc(e.excType, e.excValue)))
  }

  /** RaiseUnraisableIfError: a recorded error that cannot be raised is
      written to the unraisable log (stderr); nothing is recorded otherwise. */
  function RaiseUnraisableIfError(e: LlvmErr, log: seq<PendingExc>): (r: seq<PendingExc>)
    ensures !ErrorOccurred(e) ==> r == log
    ensures ErrorOccurred(e) ==> r == log + [PendingExc(e.excType, e.excValue)]
  {
    if !ErrorOccurred(e) then log else log + [PendingExc(e.excType, e.excValue)]
  }

  /** Setting an error and raising it hands the caller exactly what was set,
      and a record set with a real type always raises. */
  lemma SetThenRaise(e: LlvmErr, typ: Value, msg: string, pending: Option<PendingExc>)
    requires typ != Null
    ensures RaiseIfError(SetError(e, typ, msg), pending) == (-1, Some(PendingExc(typ, Some(msg))))
    ensures RaiseIfError(Fresh(), pending) == (0, pending)
  {
  }
}

=== FILE: locals.dfy ===
/** The opcodes that read and write constants and fast locals.  Every store
    writes both the function's own copy of a local and the frame's slot, so
    `locals()` and friends see the current values. */
module Locals {
  import opened Values
  import opened Frame

  /** Both copies of the locals have a slot for every local of the code. */
  predicate LocalSlots(s: State) {
    |s.locals| == s.code.nlocals && |s.frame.fastlocals| == s.code.nlocals
  }

  /** The exception `_PyEval_RaiseForUnboundLocal` raises; its value stands
      for the message naming the local. */
  function UnboundLocal(index: nat): (e: ExcTriple)
    ensures e.typ == UnboundLocalError
  {
    ExcTriple(UnboundLocalError, IntObj(index), Null)
  }

  /** LOAD_CONST: pushes the constant at `index`. */
  function LoadConst(s: State, index: nat): (r: State)
    requires index < |s.code.consts|
    ensures r.stack == s.stack + [s.code.consts[index]]
    ensures SameButStack(s, r)
  {
    Push(s, s.code.consts[index])
  }

  /** Whether LOAD_FAST may skip the NULL test: only for a parameter of a
      function that never deletes a local. */
  predicate LoadFastIsFast(code: Code, index: nat) {
    !code.usesDeleteFast && index < ParamCount(code)
  }

  /** The fast LOAD_FAST: pushes the local without testing it. */
  function LoadFastFast(s: State, index: nat): (r: Step)
    requires LocalSlots(s) && index < s.code.nlocals
    ensures r.Fall? && r.s.stack == s.stack + [s.locals[index]]
    ensures SameButStack(s, r.s)
  {
    Fall(Push(s, s.locals[index]))
  }

  /** The checked LOAD_FAST: an unbound (NULL) local raises UnboundLocalError;
      a bound one is pushed. */
  function LoadFastSafe(s: State, index: nat): (r: Step)
    requires LocalSlots(s) && index < s.code.nlocals
    ensures s.locals[index] == Null <==> r.ToPropagate?
    ensures r.ToPropagate? ==> r.s == s.(err := UnboundLocal(index))
    ensures r.Fall? ==> r.s.stack == s.stack + [s.locals[index]] && SameButStack(s, r.s)
    ensures r.Fall? || r.ToPropagate?
  {
    if s.locals[index] == Null then ToPropagate(s.(err := UnboundLocal(index)))
    else Fall(Push(s, s.locals[index]))
  }

  /** LOAD_FAST chooses the variant at compile time. */
  function LoadFast(s: State, index: nat): (r: Step)
    requires LocalSlots(s) && index < s.code.nlocals
    ensures LoadFastIsFast(s.code, index) ==> r == LoadFastFast(s, index)
    ensures !LoadFastIsFast(s.code, index) ==> r == LoadFastSafe(s, index)
  {
    if LoadFastIsFast(s.code, index) then LoadFastFast(s, index) else LoadFastSafe(s, index)
  }

  /** Every parameter slot holds an object. */
  predicate ParamsBound(s: State) {
    forall i :: 0 <= i < ParamCount(s.code) && i < |s.locals| ==> s.locals[i] != Null
  }

  /** Skipping the NULL test is sound: when every parameter is bound, the fast
      variant does exactly what the checked one would. */
  lemma LoadFastFastIsSound(s: State, index: nat)
    requires LocalSlots(s) && index < s.code.nlocals
    requires ParamsBound(s) && LoadFastIsFast(s.code, index)
    ensures LoadFastFast(s, index) == LoadFastSafe(s, index)
  {
  }

  /** A plain function entered with its arguments bound has every parameter
      bound. */
  lemma EntryBindsParams(code: Code, f: FrameObject, err: ExcTriple, tracing: bool)
    requires FreshFrameLocals(code, f) && !IsGenerator(code)
    requires forall i :: 0 <= i < ParamCount(code) && i < |f.fastlocals| ==> f.fastlocals[i] != Null
    ensures ParamsBound(Entry(code, f, err, tracing, []).s)
  {
  }

  /** Stores `v` into local `index`, in the function's copy and in the frame. */
  function SetLocal(s: State, index: nat, v: Value): (r: State)
    requires LocalSlots(s) && index < s.code.nlocals
    ensures LocalSlots(r)
    ensures r.locals == s.locals[index := v]
    ensures r.frame.fastlocals == s.frame.fastlocals[index := v]
    ensures r.(locals := s.locals, frame := s.frame) == s
    ensures r.frame.(fastlocals := s.frame.fastlocals) == s.frame
  {
    s.(locals := s.locals[index := v], frame := s.frame.(fastlocals := s.frame.fastlocals[index := v]))
  }

  /** STORE_FAST: pops the top value into local `index`. */
  function StoreFast(s: State, index: nat): (r: State)
    requires LocalSlots(s) && index < s.code.nlocals && |s.stack| >= 1
    ensures LocalSlots(r) && r.code == s.code
    ensures r.stack == s.stack[..|s.stack| - 1]
    ensures r.locals[index] == Peek(s, 1) && r.frame.fastlocals[index] == Peek(s, 1)
    ensures forall i :: 0 <= i < |s.locals| && i != index ==> r.locals[i] == s.locals[i]
    ensures LocalsMirrored(s) ==> LocalsMirrored(r)
  {
    var (s1, v) := Pop(s);
    SetLocal(s1, index, v)
  }

  /** DELETE_FAST: an unbound local raises UnboundLocalError; a bound one is
      set to NULL in both copies. */
  function DeleteFast(s: State, index: nat): (r: Step)
    requires LocalSlots(s) && index < s.code.nlocals
    ensures s.locals[index] == Null <==> r.ToPropagate?
    ensures r.ToPropagate? ==> r.s == s.(err := UnboundLocal(index))
    ensures r.Fall? ==> r.s == SetLocal(s, index, Null)
    ensures r.Fall? || r.ToPropagate?
    ensures LocalsMirrored(s) ==> LocalsMirrored(r.s)
  {
    if s.locals[index] == Null then ToPropagate(s.(err := UnboundLocal(index)))
    else Fall(SetLocal(s, index, Null))
  }

  /** STORE_FAST followed by LOAD_FAST of the same local puts the stored value
      back on the stack, whichever variant the load uses. */
  lemma StoreThenLoad(s: State, index: nat)
    requires LocalSlots(s) && index < s.code.nlocals && |s.stack| >= 1
    requires Peek(s, 1) != Null
    ensures var r := LoadFast(StoreFast(s, index), index);
      r.Fall? && r.s.stack == s.stack && r.s.locals[index] == Peek(s, 1)
  {
    var s1 := StoreFast(s, index);
    assert s1.stack + [Peek(s, 1)] == s.stack;
  }

  /** DELETE_FAST followed by LOAD_FAST of the same local raises
      UnboundLocalError, provided the load is the checked variant, which it is
      whenever the code deletes locals. */
  lemma DeleteThenLoadRaises(s: State, index: nat)
    requires LocalSlots(s) && index < s.code.nlocals
    requires s.code.usesDeleteFast
    requires s.locals[index] != Null
    ensures var d := DeleteFast(s, index);
      d.Fall? && LoadFast(d.s, index) == ToPropagate(d.s.(err := UnboundLocal(index)))
  {
  }
}

=== FILE: loop.dfy ===
/** The loop opcodes: GET_ITER, FOR_ITER, CONTINUE_LOOP and BREAK_LOOP. */
module Loop {
  import opened Values
  import opened Frame
  import opened Unwinding
  import opened Blocks

  /** GET_ITER: replaces the top value with its iterator. */
  function GetIterOp(rt: Runtime, s: State): (r: Step)
    requires |s.stack| >= 1
    ensures r == PushResultOf(rt, Drop(s, 1), GetIter, [Peek(s, 1)])
  {
    var (s1, obj) := Pop(s);
    PushResultOf(rt, s1, GetIter, [obj])
  }

  /** FOR_ITER: asks the iterator on top for its next item.  An item is pushed
      above the iterator.  A NULL answer with no exception pending, or with
      StopIteration pending (which is cleared), ends the loop: the iterator is
      popped and control jumps to `target`.  Any other exception propagates,
      with the iterator popped. */
  function ForIter(rt: Runtime, s: State, target: int): (r: Step)
    requires |s.stack| >= 1
    ensures var iter := Peek(s, 1); var next := rt.call(IterNext, [iter]);
      var e := rt.raised(IterNext, [iter]);
      (next != Null ==> r == Fall(Push(s, next)))
      && (next == Null && (e.typ == Null || rt.status(ErrMatches, [e.typ, StopIteration]) != 0) ==>
            r == Goto(target, Drop(s, 1).(err := NoError)))
      && (next == Null && e.typ != Null && rt.status(ErrMatches, [e.typ, StopIteration]) == 0 ==>
            r == ToPropagate(Drop(s, 1).(err := e)))
  {
    var (s1, iter) := Pop(s);
    var next := rt.call(IterNext, [iter]);
    if next != Null then Fall(Push(Push(s1, iter), next))
    else
      var e := rt.raised(IterNext, [iter]);
      if e.typ == Null then Goto(target, s1.(err := NoError))
      else if rt.status(ErrMatches, [e.typ, StopIteration]) != 0 then Goto(target, s1.(err := NoError))
      else ToPropagate(s1.(err := e))
  }

  /** The compile-time half of CONTINUE_LOOP: the loop start becomes an unwind
      target. */
  function ContinueLoopCode(e: Emitter, target: int): (r: Emitter)
    ensures target in r.unwindCases
    ensures r.(unwindCases := e.unwindCases) == e
    ensures forall t :: t in e.unwindCases ==> t in r.unwindCases
  {
    AddUnwindTarget(e, target).0
  }

  /** CONTINUE_LOOP: unwinds for CONTINUE with the target opcode index boxed
      in the return value slot. */
  function ContinueLoop(s: State, target: nat): (r: Step)
    ensures r.ToUnwind?
    ensures r.s == s.(reason := Continue, retval := IntObj(target))
  {
    ToUnwind(s.(reason := Continue, retval := IntObj(target)))
  }

  /** BREAK_LOOP: unwinds for BREAK. */
  function BreakLoop(s: State): (r: Step)
    ensures r.ToUnwind? && r.s == s.(reason := Break)
  {
    ToUnwind(s.(reason := Break))
  }

  /** A `continue` whose nearest intercepting block is its loop arrives at the
      loop's start, a registered unwind target, with the loop block still in
      place. */
  lemma ContinueReachesLoopStart(e: Emitter, s: State, target: nat)
    requires target < 0x8000_0000
    requires HandlersRegistered(s.blocks, e)
    requires var j := Innermost(s.blocks, Continue); j >= 0 && s.blocks[j].kind == LoopBlock
    ensures var u := Unwind(ContinueLoop(s, target).s); var j := Innermost(s.blocks, Continue);
      u.Handled? && u.target == target && u.s.blocks == s.blocks[..j + 1]
      && target in ContinueLoopCode(e, target).unwindCases
      && HandlersRegistered(s.blocks, ContinueLoopCode(e, target))
  {
    var e1 := ContinueLoopCode(e, target);
    assert forall t :: t in e.unwindCases ==> t in e1.unwindCases;
  }

  /** A `break` inside a loop with no finally block between leaves through
      the loop's handler with the loop block gone and the stack back at the
      loop's level. */
  lemma BreakLeavesLoop(s: State)
    requires WellNested(s)
    requires var j := Innermost(s.blocks, Break); j >= 0 && s.blocks[j].kind == LoopBlock
    ensures var u := Unwind(BreakLoop(s).s); var j := Innermost(s.blocks, Break);
      u.Handled? && u.target == s.blocks[j].handler
      && u.s.blocks == s.blocks[..j] && u.s.stack == s.stack[..s.blocks[j].level]
  {
    var j := Innermost(s.blocks, Break);
    UnwindStackShape(BreakLoop(s).s, Break);
    assert s.stack[..s.blocks[j].level] + [] == s.stack[..s.blocks[j].level];
  }
}

=== FILE: name.dfy ===
/** LOAD_NAME, STORE_NAME and DELETE_NAME, which hand the frame and the
    name's index to the interpreter's name helpers. */
module Name {
  import opened Wrappers
  import opened Values
  import opened Frame

  /** LOAD_NAME: pushes what `_PyEval_LoadName` returns; NULL propagates
      and pushes nothing. */
  function LoadNameOp(rt: Runtime, s: State, index: nat): (r: Step)
    ensures r.Fall? || r.ToPropagate?
    ensures r.ToPropagate? <==> rt.call(LoadName, [IntObj(index)]) == Null
    ensures r.ToPropagate? ==> r.s.stack == s.stack
    ensures r.Fall? ==> |r.s.stack| == |s.stack| + 1 && Drop(r.s, 1) == s && Peek(r.s, 1) == rt.call(LoadName, [IntObj(index)])
  {
    PushResultOf(rt, s, LoadName, [IntObj(index)])
  }

  /** STORE_NAME: pops the value and passes it to `_PyEval_StoreName`; a
      nonzero status propagates. */
  function StoreNameOp(rt: Runtime, s: State, index: nat): (r: Step)
    requires |s.stack| >= 1
    ensures r.Fall? || r.ToPropagate?
    ensures r.ToPropagate? <==> rt.status(StoreName, [IntObj(index), Peek(s, 1)]) != 0
    ensures r.s.(err := s.err) == Drop(s, 1)
  {
    var (s1, v) := Pop(s);
    CheckNonZero(rt, s1, StoreName, [IntObj(index), v])
  }

  /** DELETE_NAME: calls `_PyEval_DeleteName`, leaving the stack alone; a
      nonzero status propagates. */
  function DeleteNameOp(rt: Runtime, s: State, index: nat): (r: Step)
    ensures r.Fall? || r.ToPropagate?
    ensures r.ToPropagate? <==> rt.status(DeleteName, [IntObj(index)]) != 0
    ensures r.s.(err := s.err) == s
  {
    CheckNonZero(rt, s, DeleteName, [IntObj(index)])
  }

  /** STORE_NAME undoes LOAD_NAME: storing what was just loaded passes the
      object the load helper returned to the store helper, and leaves the
      state as it was before the load, apart from the error a failing store
      records. */
  lemma StoreUndoesLoad(rt: Runtime, s: State, index: nat, other: nat)
    requires LoadNameOp(rt, s, index).Fall?
    ensures var l := LoadNameOp(rt, s, index);
      var st := StoreNameOp(rt, l.s, other);
      st.s.(err := s.err) == s && (st.Fall? ==> st.s == s)
      && (st.ToPropagate? <==> rt.status(StoreName, [IntObj(other), rt.call(LoadName, [IntObj(index)])]) != 0)
  {
  }
}

=== FILE: scheduler.dfy ===
/** The background compilation thread (PyLlvmCompileThread) as a sequential
    state machine.  Foreground calls and worker iterations are atomic steps
    over one `Thread` record; a call that blocks until the worker has done
    something is modelled as the call's own steps with the worker's steps
    run in between. */
module Scheduler {
  import opened Wrappers
  import opened Values
  import opened LlvmError
  import SQ = SyncQueue
  import GlobalData

  /** The fields of a code object the scheduler reads and writes: whether a
      compile is pending, whether to run the native code, the optimization
      level, the IR function and the native code. */
  datatype CodeObj = CodeObj(beingCompiled: bool, useLlvm: bool, optimization: int,
                             llvmFn: Option<nat>, native: Option<nat>)

  /** The five kinds of job.  A compile job carries what the code object had
      when the job was made, and after running, what it produced. */
  datatype JobKind =
    | Compile(code: nat, llvmFn: Option<nat>, native: Option<nat>, oldLevel: int, newLevel: int)
    | Free(fn: nat)
    | Wait
    | Exit
    | Pause

  /** A job with an identity and whether someone waits on it (a waiter
      lock).  Whether its error record belongs to a caller is kept by the
      thread, under the job's identity. */
  datatype Job = Job(id: nat, kind: JobKind, waiter: bool)

  datatype JobResult = JobOk | JobError | JobExit

  datatype CompileResult = CompileOk | CompileError | CompileShutdown

  /** LLVM itself, as oracles: building IR for a code object (None on
      failure, with what the builder then records in the error record), and
      generating native code for an IR function. */
  datatype Env = Env(toIr: nat -> Option<nat>, irError: (nat, LlvmErr) -> LlvmErr, jit: nat -> nat)

  /** The worker thread: not running, taking jobs, or inside a pause job. */
  datatype Worker = Stopped | Active | Paused(job: Job)

  /** Everything the scheduler touches.  `errs` are the error records owned
      by blocked callers, by job; `released` the jobs whose waiters were
      woken; `freed` the IR functions deleted; `unraisable` what was printed
      to stderr; `pending` the foreground thread's exception. */
  datatype Thread = Thread(
    input: SQ.Queue<Job>,
    output: SQ.Queue<Job>,
    running: bool,
    worker: Worker,
    unpauseHeld: bool,
    codes: map<nat, CodeObj>,
    errs: map<nat, LlvmErr>,
    released: set<nat>,
    freed: set<nat>,
    unraisable: seq<PendingExc>,
    pending: Option<PendingExc>,
    nextId: nat)

  /** Between steps only a paused worker holds the queue locks; the output
      queue is never closed, and the input queue is open while a worker
      runs. */
  predicate Inv(t: Thread) {
    (t.input.locked <==> t.worker.Paused?)
    && (t.output.locked <==> t.worker.Paused?)
    && !t.output.closed
    && (!t.worker.Stopped? ==> !t.input.closed)
    && (t.worker.Paused? ==> !t.worker.job.waiter)
  }

  /** A thread object as constructed: queues open and empty, not running. */
  function NewThread(codes: map<nat, CodeObj>): (t: Thread)
    ensures Inv(t) && !t.running && t.worker == Stopped
    ensures t.input.items == [] && t.output.items == [] && !t.input.closed
  {
    Thread(SQ.NewQueue(), SQ.NewQueue(), false, Stopped, false, codes, map[], {}, {}, [], None, 0)
  }

  // ---------------------------------------------------------------------
  // Jobs
  // ---------------------------------------------------------------------

  /** Exit and pause jobs overtake the queue; all others join at the back. */
  predicate ShouldPushFront(k: JobKind) {
    k.Exit? || k.Pause?
  }

  /** The SystemError message of a failed optimization. */
  const OptimizationFailed := "Optimization failed"

  /** CompileJob.Run: builds IR if the code had none (a failure is an
      error); optimizes only when raising the level (a failure records a
      SystemError "Optimization failed"); then generates native code. */
  function CompileRun(env: Env, k: JobKind, err: LlvmErr): (r: (JobResult, JobKind, LlvmErr))
    requires k.Compile?
    ensures r.1.Compile? && r.1.code == k.code && r.1.oldLevel == k.oldLevel && r.1.newLevel == k.newLevel
    ensures r.0 != JobExit
    ensures k.llvmFn.None? && env.toIr(k.code).None? ==> r == (JobError, k, env.irError(k.code, err))
    ensures var fn := if k.llvmFn.Some? then k.llvmFn else env.toIr(k.code);
      fn.Some? && k.oldLevel < k.newLevel && GlobalData.Optimize(k.newLevel).status < 0
      ==> r == (JobError, k.(llvmFn := fn), SetError(err, SystemError, OptimizationFailed))
    ensures r.0 == JobOk <==> ((k.llvmFn.Some? || env.toIr(k.code).Some?)
                               && (k.oldLevel >= k.newLevel || GlobalData.Optimize(k.newLevel).status == 0))
    ensures r.0 == JobOk ==> r.2 == err && r.1.llvmFn.Some? && r.1.native == Some(env.jit(r.1.llvmFn.value))
    ensures r.0 == JobOk && k.llvmFn.Some? ==> r.1.llvmFn == k.llvmFn
  {
    var fn := if k.llvmFn.Some? then k.llvmFn else env.toIr(k.code);
    if fn.None? then (JobError, k, env.irError(k.code, err))
    else if k.oldLevel < k.newLevel && GlobalData.Optimize(k.newLevel).status < 0 then
      (JobError, k.(llvmFn := fn), SetError(err, SystemError, OptimizationFailed))
    else (JobOk, k.(llvmFn := fn, native := Some(env.jit(fn.value))), err)
  }

  /** What Run hands back: the result, the job as updated, the error record
      and the set of freed functions. */
  datatype RunOut = RunOut(result: JobResult, job: Job, err: LlvmErr, freed: set<nat>)

  /** Run for every job but the pause job: a wait job does nothing, an exit
      job asks the worker to exit, a free job deletes its function. */
  function RunJobBody(env: Env, job: Job, err: LlvmErr, freed: set<nat>): (r: RunOut)
    requires !job.kind.Pause?
    ensures r.job.id == job.id && r.job.waiter == job.waiter
    ensures r.result == JobExit <==> job.kind.Exit?
    ensures r.job.kind.Compile? <==> job.kind.Compile?
    ensures !job.kind.Compile? ==> r.job == job && r.err == err
    ensures job.kind.Free? ==> r.result == JobOk && r.freed == freed + {job.kind.fn}
    ensures !job.kind.Free? ==> r.freed == freed
  {
    match job.kind
    case Compile(_, _, _, _, _) =>
      var (res, k, e) := CompileRun(env, job.kind, err);
      RunOut(res, job.(kind := k), e, freed)
    case Free(fn) => RunOut(JobOk, job, err, freed + {fn})
    case Wait => RunOut(JobOk, job, err, freed)
    case Exit => RunOut(JobExit, job, err, freed)
  }

  /** RunAfterShutdown: compile jobs are skipped; free, wait and exit jobs
      run as usual; a pause job takes the unpause lock once, so that the
      matching Unpause has something to release. */
  function RunAfterShutdown(t: Thread, job: Job): (r: Thread)
    ensures job.kind.Free? ==> r == t.(freed := t.freed + {job.kind.fn})
    ensures job.kind.Pause? ==> r == t.(unpauseHeld := true)
    ensures job.kind.Compile? || job.kind.Wait? || job.kind.Exit? ==> r == t
    ensures r == t.(freed := r.freed, unpauseHeld := r.unpauseHeld)
  {
    match job.kind
    case Free(fn) => t.(freed := t.freed + {fn})
    case Pause => t.(unpauseHeld := true)
    case _ => t
  }

  /** Apply, in the foreground: a compile job installs its results on the
      code object, clears the pending-compile flag and records the new
      level; native code is used exactly when there is some. */
  function Apply(codes: map<nat, CodeObj>, job: Job): (r: map<nat, CodeObj>)
    ensures job.kind.Compile? ==> r == codes[job.kind.code :=
      CodeObj(false, job.kind.native.Some?, job.kind.newLevel, job.kind.llvmFn, job.kind.native)]
    ensures !job.kind.Compile? ==> r == codes
  {
    match job.kind
    case Compile(c, fn, native, _, level) => codes[c := CodeObj(false, native.Some?, level, fn, native)]
    case _ => codes
  }

  /** Applies finished jobs in order. */
  function ApplyAll(codes: map<nat, CodeObj>, jobs: seq<Job>): (r: map<nat, CodeObj>)
    ensures codes.Keys <= r.Keys
    decreases |jobs|
  {
    if |jobs| == 0 then codes else ApplyAll(Apply(codes, jobs[0]), jobs[1..])
  }

  /** Applying a run of jobs and then one more is applying the longer run:
      the last job to touch a code object decides its state. */
  lemma {:induction false} ApplyAllAppend(codes: map<nat, CodeObj>, jobs: seq<Job>, last: Job)
    ensures ApplyAll(codes, jobs + [last]) == Apply(ApplyAll(codes, jobs), last)
    decreases |jobs|
  {
    if |jobs| == 0 {
      assert ApplyAll(Apply(codes, last), []) == Apply(codes, last);
    } else {
      assert (jobs + [last])[1..] == jobs[1..] + [last];
      ApplyAllAppend(Apply(codes, jobs[0]), jobs[1..], last);
    }
  }

  // ---------------------------------------------------------------------
  // The worker
  // ---------------------------------------------------------------------

  /** The identities of a run of jobs. */
  function Ids(jobs: seq<Job>): (r: multiset<nat>)
    ensures |r| == |jobs|
    decreases |jobs|
  {
    if |jobs| == 0 then multiset{} else multiset{jobs[0].id} + Ids(jobs[1..])
  }

  lemma {:induction false} IdsAppend(a: seq<Job>, b: seq<Job>)
    ensures Ids(a + b) == Ids(a) + Ids(b)
    decreases |a|
  {
    if |a| > 0 {
      assert (a + b)[0] == a[0];
      assert (a + b)[1..] == a[1..] + b;
      IdsAppend(a[1..], b);
    } else {
      assert a + b == b;
    }
  }

  /** The jobs of a run that have a waiter. */
  function Waiters(jobs: seq<Job>): set<nat>
    decreases |jobs|
  {
    if |jobs| == 0 then {} else (if jobs[0].waiter then {jobs[0].id} else {}) + Waiters(jobs[1..])
  }

  /** Waiters holds exactly the identities of the jobs with a waiter. */
  lemma {:induction false} WaitersAreTheWaitingJobs(jobs: seq<Job>, i: nat)
    ensures i in Waiters(jobs) <==> exists k :: 0 <= k < |jobs| && jobs[k].waiter && jobs[k].id == i
    decreases |jobs|
  {
    if |jobs| > 0 {
      WaitersAreTheWaitingJobs(jobs[1..], i);
      if i in Waiters(jobs[1..]) {
        var k :| 0 <= k < |jobs[1..]| && jobs[1..][k].waiter && jobs[1..][k].id == i;
        assert jobs[k + 1] == jobs[1..][k];
      }
      if exists k :: 0 <= k < |jobs| && jobs[k].waiter && jobs[k].id == i {
        var k :| 0 <= k < |jobs| && jobs[k].waiter && jobs[k].id == i;
        if k > 0 {
          assert jobs[1..][k - 1] == jobs[k];
        }
      }
    }
  }

  /** OutputFinishedJob: the job joins the back of the output queue, and
      only then is its waiter, if any, woken. */
  function OutputFinishedJob(t: Thread, job: Job): (r: Thread)
    requires !t.output.locked && !t.output.closed
    ensures r == t.(output := t.output.(items := t.output.items + [job]),
                    released := if job.waiter then t.released + {job.id} else t.released)
  {
    t.(output := SQ.PushBack(t.output, job).0,
       released := if job.waiter then t.released + {job.id} else t.released)
  }

  /** The drain of DoCleanups: every job left runs its shutdown variant and
      is output, front first. */
  function Drain(t: Thread, jobs: seq<Job>): (r: Thread)
    requires !t.output.locked && !t.output.closed
    ensures r.output == t.output.(items := t.output.items + jobs)
    ensures r.released == t.released + Waiters(jobs)
    ensures r == t.(output := r.output, released := r.released, freed := r.freed, unpauseHeld := r.unpauseHeld)
    decreases |jobs|
  {
    if |jobs| == 0 then t
    else
      var t1 := OutputFinishedJob(RunAfterShutdown(t, jobs[0]), jobs[0]);
      var r := Drain(t1, jobs[1..]);
      assert t1.output.items + jobs[1..] == t.output.items + jobs by {
        assert jobs == [jobs[0]] + jobs[1..];
      }
      assert t1.released + Waiters(jobs[1..]) == t.released + Waiters(jobs);
      r
  }

  /** DoCleanups: with the input queue held, runs and outputs everything left
      on it, then closes it. */
  function DoCleanups(t: Thread): (r: Thread)
    requires !t.input.locked && !t.output.locked && !t.output.closed
    ensures r.input == SQ.Queue([], true, false)
    ensures r.output.items == t.output.items + t.input.items && !r.output.locked && !r.output.closed
    ensures r.worker == t.worker && r.codes == t.codes && r.errs == t.errs
    ensures r.nextId == t.nextId && r.pending == t.pending
    ensures r.released == t.released + Waiters(t.input.items)
    ensures r.unraisable == t.unraisable
  {
    var (held, _) := SQ.AcquireQueue(t.input, true);
    var t1 := Drain(t.(input := held.(items := [])), t.input.items);
    t1.(input := SQ.ReleaseQueue(SQ.Close(t1.input)))
  }

  /** The pause job as written.  Its first step takes the unpause lock with
      a non-blocking acquire written inside `assert`, so the acquire is only
      compiled in when assertions are on.  It then takes both queue locks
      and wakes its waiter.  Then it waits on the unpause lock: if the lock
      is held, the worker stays paused until Unpause releases it; if not,
      the wait succeeds at once, the locks are given back and the job is
      output. */
  function PauseRunAsWritten(t: Thread, job: Job, assertionsOn: bool): (r: Thread)
    requires t.worker.Active? && !t.input.locked && !t.output.locked && !t.output.closed
    ensures var held := t.unpauseHeld || assertionsOn;
      (held ==> r == PauseStart(t, job))
      && (!held ==> r == OutputFinishedJob(t.(released := t.released + {job.id}), job.(waiter := false)))
  {
    var held := t.unpauseHeld || assertionsOn;
    if held then PauseStart(t, job)
    else OutputFinishedJob(t.(released := t.released + {job.id}), job.(waiter := false))
  }

  /** The pause job as evidently intended (and as compiled with assertions
      on): the unpause lock is taken, both queues are held, the waiter is
      woken and the worker waits for Unpause. */
  function PauseStart(t: Thread, job: Job): (r: Thread)
    ensures r.worker == Paused(job.(waiter := false)) && r.unpauseHeld
    ensures r.input == t.input.(locked := true) && r.output == t.output.(locked := true)
    ensures job.id in r.released
  {
    t.(unpauseHeld := true,
       input := t.input.(locked := true),
       output := t.output.(locked := true),
       released := t.released + {job.id},
       worker := Paused(job.(waiter := false)))
  }

  /** With assertions on, the pause job as written is the intended one. */
  lemma PauseAsWrittenWithAssertions(t: Thread, job: Job)
    requires t.worker.Active? && !t.input.locked && !t.output.locked && !t.output.closed
    ensures PauseRunAsWritten(t, job, true) == PauseStart(t, job)
  {
  }

  /** A release build does not pause: with the unpause lock free, the pause
      job as written wakes its waiter and finishes in the same step, leaving
      the worker running and the queues unlocked. */
  lemma PauseAsWrittenDoesNotPause(t: Thread, job: Job)
    requires t.worker.Active? && !t.input.locked && !t.output.locked && !t.output.closed
    requires !t.unpauseHeld
    ensures var r := PauseRunAsWritten(t, job, false);
      r.worker.Active? && !r.input.locked && !r.output.locked && job.id in r.released
      && r.output.items == t.output.items + [job.(waiter := false)]
  {
  }

  /** One iteration of the worker's loop: pops the front job and runs it
      with the caller's error record or a fresh one of its own.  An error in
      its own record is printed as unraisable.  An exit job drains the queue
      and stops the worker; a pause job pauses it; every other job is
      output. */
  function WorkerStep(env: Env, t: Thread): (r: Thread)
    requires Inv(t) && t.worker.Active? && |t.input.items| > 0
    ensures Inv(r)
    ensures |r.input.items| < |t.input.items|
    ensures r.codes == t.codes && r.nextId == t.nextId && r.pending == t.pending
    ensures t.input.items[0].kind.Pause? ==> r.errs == t.errs && r.unraisable == t.unraisable
    ensures var job := t.input.items[0];
      !job.kind.Pause? && job.id !in t.errs ==>
        var out := RunJobBody(env, job, Fresh(), t.freed);
        r.errs == t.errs
        && r.unraisable == (if out.result == JobError then RaiseUnraisableIfError(out.err, t.unraisable)
                            else t.unraisable)
    ensures var job := t.input.items[0];
      !job.kind.Pause? && job.id in t.errs ==>
        r.unraisable == t.unraisable
        && r.errs == t.errs[job.id := RunJobBody(env, job, t.errs[job.id], t.freed).err]
  {
    var (q1, job) := SQ.PopFront(t.input);
    var t1 := t.(input := q1);
    if job.kind.Pause? then PauseStart(t1, job)
    else
      var own := job.id !in t.errs;
      var err := if own then Fresh() else t.errs[job.id];
      var out := RunJobBody(env, job, err, t.freed);
      var t2 := t1.(freed := out.freed,
                    errs := if own then t.errs else t.errs[job.id := out.err],
                    unraisable := if out.result == JobError && own
                                  then RaiseUnraisableIfError(out.err, t.unraisable)
                                  else t.unraisable);
      assert !t2.input.locked && !t2.output.locked && !t2.output.closed && t2.worker.Active?;
      if out.result == JobExit then OutputFinishedJob(DoCleanups(t2), out.job).(worker := Stopped)
      else OutputFinishedJob(t2, out.job)
  }

  /** What a worker step does to the queues: the front job is output once,
      run (or, past an exit job, drained) in order; a pause job instead holds
      the worker; nothing is lost or duplicated. */
  lemma WorkerStepQueues(env: Env, t: Thread)
    requires Inv(t) && t.worker.Active? && |t.input.items| > 0
    ensures var job := t.input.items[0];
      var rest := t.input.items[1..];
      var r := WorkerStep(env, t);
      (job.kind.Pause? ==> r.worker == Paused(job.(waiter := false)) && r.input.items == rest
                           && r.output.items == t.output.items && r.input.locked && r.output.locked)
      && (job.kind.Exit? ==> (r.worker == Stopped && r.input.items == [] && r.input.closed
                              && r.output.items == t.output.items + rest + [job]))
      && (!job.kind.Pause? && !job.kind.Exit? ==>
            r.worker.Active? && r.input.items == rest && |r.output.items| == |t.output.items| + 1
            && r.output.items[..|t.output.items|] == t.output.items
            && r.output.items[|t.output.items|].id == job.id)
      && (job.waiter ==> job.id in r.released)
      && Ids(r.input.items) + Ids(r.output.items) + (if r.worker.Paused? then multiset{r.worker.job.id} else multiset{})
         == Ids(t.input.items) + Ids(t.output.items)
  {
    var job := t.input.items[0];
    if job.kind.Exit? {
      WorkerStepExitJob(env, t);
    } else if job.kind.Pause? {
      WorkerStepPauseJob(env, t);
    } else {
      WorkerStepOtherJob(env, t);
    }
  }

  /** An exit job: the rest of the input, then the job, go to the output. */
  lemma IdsRequeued(inp: seq<Job>, out: seq<Job>, out2: seq<Job>)
    requires |inp| > 0 && out2 == out + inp[1..] + [inp[0]]
    ensures Ids([]) + Ids(out2) == Ids(inp) + Ids(out)
  {
    assert inp == [inp[0]] + inp[1..];
    IdsAppend([inp[0]], inp[1..]);
    IdsAppend(out + inp[1..], [inp[0]]);
    IdsAppend(out, inp[1..]);
    assert Ids([inp[0]]) == multiset{inp[0].id};
  }

  /** A pause job: it leaves the input and is held by the worker. */
  lemma IdsHeld(inp: seq<Job>, out: seq<Job>)
    requires |inp| > 0
    ensures Ids(inp[1..]) + Ids(out) + multiset{inp[0].id} == Ids(inp) + Ids(out)
  {
    assert inp == [inp[0]] + inp[1..];
    IdsAppend([inp[0]], inp[1..]);
    assert Ids([inp[0]]) == multiset{inp[0].id};
  }

  /** Any other job: it leaves the input and comes out at the end of the
      output under the same identity. */
  lemma IdsMoved(inp: seq<Job>, out: seq<Job>, out2: seq<Job>)
    requires |inp| > 0 && |out2| == |out| + 1 && out2[..|out|] == out && out2[|out|].id == inp[0].id
    ensures Ids(inp[1..]) + Ids(out2) == Ids(inp) + Ids(out)
  {
    assert inp == [inp[0]] + inp[1..];
    IdsAppend([inp[0]], inp[1..]);
    assert Ids([inp[0]]) == multiset{inp[0].id};
    assert out2 == out + [out2[|out|]];
    IdsAppend(out, [out2[|out|]]);
    assert Ids([out2[|out|]]) == multiset{inp[0].id};
  }

  /** WorkerStepQueues for a pause job. */
  lemma WorkerStepPauseJob(env: Env, t: Thread)
    requires Inv(t) && t.worker.Active? && |t.input.items| > 0 && t.input.items[0].kind.Pause?
    ensures var job := t.input.items[0];
      var r := WorkerStep(env, t);
      r.worker == Paused(job.(waiter := false)) && r.input.items == t.input.items[1..]
      && r.output.items == t.output.items && r.input.locked && r.output.locked && job.id in r.released
      && Ids(r.input.items) + Ids(r.output.items) + multiset{r.worker.job.id} == Ids(t.input.items) + Ids(t.output.items)
  {
    IdsHeld(t.input.items, t.output.items);
  }

  /** WorkerStepQueues for an exit job. */
  lemma WorkerStepExitJob(env: Env, t: Thread)
    requires Inv(t) && t.worker.Active? && |t.input.items| > 0 && t.input.items[0].kind.Exit?
    ensures var job := t.input.items[0];
      var r := WorkerStep(env, t);
      r.worker == Stopped && r.input.items == [] && r.input.closed
      && r.output.items == t.output.items + t.input.items[1..] + [job]
      && (job.waiter ==> job.id in r.released)
      && Ids(r.input.items) + Ids(r.output.items) == Ids(t.input.items) + Ids(t.output.items)
  {
    var r := WorkerStep(env, t);
    IdsRequeued(t.input.items, t.output.items, r.output.items);
  }

  /** WorkerStepQueues for a compile, free or wait job. */
  lemma WorkerStepOtherJob(env: Env, t: Thread)
    requires Inv(t) && t.worker.Active? && |t.input.items| > 0
    requires !t.input.items[0].kind.Exit? && !t.input.items[0].kind.Pause?
    ensures var job := t.input.items[0];
      var r := WorkerStep(env, t);
      r.worker.Active? && r.input.items == t.input.items[1..] && |r.output.items| == |t.output.items| + 1
      && r.output.items[..|t.output.items|] == t.output.items
      && r.output.items[|t.output.items|].id == job.id
      && (job.waiter ==> job.id in r.released)
      && Ids(r.input.items) + Ids(r.output.items) == Ids(t.input.items) + Ids(t.output.items)
  {
    var r := WorkerStep(env, t);
    IdsMoved(t.input.items, t.output.items, r.output.items);
  }

  /** The worker, paused, after Unpause: waits on the unpause lock (now
      free) and gives it back, releases both queues and outputs the pause
      job, whose waiter was woken before the pause. */
  function Resume(t: Thread): (r: Thread)
    requires Inv(t) && t.worker.Paused? && !t.unpauseHeld
    ensures Inv(r) && r.worker.Active? && !r.unpauseHeld
    ensures r.input == t.input.(locked := false)
    ensures r.output.items == t.output.items + [t.worker.job] && !r.output.locked
    ensures r.released == t.released
  {
    var t1 := t.(input := SQ.ReleaseQueue(t.input), output := SQ.ReleaseQueue(t.output), worker := Active);
    OutputFinishedJob(t1, t.worker.job)
  }

  /** Runs the worker until the job is done (its waiter woken), it pauses or
      stops, or there is nothing left to do. */
  function WorkUntilReleased(env: Env, t: Thread, id: nat): (r: Thread)
    requires Inv(t)
    ensures Inv(r)
    ensures id in t.released ==> r == t
    ensures r.codes == t.codes && r.nextId == t.nextId && r.pending == t.pending
    decreases |t.input.items|
  {
    if t.worker.Active? && id !in t.released && |t.input.items| > 0 then
      WorkUntilReleased(env, WorkerStep(env, t), id)
    else t
  }

  // ---------------------------------------------------------------------
  // The foreground operations
  // ---------------------------------------------------------------------

  /** RunJob: exit and pause jobs to the front, others to the back.  On a
      closed queue the job is instead run through its shutdown variant and
      applied right here, and the result is -1. */
  function RunJob(t: Thread, job: Job): (r: (Thread, int))
    requires Inv(t) && !t.worker.Paused?
    ensures Inv(r.0)
    ensures r.1 == 0 || r.1 == -1
    ensures r.1 == -1 <==> t.input.closed
    ensures !t.input.closed ==> r.0 == t.(input := t.input.(items :=
      if ShouldPushFront(job.kind) then [job] + t.input.items else t.input.items + [job]))
    ensures t.input.closed ==> var s := RunAfterShutdown(t, job);
      r.0 == s.(codes := Apply(s.codes, job))
    ensures t.codes.Keys <= r.0.codes.Keys
  {
    var (q, status) := if ShouldPushFront(job.kind) then SQ.PushFront(t.input, job) else SQ.PushBack(t.input, job);
    if status < 0 then
      var s := RunAfterShutdown(t, job);
      (s.(codes := Apply(s.codes, job)), -1)
    else (t.(input := q), 0)
  }

  /** RunJobAndWait: the job gets a waiter; if it could be queued, the
      caller waits until the worker wakes it. */
  function RunJobAndWait(env: Env, t: Thread, kind: JobKind): (r: Thread)
    requires Inv(t) && !t.worker.Paused?
    ensures Inv(r)
    ensures t.codes.Keys <= r.codes.Keys && r.pending == t.pending
  {
    var job := Job(t.nextId, kind, true);
    var (t1, status) := RunJob(t.(nextId := t.nextId + 1, released := t.released - {t.nextId}), job);
    if status < 0 then t1 else WorkUntilReleased(env, t1, job.id)
  }

  /** ApplyFinishedJobs: without blocking and with the output queue held
      elsewhere, nothing happens; otherwise every finished job is applied in
      order and the output queue is left empty. */
  function ApplyFinishedJobs(t: Thread, block: bool): (r: Thread)
    requires block ==> !t.output.locked
    ensures t.output.locked ==> r == t
    ensures !t.output.locked ==> r == t.(codes := ApplyAll(t.codes, t.output.items),
                                         output := t.output.(items := []))
    ensures Inv(t) ==> Inv(r)
    ensures t.codes.Keys <= r.codes.Keys
  {
    var (held, ok) := SQ.AcquireQueue(t.output, block);
    if !ok then t
    else t.(codes := ApplyAll(t.codes, held.items), output := SQ.ReleaseQueue(held.(items := [])))
  }

  /** RunJobAndApply: waits for the job, then applies everything finished. */
  function RunJobAndApply(env: Env, t: Thread, kind: JobKind): (r: Thread)
    requires Inv(t) && !t.worker.Paused?
    ensures Inv(r)
    ensures t.codes.Keys <= r.codes.Keys && r.pending == t.pending
  {
    var t1 := RunJobAndWait(env, t, kind);
    if t1.output.locked then t1 else ApplyFinishedJobs(t1, true)
  }

  /** JitInBackground.  Blocking: the job gets an error record of the
      caller's; after waiting and applying, a recorded error is raised
      (COMPILE_ERROR), and a code object still without IR or native code
      means the thread had shut down (SystemError, COMPILE_SHUTDOWN).  Not
      blocking: the job is queued (or, after shutdown, applied at once) and
      the answer is always COMPILE_OK. */
  function JitInBackground(env: Env, t: Thread, c: nat, level: int, block: bool): (r: (Thread, CompileResult))
    requires Inv(t) && !t.worker.Paused? && c in t.codes
    ensures Inv(r.0)
    ensures !block ==> r.1 == CompileOk
    ensures c in r.0.codes
    ensures block && r.1 == CompileOk ==> r.0.codes[c].llvmFn.Some? && r.0.codes[c].native.Some?
    ensures r.1 == CompileError ==> r.0.pending.Some?
    ensures r.1 == CompileShutdown ==> r.0.pending == Some(PendingExc(SystemError, Some(NoEffectMessage)))
  {
    var code := t.codes[c];
    var kind := Compile(c, code.llvmFn, code.native, code.optimization, level);
    if !block then (RunJob(t.(nextId := t.nextId + 1), Job(t.nextId, kind, false)).0, CompileOk)
    else CompileAndWait(env, t, c, kind)
  }

  /** The SystemError message of a blocking compile that had no effect. */
  const NoEffectMessage := "Compilation had no effect; is the compilation thread running?"

  /** The blocking half of JitInBackground. */
  function CompileAndWait(env: Env, t: Thread, c: nat, kind: JobKind): (r: (Thread, CompileResult))
    requires Inv(t) && !t.worker.Paused? && c in t.codes
    ensures Inv(r.0)
    ensures c in r.0.codes
    ensures r.1 == CompileOk ==> r.0.codes[c].llvmFn.Some? && r.0.codes[c].native.Some?
    ensures r.1 == CompileError ==> r.0.pending.Some?
    ensures r.1 == CompileShutdown ==> r.0.pending == Some(PendingExc(SystemError, Some(NoEffectMessage)))
  {
    var id := t.nextId;
    var t1 := t.(errs := t.errs[id := Fresh()]);
    var t2 := RunJobAndApply(env, t1, kind);
    var err := if id in t2.errs then t2.errs[id] else Fresh();
    var t3 := t2.(errs := t2.errs - {id});
    var (status, pending) := RaiseIfError(err, t3.pending);
    if status != 0 then (t3.(pending := pending), CompileError)
    else if c !in t3.codes || t3.codes[c].llvmFn.None? || t3.codes[c].native.None? then
      (t3.(pending := Some(PendingExc(SystemError, Some(NoEffectMessage)))),
       CompileShutdown)
    else (t3, CompileOk)
  }

  /** FreeInBackground: queues a job deleting the function (or, after
      shutdown, deletes it at once). */
  function FreeInBackground(t: Thread, fn: nat): (r: Thread)
    requires Inv(t) && !t.worker.Paused?
    ensures Inv(r)
    ensures t.input.closed ==> r.freed == t.freed + {fn} && r.input == t.input
    ensures !t.input.closed ==> r.input.items == t.input.items + [Job(t.nextId, Free(fn), false)]
  {
    RunJob(t.(nextId := t.nextId + 1), Job(t.nextId, Free(fn), false)).0
  }

  /** WaitForJobs: waits for a no-op job behind everything queued, then
      applies. */
  function WaitForJobs(env: Env, t: Thread): (r: Thread)
    requires Inv(t) && !t.worker.Paused?
    ensures Inv(r)
  {
    RunJobAndApply(env, t, Wait)
  }

  /** Terminate: an exit job ahead of everything, waited for and applied;
      the thread is then marked not running. */
  function Terminate(env: Env, t: Thread): (r: Thread)
    requires Inv(t) && !t.worker.Paused?
    ensures Inv(r) && !r.running
  {
    RunJobAndApply(env, t, Exit).(running := false)
  }

  /** Pause: a pause job ahead of everything, waited for. */
  function PauseThread(env: Env, t: Thread): (r: Thread)
    requires Inv(t) && !t.worker.Paused?
    ensures Inv(r)
  {
    RunJobAndWait(env, t, Pause)
  }

  /** Unpause: releases the unpause lock, which is all a paused worker
      waits for: it can then resume, outputting its pause job. */
  function Unpause(t: Thread): (r: Thread)
    ensures !r.unpauseHeld && (Inv(t) ==> Inv(r))
    ensures r.worker == t.worker && r.input == t.input && r.output == t.output
    ensures r.codes == t.codes && r.pending == t.pending
    ensures Inv(t) && t.worker.Paused? ==>
      var w := Resume(r);
      w.worker.Active? && !w.input.locked && !w.output.locked
      && w.output.items == t.output.items + [t.worker.job]
  {
    t.(unpauseHeld := false)
  }

  /** Start: nothing while running; otherwise marks the thread running,
      reopens the input queue and starts a worker. */
  function Start(t: Thread): (r: Thread)
    requires Inv(t) && (t.running || t.worker.Stopped?)
    ensures t.running ==> r == t
    ensures !t.running ==> r.running && r.worker.Active? && !r.input.closed && r.input.items == t.input.items
    ensures Inv(r)
  {
    if t.running then t
    else t.(running := true, input := SQ.Open(t.input), worker := Active)
  }

  /** ResetAfterFork, in the child: a fresh unpause lock, fresh queue locks,
      the input queue closed, no worker thread, not running. */
  function ResetAfterFork(t: Thread): (r: Thread)
    requires Inv(t)
    ensures Inv(r) && !r.running && r.worker.Stopped? && !r.unpauseHeld
    ensures r.input.closed && r.input.items == t.input.items
    ensures r.output.items == t.output.items && r.output.closed == t.output.closed
  {
    var input := SQ.ResetAfterFork(t.input);
    var (held, _) := SQ.AcquireQueue(input, true);
    t.(unpauseHeld := false,
       input := SQ.ReleaseQueue(SQ.Close(held)),
       output := SQ.ResetAfterFork(t.output),
       worker := Stopped,
       running := false)
  }

  // ---------------------------------------------------------------------
  // Properties
  // ---------------------------------------------------------------------

  /** Calling Start twice is calling it once. */
  lemma StartIdempotent(t: Thread)
    requires Inv(t) && (t.running || t.worker.Stopped?)
    ensures Start(Start(t)) == Start(t)
  {
  }

  /** After a fork the scheduler can be started again, with the jobs that
      were queued still queued. */
  lemma StartAfterFork(t: Thread)
    requires Inv(t)
    ensures var r := Start(ResetAfterFork(t));
      r.running && r.worker.Active? && !r.input.closed && r.input.items == t.input.items && Inv(r)
  {
  }

  /** Once the input queue is closed, a job does not wait: it runs its
      shutdown variant and is applied at once, and the result is -1. */
  lemma ShutdownRunsInCaller(env: Env, t: Thread, kind: JobKind)
    requires Inv(t) && !t.worker.Paused? && t.input.closed
    ensures var r := RunJobAndWait(env, t, kind);
      var job := Job(t.nextId, kind, true);
      var s := RunAfterShutdown(t.(nextId := t.nextId + 1, released := t.released - {t.nextId}), job);
      r == s.(codes := Apply(s.codes, job))
  {
  }

  /** A blocking compile after shutdown of a code object that has no IR yet
      reports COMPILE_SHUTDOWN with a SystemError, and leaves the code object
      without native code. */
  lemma CompileAfterShutdownReportsShutdown(env: Env, t: Thread, c: nat, level: int)
    requires Inv(t) && !t.worker.Paused? && c in t.codes && t.input.closed
    requires t.codes[c].llvmFn.None? && t.output.items == []
    ensures var (r, res) := JitInBackground(env, t, c, level, true);
      res == CompileShutdown && r.pending.Some? && r.pending.value.typ == SystemError
      && c in r.codes && r.codes[c].native == t.codes[c].native && r.codes[c].llvmFn.None?
  {
    var id := t.nextId;
    var code := t.codes[c];
    var k := Compile(c, code.llvmFn, code.native, code.optimization, level);
    var t1 := t.(errs := t.errs[id := Fresh()]);
    var t2 := RunJobAndApply(env, t1, k);
    var t0 := t1.(nextId := id + 1, released := t1.released - {id});
    var (u, status) := RunJob(t0, Job(id, k, true));
    assert u == t0.(codes := Apply(t0.codes, Job(id, k, true)));
    assert RunJobAndWait(env, t1, k) == u;
    assert ApplyAll(u.codes, []) == u.codes;
    assert t2 == u.(output := u.output.(items := []));
    assert t2.errs[id] == Fresh();
    assert t2.codes[c] == CodeObj(false, code.native.Some?, level, None, code.native);
  }

  /** Not blocking, a compile is always reported as fine: the job is queued
      behind the others, or applied at once after shutdown. */
  lemma NonBlockingCompileIsQueued(env: Env, t: Thread, c: nat, level: int)
    requires Inv(t) && !t.worker.Paused? && c in t.codes
    ensures var (r, res) := JitInBackground(env, t, c, level, false);
      var code := t.codes[c];
      var job := Job(t.nextId, Compile(c, code.llvmFn, code.native, code.optimization, level), false);
      res == CompileOk
      && (!t.input.closed ==> r.input.items == t.input.items + [job])
      && (t.input.closed ==> r.codes == t.codes[c := CodeObj(false, code.native.Some?, level, code.llvmFn, code.native)])
  {
  }

  /** A blocking compile on an idle worker: the job is run straight away and
      applied, and the caller sees exactly CompileRun's outcome.  When IR and
      optimization succeed the code object runs the new native code at the
      new level; an optimization failure raises SystemError. */
  lemma BlockingCompileOnIdleWorker(env: Env, t: Thread, c: nat, level: int)
    requires Inv(t) && t.worker.Active? && c in t.codes && t.input.items == []
    ensures var code := t.codes[c];
      var k := Compile(c, code.llvmFn, code.native, code.optimization, level);
      var (res, k1, err) := CompileRun(env, k, Fresh());
      var (r, out) := JitInBackground(env, t, c, level, true);
      r.codes[c] == CodeObj(false, k1.native.Some?, level, k1.llvmFn, k1.native)
      && (res == JobOk ==> out == CompileOk && r.codes[c].useLlvm && r.codes[c].native == Some(env.jit(k1.llvmFn.value)))
      && (ErrorOccurred(err) ==> out == CompileError && r.pending == Some(PendingExc(err.excType, err.excValue)))
      && r.output.items == [] && r.worker.Active?
  {
    var code := t.codes[c];
    var k := Compile(c, code.llvmFn, code.native, code.optimization, level);
    var id := t.nextId;
    var t1 := t.(errs := t.errs[id := Fresh()]);
    CompileWaitedOnIdleWorker(env, t1, c, level);
  }

  /** The blocking half of a compile on an idle worker: with the caller's
      fresh error record in place, the worker runs the job at once, and
      after applying, the code object holds what CompileRun produced and
      the caller's record what it recorded. */
  lemma CompileWaitedOnIdleWorker(env: Env, t: Thread, c: nat, level: int)
    requires Inv(t) && t.worker.Active? && c in t.codes && t.input.items == []
    requires t.errs == t.errs[t.nextId := Fresh()]
    ensures var code := t.codes[c];
      var k := Compile(c, code.llvmFn, code.native, code.optimization, level);
      var (res, k1, err) := CompileRun(env, k, Fresh());
      var r := RunJobAndApply(env, t, k);
      c in r.codes && r.codes[c] == CodeObj(false, k1.native.Some?, level, k1.llvmFn, k1.native)
      && t.nextId in r.errs && r.errs[t.nextId] == err
      && r.output.items == [] && r.worker.Active? && r.pending == t.pending
  {
    var code := t.codes[c];
    var k := Compile(c, code.llvmFn, code.native, code.optimization, level);
    var (res, k1, err) := CompileRun(env, k, Fresh());
    CompileJobRunsAtOnce(env, t, k);
    var t3 := RunJobAndWait(env, t, k);
    assert !t3.output.locked;
    ApplyAllAppend(t.codes, t.output.items, Job(t.nextId, k1, true));
  }

  /** The waiting half of CompileWaitedOnIdleWorker: the idle worker runs
      the compile job at once and outputs it, as run, behind what had
      finished. */
  lemma CompileJobRunsAtOnce(env: Env, t: Thread, k: JobKind)
    requires Inv(t) && t.worker.Active? && t.input.items == [] && k.Compile?
    requires t.errs == t.errs[t.nextId := Fresh()]
    ensures var (res, k1, err) := CompileRun(env, k, Fresh());
      var r := RunJobAndWait(env, t, k);
      r.output.items == t.output.items + [Job(t.nextId, k1, true)] && r.input.items == []
      && t.nextId in r.errs && r.errs[t.nextId] == err
      && r.worker.Active? && r.codes == t.codes && r.pending == t.pending
  {
    var id := t.nextId;
    var job := Job(id, k, true);
    var (t2, status) := RunJob(t.(nextId := id + 1, released := t.released - {id}), job);
    assert t2.input.items == [job];
    var t3 := WorkerStep(env, t2);
    WorkerStepQueues(env, t2);
    assert WorkUntilReleased(env, t2, id) == t3;
    var (res, k1, err) := CompileRun(env, k, Fresh());
    assert t3.output.items == t.output.items + [Job(id, k1, true)];
    assert t3.errs[id] == err;
  }

  /** Finding: `_llvm.compile` lets level 3 through, and a blocking compile
      of a code object below that level whose IR builds then fails in the
      optimizer with SystemError "Optimization failed". */
  lemma CompileAtLevelThreeAsWrittenFails(env: Env, t: Thread, c: nat)
    requires Inv(t) && t.worker.Active? && c in t.codes && t.input.items == []
    requires t.codes[c].optimization < 3
    requires t.codes[c].llvmFn.Some? || env.toIr(c).Some?
    ensures GlobalData.LevelAcceptedAsWritten(3)
    ensures var (r, out) := JitInBackground(env, t, c, 3, true);
      out == CompileError && r.pending == Some(PendingExc(SystemError, Some(OptimizationFailed)))
  {
    BlockingCompileOnIdleWorker(env, t, c, 3);
  }

  /** With the corrected bound, every level the entry point accepts compiles
      on an idle worker whenever the IR builds. */
  lemma AcceptedLevelCompiles(env: Env, t: Thread, c: nat, level: int)
    requires Inv(t) && t.worker.Active? && c in t.codes && t.input.items == []
    requires GlobalData.LevelAccepted(level) && t.codes[c].optimization >= -1
    requires t.codes[c].llvmFn.Some? || env.toIr(c).Some?
    ensures var (r, out) := JitInBackground(env, t, c, level, true);
      out == CompileOk && r.codes[c].useLlvm && r.codes[c].optimization == level
  {
    GlobalData.AcceptedLevelsOptimize(level);
    BlockingCompileOnIdleWorker(env, t, c, level);
  }

  /** Pausing an idle worker: the caller gets control back with the worker
      paused, holding both queues and the unpause lock; after Unpause the
      worker resumes and outputs the pause job. */
  lemma PauseHoldsWorkerUntilUnpause(env: Env, t: Thread)
    requires Inv(t) && t.worker.Active? && t.input.items == []
    ensures var p := PauseThread(env, t);
      p.worker.Paused? && p.input.locked && p.output.locked && p.unpauseHeld
      && var r := Resume(Unpause(p));
      r.worker.Active? && !r.input.locked && !r.output.locked && r.output.items == t.output.items + [p.worker.job]
  {
    var job := Job(t.nextId, Pause, true);
    var (t1, _) := RunJob(t.(nextId := t.nextId + 1, released := t.released - {t.nextId}), job);
    assert t1.input.items == [job];
    WorkerStepQueues(env, t1);
  }

  /** Waiting on an idle worker: the no-op job runs at once, every job that
      had finished is applied in order, and the output queue is left empty
      with the worker still taking jobs. */
  lemma WaitForJobsAppliesFinished(env: Env, t: Thread)
    requires Inv(t) && t.worker.Active? && t.input.items == []
    ensures var r := WaitForJobs(env, t);
      r.codes == ApplyAll(t.codes, t.output.items) && r.output.items == [] && r.input.items == []
      && r.worker.Active? && r.pending == t.pending
  {
    WaitJobRunsAtOnce(env, t);
    var t2 := RunJobAndWait(env, t, Wait);
    assert !t2.output.locked;
    ApplyAllAppend(t.codes, t.output.items, Job(t.nextId, Wait, true));
  }

  /** The waiting half of WaitForJobsAppliesFinished: the idle worker takes
      the no-op job at once and outputs it behind what had finished. */
  lemma WaitJobRunsAtOnce(env: Env, t: Thread)
    requires Inv(t) && t.worker.Active? && t.input.items == []
    ensures var r := RunJobAndWait(env, t, Wait);
      r.output.items == t.output.items + [Job(t.nextId, Wait, true)] && r.input.items == []
      && r.worker.Active? && r.codes == t.codes && r.pending == t.pending
  {
    var job := Job(t.nextId, Wait, true);
    var (t1, _) := RunJob(t.(nextId := t.nextId + 1, released := t.released - {t.nextId}), job);
    assert t1.input.items == [job];
    WorkerStepQueues(env, t1);
    var t2 := WorkerStep(env, t1);
    assert WorkUntilReleased(env, t1, job.id) == t2;
  }

  /** Terminating a running worker with nothing queued stops it and closes
      the input queue; terminating again leaves the code objects alone. */
  lemma TerminateStops(env: Env, t: Thread)
    requires Inv(t) && t.worker.Active? && t.input.items == []
    ensures var r := Terminate(env, t);
      r.worker.Stopped? && r.input.closed && !r.running && r.output.items == []
      && Terminate(env, r).codes == r.codes && Terminate(env, r).worker.Stopped?
  {
    ExitJobRunsAtOnce(env, t);
    var r := Terminate(env, t);
    TerminateAgainIsNoOp(env, r);
  }

  /** The waiting half of TerminateStops: the idle worker takes the exit
      job at once, closes the input queue and stops. */
  lemma ExitJobRunsAtOnce(env: Env, t: Thread)
    requires Inv(t) && t.worker.Active? && t.input.items == []
    ensures var r := RunJobAndWait(env, t, Exit);
      r.worker.Stopped? && r.input.closed && !r.output.locked
  {
    var job := Job(t.nextId, Exit, true);
    var (t1, _) := RunJob(t.(nextId := t.nextId + 1, released := t.released - {t.nextId}), job);
    assert t1.input.items == [job];
    WorkerStepQueues(env, t1);
    assert WorkUntilReleased(env, t1, job.id) == WorkerStep(env, t1);
  }

  /** Terminating a stopped thread whose input queue is closed runs the
      exit job through its shutdown variant, which changes no code object. */
  lemma TerminateAgainIsNoOp(env: Env, r: Thread)
    requires Inv(r) && r.worker.Stopped? && r.input.closed && r.output.items == []
    ensures Terminate(env, r).codes == r.codes && Terminate(env, r).worker.Stopped?
  {
    var s := RunAfterShutdown(r.(nextId := r.nextId + 1, released := r.released - {r.nextId}), Job(r.nextId, Exit, true));
    assert RunJobAndWait(env, r, Exit) == s.(codes := Apply(s.codes, Job(r.nextId, Exit, true)));
    assert ApplyAll(s.codes, []) == s.codes;
  }
}

=== FILE: slice.dfy ===
/** The old-style slice opcodes (SLICE, STORE_SLICE and DELETE_SLICE, each
    in four forms) and BUILD_SLICE. */
module Slice {
  import opened Wrappers
  import opened Values
  import opened Frame

  /** Which bounds the slice expression wrote: `s[:]`, `s[i:]`, `s[:j]` or
      `s[i:j]` (the +0 .. +3 forms of each opcode). */
  datatype Bounds = NoBounds | StartOnly | StopOnly | BothBounds

  predicate HasStart(b: Bounds) {
    b == StartOnly || b == BothBounds
  }

  predicate HasStop(b: Bounds) {
    b == StopOnly || b == BothBounds
  }

  /** The values a slice takes from the stack: the sequence and the bounds
      it wrote. */
  function OperandCount(b: Bounds): (n: nat)
    ensures n == 1 + (if HasStart(b) then 1 else 0) + (if HasStop(b) then 1 else 0)
    ensures 1 <= n <= 3
  {
    match b
    case NoBounds => 1
    case StartOnly => 2
    case StopOnly => 2
    case BothBounds => 3
  }

  /** Where the operands sit: stop on top if written, start below it if
      written, the sequence below them; a bound that was not written is
      NULL. */
  datatype Operands = Operands(sequence: Value, start: Value, stop: Value)

  function OperandsOf(s: State, b: Bounds): (o: Operands)
    requires |s.stack| >= OperandCount(b)
    ensures o.stop == (if HasStop(b) then Peek(s, 1) else Null)
    ensures o.start == (if HasStart(b) then Peek(s, OperandCount(b) - 1) else Null)
    ensures o.sequence == Peek(s, OperandCount(b))
  {
    var n := OperandCount(b);
    Operands(Peek(s, n),
             if HasStart(b) then Peek(s, n - 1) else Null,
             if HasStop(b) then Peek(s, 1) else Null)
  }

  /** The handlers' pops, in their order: stop if written, then start if
      written, then the sequence. */
  function PopOperands(s: State, b: Bounds): (r: (State, Operands))
    requires |s.stack| >= OperandCount(b)
    ensures r.0 == Drop(s, OperandCount(b))
    ensures r.1 == OperandsOf(s, b)
  {
    var (s1, stop) := if HasStop(b) then Pop(s) else (s, Null);
    var (s2, start) := if HasStart(b) then Pop(s1) else (s1, Null);
    var (s3, sequence) := Pop(s2);
    (s3, Operands(sequence, start, stop))
  }

  /** SLICE+k: `_PyEval_ApplySlice(seq, start, stop)`, whose result is
      pushed; NULL propagates. */
  function SliceOp(rt: Runtime, s: State, b: Bounds): (r: Step)
    requires |s.stack| >= OperandCount(b)
    ensures var o := OperandsOf(s, b);
      r == PushResultOf(rt, Drop(s, OperandCount(b)), ApplySlice, [o.sequence, o.start, o.stop])
  {
    var (s1, o) := PopOperands(s, b);
    PushResultOf(rt, s1, ApplySlice, [o.sequence, o.start, o.stop])
  }

  /** STORE_SLICE+k: also pops the source below the sequence and calls
      `_PyEval_AssignSlice(seq, start, stop, source)`; nothing is pushed. */
  function StoreSliceOp(rt: Runtime, s: State, b: Bounds): (r: Step)
    requires |s.stack| >= OperandCount(b) + 1
    ensures var o := OperandsOf(s, b);
      r == CheckNonZero(rt, Drop(s, OperandCount(b) + 1), AssignSlice,
                        [o.sequence, o.start, o.stop, Peek(s, OperandCount(b) + 1)])
  {
    var (s1, o) := PopOperands(s, b);
    var (s2, source) := Pop(s1);
    CheckNonZero(rt, s2, AssignSlice, [o.sequence, o.start, o.stop, source])
  }

  /** DELETE_SLICE+k: the same assignment with a NULL source. */
  function DeleteSliceOp(rt: Runtime, s: State, b: Bounds): (r: Step)
    requires |s.stack| >= OperandCount(b)
    ensures var o := OperandsOf(s, b);
      r == CheckNonZero(rt, Drop(s, OperandCount(b)), AssignSlice, [o.sequence, o.start, o.stop, Null])
  {
    var (s1, o) := PopOperands(s, b);
    CheckNonZero(rt, s1, AssignSlice, [o.sequence, o.start, o.stop, Null])
  }

  /** The stack effects: SLICE replaces its operands by one value, STORE_SLICE
      and DELETE_SLICE remove theirs, and a failure leaves the operands
      removed as well. */
  lemma SliceStackEffects(rt: Runtime, s: State, b: Bounds)
    requires |s.stack| >= OperandCount(b) + 1
    ensures var n := |s.stack| - OperandCount(b);
      var r := SliceOp(rt, s, b);
      (r.Fall? ==> |r.s.stack| == n + 1 && r.s.stack[..n] == s.stack[..n])
      && (r.ToPropagate? ==> r.s.stack == s.stack[..n])
    ensures StoreSliceOp(rt, s, b).s.stack == s.stack[..|s.stack| - OperandCount(b) - 1]
    ensures DeleteSliceOp(rt, s, b).s.stack == s.stack[..|s.stack| - OperandCount(b)]
  {
    var k := OperandCount(b);
    var o := OperandsOf(s, b);
    var r := SliceOp(rt, s, b);
    assert r == PushResultOf(rt, Drop(s, k), ApplySlice, [o.sequence, o.start, o.stop]);
    assert StoreSliceOp(rt, s, b).s == Drop(s, k + 1).(err := StoreSliceOp(rt, s, b).s.err);
    assert DeleteSliceOp(rt, s, b).s == Drop(s, k).(err := DeleteSliceOp(rt, s, b).s.err);
  }

  /** DELETE_SLICE is STORE_SLICE with NULL as the source: with a NULL slipped
      in below its operands, the store does exactly what the delete does. */
  lemma DeleteIsStoreOfNull(rt: Runtime, s: State, b: Bounds)
    requires |s.stack| >= OperandCount(b)
    ensures var n := |s.stack| - OperandCount(b);
      var t := s.(stack := s.stack[..n] + [Null] + s.stack[n..]);
      StoreSliceOp(rt, t, b) == DeleteSliceOp(rt, s, b)
  {
    var k := OperandCount(b);
    var n := |s.stack| - k;
    var t := s.(stack := s.stack[..n] + [Null] + s.stack[n..]);
    assert |t.stack| == |s.stack| + 1;
    assert t.stack[..|t.stack| - (k + 1)] == s.stack[..n];
    assert Drop(t, k + 1) == Drop(s, k);
    assert Peek(t, k + 1) == Null;
    forall d | 1 <= d <= k
      ensures Peek(t, d) == Peek(s, d)
    {
      assert t.stack[|t.stack| - d] == s.stack[n..][|s.stack| - d - n];
    }
    assert OperandsOf(t, b) == OperandsOf(s, b);
  }

  /** BUILD_SLICE with two or three arguments: pops step (only with three),
      stop and start and pushes `PySlice_New(start, stop, step)`, the step
      being NULL with two. */
  function BuildSliceOp(rt: Runtime, s: State, three: bool): (r: Step)
    requires |s.stack| >= (if three then 3 else 2)
    ensures var k := if three then 3 else 2;
      var step := if three then Peek(s, 1) else Null;
      r == PushResultOf(rt, Drop(s, k), BuildSlice, [Peek(s, k), Peek(s, k - 1), step])
  {
    var (s1, step) := if three then Pop(s) else (s, Null);
    var (s2, stop) := Pop(s1);
    var (s3, start) := Pop(s2);
    PushResultOf(rt, s3, BuildSlice, [start, stop, step])
  }
}

=== FILE: stackops.dfy ===
/** The pure stack-shuffling opcodes.  None of them can fail, so each always
    falls through to the next opcode; they are written as state transformers. */
module StackOps {
  import opened Values
  import opened Frame

  /** POP_TOP: drops the top value. */
  function PopTop(s: State): (r: State)
    requires |s.stack| >= 1
    ensures r.stack == s.stack[..|s.stack| - 1]
    ensures SameButStack(s, r)
  {
    Pop(s).0
  }

  /** DUP_TOP: pushes another reference to the top value. */
  function DupTop(s: State): (r: State)
    requires |s.stack| >= 1
    ensures r.stack == s.stack + TopN(s, 1)
    ensures SameButStack(s, r)
  {
    var (s1, first) := Pop(s);
    Push(Push(s1, first), first)
  }

  /** DUP_TOPX 2: pushes copies of the top two values, in order. */
  function DupTopTwo(s: State): (r: State)
    requires |s.stack| >= 2
    ensures r.stack == s.stack + TopN(s, 2)
    ensures SameButStack(s, r)
  {
    var (s1, first) := Pop(s);
    var (s2, second) := Pop(s1);
    Push(Push(Push(Push(s2, second), first), second), first)
  }

  /** DUP_TOPX 3: pushes copies of the top three values, in order. */
  function DupTopThree(s: State): (r: State)
    requires |s.stack| >= 3
    ensures r.stack == s.stack + TopN(s, 3)
    ensures SameButStack(s, r)
  {
    var (s1, first) := Pop(s);
    var (s2, second) := Pop(s1);
    var (s3, third) := Pop(s2);
    var s6 := Push(Push(Push(s3, third), second), first);
    PushesAppend(s3, third, second, first);
    PushesAppend(s6, third, second, first);
    assert s3.stack + [third, second, first] == s.stack;
    Push(Push(Push(s6, third), second), first)
  }

  /** Three pushes append the three values, in order. */
  lemma PushesAppend(s: State, a: Value, b: Value, c: Value)
    ensures Push(Push(Push(s, a), b), c) == s.(stack := s.stack + [a, b, c])
  {
  }

  /** ROT_TWO: swaps the top two values. */
  function RotTwo(s: State): (r: State)
    requires |s.stack| >= 2
    ensures |r.stack| == |s.stack|
    ensures r.stack[..|s.stack| - 2] == s.stack[..|s.stack| - 2]
    ensures Peek(r, 1) == Peek(s, 2) && Peek(r, 2) == Peek(s, 1)
    ensures SameButStack(s, r)
  {
    var (s1, first) := Pop(s);
    var (s2, second) := Pop(s1);
    Push(Push(s2, first), second)
  }

  /** ROT_THREE: moves the top value down two places, lifting the other two. */
  function RotThree(s: State): (r: State)
    requires |s.stack| >= 3
    ensures |r.stack| == |s.stack|
    ensures r.stack[..|s.stack| - 3] == s.stack[..|s.stack| - 3]
    ensures Peek(r, 3) == Peek(s, 1) && Peek(r, 1) == Peek(s, 2) && Peek(r, 2) == Peek(s, 3)
    ensures SameButStack(s, r)
  {
    var (s1, first) := Pop(s);
    var (s2, second) := Pop(s1);
    var (s3, third) := Pop(s2);
    Push(Push(Push(s3, first), third), second)
  }

  /** ROT_FOUR: moves the top value down three places, lifting the other three. */
  function RotFour(s: State): (r: State)
    requires |s.stack| >= 4
    ensures |r.stack| == |s.stack|
    ensures r.stack[..|s.stack| - 4] == s.stack[..|s.stack| - 4]
    ensures Peek(r, 4) == Peek(s, 1) && Peek(r, 1) == Peek(s, 2)
    ensures Peek(r, 2) == Peek(s, 3) && Peek(r, 3) == Peek(s, 4)
    ensures SameButStack(s, r)
  {
    var (s1, first) := Pop(s);
    var (s2, second) := Pop(s1);
    var (s3, third) := Pop(s2);
    var (s4, fourth) := Pop(s3);
    Push(Push(Push(Push(s4, first), fourth), third), second)
  }

  /** ROT_TWO undoes itself. */
  lemma RotTwoInvolution(s: State)
    requires |s.stack| >= 2
    ensures RotTwo(RotTwo(s)) == s
  {
  }

  /** Three ROT_THREEs are the identity. */
  lemma RotThreeCycle(s: State)
    requires |s.stack| >= 3
    ensures RotThree(RotThree(RotThree(s))) == s
  {
  }

  /** Four ROT_FOURs are the identity. */
  lemma RotFourCycle(s: State)
    requires |s.stack| >= 4
    ensures RotFour(RotFour(RotFour(RotFour(s)))) == s
  {
  }

  /** DUP_TOP followed by POP_TOP changes nothing. */
  lemma DupThenPop(s: State)
    requires |s.stack| >= 1
    ensures PopTop(DupTop(s)) == s
  {
    assert DupTop(s).stack[..|s.stack|] == s.stack;
  }
}

=== FILE: syncqueue.dfy ===
/** SynchronousQueue: a deque with a closed flag and a lock, shared by many
    producers and one consumer.  Each operation is one atomic step; an
    operation that takes the lock internally can only step while nobody
    holds it through `acquire_queue`. */
module SyncQueue {

  datatype Queue<T> = Queue(items: seq<T>, closed: bool, locked: bool)

  /** A new queue: empty, open, unlocked. */
  function NewQueue<T>(): (q: Queue<T>)
    ensures q.items == [] && !q.closed && !q.locked
  {
    Queue([], false, false)
  }

  /** close: the caller must hold the lock (`acquire_queue`). */
  function Close<T>(q: Queue<T>): (r: Queue<T>)
    requires q.locked
    ensures r.closed && r.items == q.items && r.locked
  {
    q.(closed := true)
  }

  /** open: takes the lock and clears the closed flag. */
  function Open<T>(q: Queue<T>): (r: Queue<T>)
    requires !q.locked
    ensures !r.closed && r.items == q.items && !r.locked
  {
    q.(closed := false)
  }

  /** push_front: -1 and no change on a closed queue, else 0 with the element
      first. */
  function PushFront<T>(q: Queue<T>, x: T): (r: (Queue<T>, int))
    requires !q.locked
    ensures q.closed ==> r == (q, -1)
    ensures !q.closed ==> r.1 == 0 && r.0.items == [x] + q.items && r.0.closed == q.closed && !r.0.locked
  {
    if q.closed then (q, -1) else (q.(items := [x] + q.items), 0)
  }

  /** push_back: -1 and no change on a closed queue, else 0 with the element
      last. */
  function PushBack<T>(q: Queue<T>, x: T): (r: (Queue<T>, int))
    requires !q.locked
    ensures q.closed ==> r == (q, -1)
    ensures !q.closed ==> r.1 == 0 && r.0.items == q.items + [x] && r.0.closed == q.closed && !r.0.locked
  {
    if q.closed then (q, -1) else (q.(items := q.items + [x]), 0)
  }

  /** pop_front: popping from a closed queue is a usage error, and an empty
      queue makes the consumer wait, so a pop only steps on an open,
      non-empty queue; it takes the front element. */
  function PopFront<T>(q: Queue<T>): (r: (Queue<T>, T))
    requires !q.locked && !q.closed && |q.items| > 0
    ensures r.1 == q.items[0] && r.0.items == q.items[1..]
    ensures r.0.closed == q.closed && r.0.locked == q.locked
  {
    (q.(items := q.items[1..]), q.items[0])
  }

  /** acquire_queue: a blocking acquire waits for the lock, so it only steps
      when the lock is free; a non-blocking one on a held lock fails (NULL)
      and changes nothing.  On success the caller holds the lock. */
  function AcquireQueue<T>(q: Queue<T>, block: bool): (r: (Queue<T>, bool))
    requires block ==> !q.locked
    ensures q.locked ==> r == (q, false)
    ensures !q.locked ==> r.1 && r.0 == q.(locked := true)
  {
    if q.locked then (q, false) else (q.(locked := true), true)
  }

  /** release_queue. */
  function ReleaseQueue<T>(q: Queue<T>): (r: Queue<T>)
    requires q.locked
    ensures !r.locked && r.items == q.items && r.closed == q.closed
    ensures AcquireQueue(r, true) == (q, true)
  {
    q.(locked := false)
  }

  /** Acquiring a free queue and releasing it gives back the queue as it was,
      and the acquire succeeds. */
  lemma ReleaseUndoesAcquire<T>(q: Queue<T>, block: bool)
    requires !q.locked
    ensures AcquireQueue(q, block).1 && ReleaseQueue(AcquireQueue(q, block).0) == q
  {
  }

  /** reset_after_fork: the child process gets fresh, released locks; the
      contents and the closed flag are kept. */
  function ResetAfterFork<T>(q: Queue<T>): (r: Queue<T>)
    ensures !r.locked && r.items == q.items && r.closed == q.closed
  {
    q.(locked := false)
  }

  /** What producers and the consumer can do. */
  datatype Op<T> = Front(x: T) | Back(x: T) | Pop

  /** One atomic step and what it hands the consumer.  Each step keeps every
      element: what it adds to the queue is pushed, what it takes out is
      handed over. */
  function Step<T>(q: Queue<T>, op: Op<T>): (r: (Queue<T>, seq<T>))
    requires !q.locked && !q.closed
    ensures !r.0.locked && !r.0.closed
    ensures multiset(r.1) + multiset(r.0.items)
      == multiset(q.items) + (if op.Pop? then multiset{} else multiset{op.x})
    ensures op.Pop? ==> |r.1| <= 1 && (r.1 != [] <==> q.items != [])
  {
    match op
    case Front(x) => (PushFront(q, x).0, [])
    case Back(x) => (PushBack(q, x).0, [])
    case Pop =>
      if |q.items| > 0 then
        assert q.items == [q.items[0]] + q.items[1..];
        (PopFront(q).0, [PopFront(q).1])
      else (q, [])
  }

  /** Runs a sequence of atomic steps, collecting what the consumer pops; a
      pop on an empty queue, which would wait, is skipped. */
  function Run<T>(q: Queue<T>, ops: seq<Op<T>>): (r: (Queue<T>, seq<T>))
    requires !q.locked && !q.closed
    ensures !r.0.locked && !r.0.closed
    decreases |ops|
  {
    if |ops| == 0 then (q, [])
    else
      var step := Step(q, ops[0]);
      var rest := Run(step.0, ops[1..]);
      (rest.0, step.1 + rest.1)
  }

  /** Everything a producer pushes.  */
  function Pushed<T>(ops: seq<Op<T>>): (xs: seq<T>)
    ensures |xs| <= |ops|
  {
    if |ops| == 0 then []
    else (if ops[0].Pop? then [] else [ops[0].x]) + Pushed(ops[1..])
  }

  /** No element is lost or duplicated: whatever was queued or pushed has
      been popped exactly once or is still queued. */
  lemma {:induction false} EveryPushPoppedOnce<T>(q: Queue<T>, ops: seq<Op<T>>)
    requires !q.locked && !q.closed
    ensures multiset(Run(q, ops).1) + multiset(Run(q, ops).0.items) == multiset(q.items) + multiset(Pushed(ops))
    decreases |ops|
  {
    if |ops| == 0 {
      assert Run(q, ops).1 == [] && Pushed(ops) == [];
    } else {
      var step := Step(q, ops[0]);
      var rest := Run(step.0, ops[1..]);
      var added: multiset<T> := if ops[0].Pop? then multiset{} else multiset{ops[0].x};
      var later := multiset(Pushed(ops[1..]));
      EveryPushPoppedOnce(step.0, ops[1..]);
      assert Run(q, ops) == (rest.0, step.1 + rest.1);
      assert multiset(Pushed(ops)) == added + later by {
        assert Pushed(ops) == (if ops[0].Pop? then [] else [ops[0].x]) + Pushed(ops[1..]);
      }
      assert multiset(step.1 + rest.1) == multiset(step.1) + multiset(rest.1);
      Rebalance(multiset(step.1), multiset(rest.1), multiset(rest.0.items), multiset(step.0.items),
                multiset(q.items), added, later);
    }
  }

  /** The bookkeeping of one step followed by the rest of a run. */
  lemma Rebalance<T>(handed: multiset<T>, later: multiset<T>, left: multiset<T>, queued: multiset<T>,
                     before: multiset<T>, added: multiset<T>, pushed: multiset<T>)
    requires handed + queued == before + added
    requires later + left == queued + pushed
    ensures (handed + later) + left == before + (added + pushed)
  {
    forall x
      ensures ((handed + later) + left)[x] == (before + (added + pushed))[x]
    {
      assert (handed + queued)[x] == (before + added)[x];
      assert (later + left)[x] == (queued + pushed)[x];
    }
  }

  /** Pushes `xs` to the back one at a time. */
  function PushBackAll<T>(q: Queue<T>, xs: seq<T>): (r: Queue<T>)
    requires !q.locked && !q.closed
    ensures !r.locked && !r.closed
    decreases |xs|
  {
    if |xs| == 0 then q else PushBackAll(PushBack(q, xs[0]).0, xs[1..])
  }

  /** Pops `n` elements. */
  function PopN<T>(q: Queue<T>, n: nat): (r: (Queue<T>, seq<T>))
    requires !q.locked && !q.closed && n <= |q.items|
    ensures !r.0.locked && !r.0.closed
    decreases n
  {
    if n == 0 then (q, [])
    else
      var (q1, x) := PopFront(q);
      var (q2, xs) := PopN(q1, n - 1);
      (q2, [x] + xs)
  }

  lemma {:induction false} PushBackAllAppends<T>(q: Queue<T>, xs: seq<T>)
    requires !q.locked && !q.closed
    ensures PushBackAll(q, xs).items == q.items + xs
    decreases |xs|
  {
    if |xs| > 0 {
      PushBackAllAppends(PushBack(q, xs[0]).0, xs[1..]);
      assert q.items + [xs[0]] + xs[1..] == q.items + xs;
    }
  }

  lemma {:induction false} PopNTakesPrefix<T>(q: Queue<T>, n: nat)
    requires !q.locked && !q.closed && n <= |q.items|
    ensures PopN(q, n).1 == q.items[..n] && PopN(q, n).0.items == q.items[n..]
    decreases n
  {
    if n > 0 {
      var (q1, x) := PopFront(q);
      PopNTakesPrefix(q1, n - 1);
      assert q.items[..n] == [q.items[0]] + q.items[1..][..n - 1];
      assert q.items[n..] == q.items[1..][n - 1..];
    }
  }

  /** Back pushes come out first in, first out: on an empty queue, pushing
      `xs` and popping as many yields `xs` and leaves the queue empty. */
  lemma BackPushesAreFifo<T>(q: Queue<T>, xs: seq<T>)
    requires !q.locked && !q.closed && q.items == []
    ensures var p := PushBackAll(q, xs);
      |p.items| == |xs| && PopN(p, |xs|).1 == xs && PopN(p, |xs|).0.items == []
  {
    PushBackAllAppends(q, xs);
    var p := PushBackAll(q, xs);
    PopNTakesPrefix(p, |xs|);
    assert p.items[..|xs|] == xs;
  }

  /** A front push overtakes everything already queued. */
  lemma FrontPushIsPoppedFirst<T>(q: Queue<T>, x: T)
    requires !q.locked && !q.closed
    ensures var p := PushFront(q, x).0;
      |p.items| > 0 && PopFront(p).1 == x && PopFront(p).0.items == q.items
  {
  }
}

=== FILE: unaryops.dfy ===
/** The unary opcodes: four that call one runtime function each, and
    UNARY_NOT. */
module Unaryops {
  import opened Wrappers
  import opened Values
  import opened Frame

  datatype UnaryOp = Convert | InvertOp | PositiveOp | NegativeOp

  /** The runtime function each generic unary opcode calls: `PyObject_Repr`
      for UNARY_CONVERT, then `PyNumber_Invert`, `PyNumber_Positive` and
      `PyNumber_Negative`. */
  function ApiFor(op: UnaryOp): (api: Api)
    ensures op == Convert <==> api == Repr
    ensures op == InvertOp <==> api == Invert
    ensures op == PositiveOp <==> api == Positive
    ensures op == NegativeOp <==> api == Negative
  {
    match op
    case Convert => Repr
    case InvertOp => Invert
    case PositiveOp => Positive
    case NegativeOp => Negative
  }

  /** GenericUnaryOp: pops the operand and pushes the function's result; a
      NULL result propagates with the operand gone and nothing pushed. */
  function GenericUnaryOp(rt: Runtime, s: State, op: UnaryOp): (r: Step)
    requires |s.stack| >= 1
    ensures r.Fall? || r.ToPropagate?
    ensures var v := rt.call(ApiFor(op), [Peek(s, 1)]);
      (r.ToPropagate? <==> v == Null)
      && (r.ToPropagate? ==> r.s == Drop(s, 1).(err := rt.raised(ApiFor(op), [Peek(s, 1)])))
      && (r.Fall? ==> r.s == s.(stack := s.stack[..|s.stack| - 1] + [v]))
  {
    var (s1, v) := Pop(s);
    PushResultOf(rt, s1, ApiFor(op), [v])
  }

  /** UNARY_NOT: pops the operand and pushes False if it is true, True
      otherwise; a failing truth test propagates. */
  function UnaryNot(rt: Runtime, s: State): (r: Step)
    requires |s.stack| >= 1
    ensures r.Fall? || r.ToPropagate?
    ensures r.ToPropagate? <==> IsPythonTrue(rt, Peek(s, 1)).TruthFailed?
    ensures r.ToPropagate? ==> r.s == Drop(s, 1).(err := IsPythonTrue(rt, Peek(s, 1)).err)
    ensures r.Fall? ==> |r.s.stack| == |s.stack| && Drop(r.s, 1) == Drop(s, 1)
    ensures r.Fall? ==> (Peek(r.s, 1) == FalseObj <==> IsPythonTrue(rt, Peek(s, 1)) == Truth(true))
    ensures r.Fall? ==> Peek(r.s, 1) in {TrueObj, FalseObj}
  {
    var (s1, v) := Pop(s);
    match IsPythonTrue(rt, v)
    case TruthFailed(e) => ToPropagate(s1.(err := e))
    case Truth(b) => Fall(Push(s1, Bool(!b)))
  }

  /** UNARY_NOT twice leaves the operand's truth as a boolean singleton; on a
      boolean it is the identity. */
  lemma NotNotIsTruth(rt: Runtime, s: State)
    requires |s.stack| >= 1
    requires UnaryNot(rt, s).Fall?
    ensures var r := UnaryNot(rt, UnaryNot(rt, s).s);
      r.Fall? && Drop(r.s, 1) == Drop(s, 1)
      && (Peek(r.s, 1) == TrueObj <==> IsPythonTrue(rt, Peek(s, 1)) == Truth(true))
    ensures Peek(s, 1) in {TrueObj, FalseObj} ==> UnaryNot(rt, UnaryNot(rt, s).s).s == s
  {
    var s1 := UnaryNot(rt, s).s;
    assert Peek(s1, 1) in {TrueObj, FalseObj};
    if Peek(s, 1) in {TrueObj, FalseObj} {
      PopPush(s);
    }
  }
}

=== FILE: unwind.dfy ===
/** The unwind block: the compiled form of the interpreter's `fast_block_end`
    loop.  Returns, exceptions, `break` and `continue` all store a reason and
    branch here; the loop pops blocks (and the values above each block's level)
    until one of them takes the reason, or runs out of blocks and returns. */
module Unwinding {
  import opened Values
  import opened Frame

  /** Where the unwind block sends control: to a handler through the unwind
      target switch, or, with no block left, to the return block. */
  datatype Exit = Handled(target: int, s: State) | Exhausted(s: State)

  /** Whether a block stops an unwind for `why`: a loop block takes `break`
      and `continue`, an except block takes exceptions, and a finally block
      takes every reason. */
  predicate Intercepts(b: Block, why: Reason) {
    match b.kind
    case LoopBlock => why == Break || why == Continue
    case ExceptBlock => why == Exception
    case FinallyBlock => true
  }

  /** The index of the innermost block that stops an unwind for `why`, or -1. */
  function Innermost(blocks: seq<Block>, why: Reason): (j: int)
    ensures -1 <= j < |blocks|
    ensures j >= 0 ==> Intercepts(blocks[j], why)
    ensures forall i :: j < i < |blocks| ==> !Intercepts(blocks[i], why)
    decreases |blocks|
  {
    if |blocks| == 0 then -1
    else if Intercepts(blocks[|blocks| - 1], why) then |blocks| - 1
    else Innermost(blocks[..|blocks| - 1], why)
  }

  function NoneIfNull(v: Value): (r: Value)
    ensures r != Null
    ensures v != Null ==> r == v
  {
    if v == Null then NoneObj else v
  }

  /** What the unwind block leaves on the stack for a handler of the given
      kind: the pending exception as traceback, value, type (missing parts
      become None) when unwinding an exception; for a finally block otherwise
      the return value or continue target when there is one, then the reason
      as an int; nothing for a loop. */
  function Payload(kind: BlockKind, why: Reason, retval: Value, err: ExcTriple): seq<Value> {
    if why == Exception && kind != LoopBlock then [NoneIfNull(err.tb), NoneIfNull(err.value), err.typ]
    else if kind != FinallyBlock then []
    else if why == ReturnReason || why == Continue then [retval, IntObj(why)]
    else [IntObj(why)]
  }

  /** _PyLlvm_FastEnterExceptOrFinally: fetches and clears the pending
      exception and pushes traceback, value and type, as the interpreter's
      `fast_block_end` does.  (Normalising the exception and setting
      `sys.exc_info` for an except block change nothing this model holds.) */
  function PushException(s: State): (r: State)
    ensures r.err == NoError
    ensures r.stack == s.stack + [NoneIfNull(s.err.tb), NoneIfNull(s.err.value), s.err.typ]
    ensures r.(stack := s.stack, err := s.err) == s
  {
    var e := s.err;
    Push(Push(Push(s.(err := NoError), NoneIfNull(e.tb)), NoneIfNull(e.value)), e.typ)
  }

  /** The opcode index a `continue` jumps to: the return value slot holds it
      boxed, and it is unboxed and truncated to 32 bits.  Unboxing a non-int
      gives -1. */
  function ContinueTarget(retval: Value): int {
    TruncToI32(if IsInt(retval) then IntValue(retval) else -1)
  }

  /** Enters a block's handler: NOUNWIND, and the handler as unwind target. */
  function EnterHandler(s: State, b: Block): (r: Exit)
    ensures r.Handled? && r.target == b.handler
    ensures r.s == s.(reason := NoUnwind, target := b.handler)
  {
    Handled(b.handler, s.(reason := NoUnwind, target := b.handler))
  }

  /** The unwind loop for reason `why` (loaded once, before the loop).  A loop
      block meeting `continue` is put back and control goes to the continue
      target; any other block first pops the stack to its level and is either
      entered or dropped.  With no blocks left the stack is emptied and the
      return value kept only when returning. */
  function UnwindFrom(s: State, why: Reason): (r: Exit)
    ensures r.Exhausted? <==> Innermost(s.blocks, why) < 0
    ensures r.Exhausted? ==>
      r.s == s.(stack := [], blocks := [], retval := if why == ReturnReason then s.retval else Null)
    ensures r.Handled? ==>
      var j := Innermost(s.blocks, why);
      0 <= j && r.s.reason == NoUnwind && r.s.target == r.target
      && r.s.(stack := s.stack, blocks := s.blocks, reason := s.reason, target := s.target, err := s.err) == s
      && (if s.blocks[j].kind == LoopBlock && why == Continue
          then r.s.blocks == s.blocks[..j + 1] && r.target == ContinueTarget(s.retval) && r.s.err == s.err
          else r.s.blocks == s.blocks[..j] && r.target == s.blocks[j].handler
               && r.s.err == (if why == Exception then NoError else s.err))
    decreases |s.blocks|
  {
    if |s.blocks| == 0 then
      Exhausted(PopTo(s, 0).(retval := if why == ReturnReason then s.retval else Null))
    else
      var b := s.blocks[|s.blocks| - 1];
      if b.kind == LoopBlock && why == Continue then
        var t := ContinueTarget(s.retval);
        Handled(t, s.(reason := NoUnwind, target := t))
      else
        var s1 := PopTo(s.(blocks := s.blocks[..|s.blocks| - 1]), b.level);
        assert s1.blocks == s.blocks[..|s.blocks| - 1];
        match b.kind
        case LoopBlock =>
          if why == Break then EnterHandler(s1, b) else UnwindFrom(s1, why)
        case ExceptBlock =>
          if why == Exception then EnterHandler(PushException(s1), b) else UnwindFrom(s1, why)
        case FinallyBlock =>
          if why == Exception then EnterHandler(PushException(s1), b)
          else if why == ReturnReason || why == Continue then
            EnterHandler(Push(Push(s1, s.retval), IntObj(why)), b)
          else EnterHandler(Push(s1, IntObj(why)), b)
  }

  /** The unwind block, entered with the reason in its slot.  It leaves the
      function exactly when no block takes the reason, with both stacks
      emptied; otherwise it enters the innermost block that does, at its
      handler (or, for `continue`, at the loop's continue target), and on a
      well-nested block stack the handler runs on `HandlerStack`. */
  function Unwind(s: State): (r: Exit)
    ensures r.Exhausted? <==> Innermost(s.blocks, s.reason) < 0
    ensures r.Exhausted? ==>
      r.s.stack == [] && r.s.blocks == []
      && r.s.retval == (if s.reason == ReturnReason then s.retval else Null)
    ensures r.Handled? ==>
      var j := Innermost(s.blocks, s.reason);
      0 <= j && r.s.reason == NoUnwind && r.s.target == r.target
      && r.target == (if s.blocks[j].kind == LoopBlock && s.reason == Continue
                      then ContinueTarget(s.retval) else s.blocks[j].handler)
    ensures WellNested(s) && r.Handled? ==> r.s.stack == HandlerStack(s, s.reason)
  {
    if WellNested(s) then UnwindStackShape(s, s.reason); UnwindFrom(s, s.reason)
    else UnwindFrom(s, s.reason)
  }

  /** The block stack was built by SETUP_* opcodes: each block's level is the
      stack depth when it was pushed, so levels never decrease inward and none
      lies above the current depth. */
  predicate WellNested(s: State) {
    (forall i, k :: 0 <= i < k < |s.blocks| ==> s.blocks[i].level <= s.blocks[k].level)
    && (forall i :: 0 <= i < |s.blocks| ==> s.blocks[i].level <= |s.stack|)
  }

  /** The state the unwind loop goes on with after dropping the innermost
      block. */
  function DropBlock(s: State): (r: State)
    requires |s.blocks| > 0
    ensures r.blocks == s.blocks[..|s.blocks| - 1]
    ensures r.stack == s.stack[..Min(s.blocks[|s.blocks| - 1].level, |s.stack|)]
  {
    PopTo(s.(blocks := s.blocks[..|s.blocks| - 1]), s.blocks[|s.blocks| - 1].level)
  }

  /** A block that does not take the reason is popped, with the values above
      its level, and the loop goes on. */
  lemma UnwindPassesOver(s: State, why: Reason)
    requires |s.blocks| > 0 && !Intercepts(s.blocks[|s.blocks| - 1], why)
    ensures UnwindFrom(s, why) == UnwindFrom(DropBlock(s), why)
    ensures Innermost(s.blocks, why) == Innermost(DropBlock(s).blocks, why)
  {
  }

  /** A block that takes the reason is entered with its payload on the stack
      popped to its level. */
  lemma UnwindEnters(s: State, why: Reason)
    requires |s.blocks| > 0
    requires var b := s.blocks[|s.blocks| - 1]; Intercepts(b, why) && !(b.kind == LoopBlock && why == Continue)
    ensures var b := s.blocks[|s.blocks| - 1];
      UnwindFrom(s, why).s.stack == DropBlock(s).stack + Payload(b.kind, why, s.retval, s.err)
  {
  }

  /** The stack a handler starts on: the stack as it was when the block was
      set up plus the payload for the block's kind.  For a `continue` caught by
      a loop block, the values above the innermost block inside the loop are
      gone and nothing is added. */
  function HandlerStack(s: State, why: Reason): seq<Value>
    requires WellNested(s)
    requires Innermost(s.blocks, why) >= 0
  {
    var j := Innermost(s.blocks, why);
    if s.blocks[j].kind == LoopBlock && why == Continue then
      s.stack[..if j + 1 < |s.blocks| then s.blocks[j + 1].level else |s.stack|]
    else
      s.stack[..s.blocks[j].level] + Payload(s.blocks[j].kind, why, s.retval, s.err)
  }

  /** Dropping a block that does not take the reason leaves the handler's
      stack as it was. */
  lemma HandlerStackAfterDrop(s: State, why: Reason)
    requires WellNested(s) && |s.blocks| > 0
    requires !Intercepts(s.blocks[|s.blocks| - 1], why)
    requires Innermost(s.blocks, why) >= 0
    ensures WellNested(DropBlock(s))
    ensures Innermost(DropBlock(s).blocks, why) == Innermost(s.blocks, why)
    ensures HandlerStack(DropBlock(s), why) == HandlerStack(s, why)
  {
    var n := |s.blocks| - 1;
    var b := s.blocks[n];
    var s1 := DropBlock(s);
    assert s1.stack == s.stack[..b.level];
    var j := Innermost(s.blocks, why);
    if s.blocks[j].kind == LoopBlock && why == Continue {
      if j + 1 < n {
        assert s.blocks[j + 1].level <= b.level;
        assert s1.stack[..s.blocks[j + 1].level] == s.stack[..s.blocks[j + 1].level];
      } else {
        assert s1.stack[..|s1.stack|] == s.stack[..b.level];
      }
    } else {
      assert s.blocks[j].level <= b.level;
      assert s1.stack[..s.blocks[j].level] == s.stack[..s.blocks[j].level];
    }
  }

  /** On a well-nested block stack, the handler the unwind loop reaches runs
      on `HandlerStack`. */
  lemma {:induction false} UnwindStackShape(s: State, why: Reason)
    requires WellNested(s)
    ensures UnwindFrom(s, why).Handled? ==> UnwindFrom(s, why).s.stack == HandlerStack(s, why)
    decreases |s.blocks|
  {
    if |s.blocks| > 0 {
      var n := |s.blocks| - 1;
      var b := s.blocks[n];
      if b.kind == LoopBlock && why == Continue {
        assert Innermost(s.blocks, why) == n;
        assert s.stack[..|s.stack|] == s.stack;
      } else if Intercepts(b, why) {
        assert Innermost(s.blocks, why) == n;
        UnwindEnters(s, why);
      } else if Innermost(s.blocks, why) >= 0 {
        UnwindPassesOver(s, why);
        HandlerStackAfterDrop(s, why);
        UnwindStackShape(DropBlock(s), why);
      }
    }
  }

  /** A return with no finally block on the block stack comes out of the
      unwind block with the return value intact and the stacks emptied. */
  lemma ReturnWithoutFinally(s: State)
    requires s.reason == ReturnReason
    requires forall i :: 0 <= i < |s.blocks| ==> s.blocks[i].kind != FinallyBlock
    ensures Unwind(s) == Exhausted(s.(stack := [], blocks := []))
  {
    assert Innermost(s.blocks, ReturnReason) < 0;
  }

  /** An exception with no except or finally block returns NULL from the
      function with the exception still pending. */
  lemma ExceptionWithoutHandler(s: State)
    requires s.reason == Exception
    requires forall i :: 0 <= i < |s.blocks| ==> s.blocks[i].kind == LoopBlock
    ensures Unwind(s) == Exhausted(s.(stack := [], blocks := [], retval := Null))
  {
    assert Innermost(s.blocks, Exception) < 0;
  }

  /** A `break` is taken by the innermost loop or finally block, whichever is
      nearer, and never by an except block. */
  lemma BreakSkipsExceptBlocks(s: State)
    requires s.reason == Break
    requires |s.blocks| > 0 && s.blocks[|s.blocks| - 1].kind == ExceptBlock
    ensures Unwind(s) == UnwindFrom(PopTo(s.(blocks := s.blocks[..|s.blocks| - 1]), s.blocks[|s.blocks| - 1].level), Break)
  {
  }
}

=== FILE: values.dfy ===
/** The objects, reason codes and runtime entry points that the generated
    machine code manipulates, seen from outside the Python runtime.

    Python objects are modelled by what the generated code can observe about
    them: identity (structural equality here), the few exact types it tests
    for, and integers it boxes and unboxes.  Everything the runtime computes
    is an oracle (`Runtime`): a call either returns an object or fails, and a
    failing call leaves an exception pending. */
module Values {

  /** The exact type (`ob_type`) of an object, as far as the code tests it. */
  datatype TypeTag =
    | NoneType | BoolType | IntType | StrType | UnicodeType
    | ListType | TupleType | DictType | ModuleType | CFunctionType | TypeType
    | ExcType(name: string)
    | UserType(id: nat)

  /** A C function pointer stored in a method definition. */
  datatype CPtr = BuiltinLen | CFn(id: nat)

  /** A `PyMethodDef`: the C entry point, whether it declares an arity range
      (`METH_ARG_RANGE`), and that range. */
  datatype MethodDef = MethodDef(meth: CPtr, argRange: bool, minArity: int, maxArity: int)

  /** A `PyObject *` as the generated code sees it. */
  datatype Value =
    | Null                                  // the NULL pointer
    | NoneObj | TrueObj | FalseObj          // the singletons
    | IntObj(n: int)                        // a boxed int
    | StrObj(s: string)                     // a byte string
    | TypeObj(tag: TypeTag, exact: bool)    // a type object; `exact` when its own type is `type`
    | CFunc(def: MethodDef, self: Value)    // a builtin function object (`PyCFunctionObject`)
    | SeqObj(typ: TypeTag, items: seq<Value>) // a list or tuple a literal built, with its items
    | Obj(id: nat, typ: TypeTag)            // any other object, with its exact type

  /** The exact type of a non-NULL object. */
  function TypeOf(v: Value): (t: TypeTag)
    requires v != Null
  {
    match v
    case NoneObj => NoneType
    case TrueObj => BoolType
    case FalseObj => BoolType
    case IntObj(_) => IntType
    case StrObj(_) => StrType
    case TypeObj(_, exact) => if exact then TypeType else UserType(0)
    case CFunc(_, _) => CFunctionType
    case SeqObj(t, _) => t
    case Obj(_, t) => t
  }

  /** `ob_type` as a type object; NULL has none. */
  function ObType(v: Value): (t: Value)
    ensures v != Null ==> t == TypeObj(TypeOf(v), true)
    ensures v == Null ==> t == Null
  {
    if v == Null then Null else TypeObj(TypeOf(v), true)
  }

  /** `PyInt_Check`: ints and, since bool subclasses int, the two booleans. */
  predicate IsInt(v: Value) {
    v.IntObj? || v == TrueObj || v == FalseObj
  }

  /** `PyInt_AsLong` of an int object. */
  function IntValue(v: Value): int
    requires IsInt(v)
  {
    match v
    case IntObj(n) => n
    case TrueObj => 1
    case FalseObj => 0
  }

  /** `PyExceptionClass_Check`: a type object deriving from BaseException. */
  predicate IsExceptionClass(v: Value) {
    v.TypeObj? && v.tag.ExcType?
  }

  /** The boolean singleton for a truth value. */
  function Bool(b: bool): (v: Value)
    ensures v == TrueObj || v == FalseObj
    ensures v == TrueObj <==> b
  {
    if b then TrueObj else FalseObj
  }

  /** The type object of a built-in type, as feedback records it. */
  function TypeObject(t: TypeTag): Value {
    TypeObj(t, true)
  }

  const StopIteration: Value := TypeObj(ExcType("StopIteration"), true)
  const SystemError: Value := TypeObj(ExcType("SystemError"), true)
  const NameError: Value := TypeObj(ExcType("NameError"), true)
  const ValueError: Value := TypeObj(ExcType("ValueError"), true)
  const UnboundLocalError: Value := TypeObj(ExcType("UnboundLocalError"), true)

  /** The thread's pending exception (`curexc_type`, `curexc_value`,
      `curexc_traceback`); a NULL type means no exception is pending. */
  datatype ExcTriple = ExcTriple(typ: Value, value: Value, tb: Value)

  const NoError := ExcTriple(Null, Null, Null)

  /** An exception raised with a message string. */
  function ErrorWith(typ: Value, msg: string): (e: ExcTriple)
    ensures e.typ == typ && (typ != Null ==> e != NoError)
  {
    ExcTriple(typ, StrObj(msg), Null)
  }

  /** The unwind reason is an 8-bit slot in the generated function. */
  type Reason = r: int | 0 <= r < 256

  /** The reason codes (the values of CPython's `why` codes).  Only their
      distinctness matters to the generated code. */
  const NoUnwind: Reason := 1
  const Exception: Reason := 2
  const Reraise: Reason := 4
  const ReturnReason: Reason := 8
  const Break: Reason := 16
  const Continue: Reason := 32
  const Yield: Reason := 64

  /** Truncation of a C long to the 8-bit reason slot (`CreateTrunc` to i8). */
  function TruncToReason(n: int): (r: Reason)
    ensures 0 <= n < 256 ==> r == n
  {
    n % 256
  }

  /** Truncation of a C long to a 32-bit int, two's complement. */
  function TruncToI32(n: int): (r: int)
    ensures -0x8000_0000 <= r < 0x8000_0000
    ensures -0x8000_0000 <= n < 0x8000_0000 ==> r == n
    ensures (r - n) % 0x1_0000_0000 == 0
  {
    (n + 0x8000_0000) % 0x1_0000_0000 - 0x8000_0000
  }

  /** The three kinds of entry on the block stack (`b_type`). */
  datatype BlockKind = LoopBlock | ExceptBlock | FinallyBlock

  /** A `PyTryBlock`: its kind, the opcode index of its handler and the stack
      depth when it was set up. */
  datatype Block = Block(kind: BlockKind, handler: int, level: nat)

  /** What `f_bailed_from_llvm` records about why machine code handed the frame
      back to the interpreter. */
  datatype BailReason =
    | NotBailed | TraceOnEntry | LineTrace | BackedgeTrace | CallProfile
    | GuardFail | FatalGuardFail

  /** The guard kinds passed to `CreateGuardBailPoint`; only instrumented builds
      store them. */
  datatype GuardKind = CFuncGuard | AttrGuard | StoreSubscrGuard | BranchGuard

  /** The runtime entry points the generated code calls. */
  datatype Api =
    | GetIter | IterNext | ErrMatches
    | GetAttr | SetAttr | GenericGetAttr | GenericSetAttr
    | Repr | Invert | Positive | Negative | IsTrue
    | RichCompare(op: nat) | Contains | ExceptionMatches | OptimizedCompare(name: string)
    | CallFunction | CallFunctionVarKw | CallCFunction(fn: CPtr) | LenOf(t: TypeTag)
    | LoadName | StoreName | DeleteName
    | StoreGlobal | DeleteGlobal
    | ApplySlice | AssignSlice | BuildSlice
    | NewList | NewTuple | NewDict
    | UnpackIterable(n: nat) | UnpackItem(i: nat) | StoreSubscr | StoreSubscrListInt | DeleteSubscr
    | ListAppend | DictSetItem | ImportName
    | NewFunction | SetClosure | SetDefaults | CellGet | CellSet | RaiseUnboundFreeVar
    | DoRaise | Ticker

  /** The runtime as an oracle.  `call` gives the object an entry point returns
      (NULL on failure), `status` the int it returns, and `raised` the exception
      it leaves pending when it fails. */
  datatype Runtime = Runtime(
    call: (Api, seq<Value>) -> Value,
    status: (Api, seq<Value>) -> int,
    raised: (Api, seq<Value>) -> ExcTriple)

  /** `k` NULL pointers: the empty slots of a freshly allocated tuple or
      list, and the padding of a direct call's argument list. */
  function Nulls(k: nat): (r: seq<Value>)
    ensures |r| == k && forall i :: 0 <= i < k ==> r[i] == Null
  {
    seq(k, _ => Null)
  }
}

=== FILE: wrappers.dfy ===
/** Failure-compatible Option, used for the NULL-or-value results of the model. */
module Wrappers {

  /** A value that may be absent, the model's stand-in for a nullable pointer. */
  datatype Option<+T> = None | Some(value: T) {

    /** True if is None */
    predicate IsFailure() {
      None?
    }

    /** Converts a None result to an Option of another value type. */
    function PropagateFailure<U>(): Option<U>
      requires None?
    {
      None
    }

    /** Returns the value held in Some */
    function Extract(): T
      requires Some?
    {
      value
    }

    /** Returns the value held in Some, or a default if None */
    function GetOr(default: T): T {
      match this
      case Some(v) => v
      case None() => default
    }
  }
}
